=== FILE: README.md ===
# R&D attribution pipeline — a Dafny model

The pipeline estimates how much of a company group's R&D spending goes to a
set of technology categories. It takes the top R&D spenders (the parent
companies), screens the activity descriptions of their subsidiaries for
category keywords, and computes each parent's *exposure*: the share of its
subsidiaries' turnover that matched a keyword. The parent's R&D is then
scaled by that exposure ("clean" R&D). That figure is rolled up to the
parent's global ultimate owner (GUO) and shared out to the subsidiaries in
proportion to their exposure shares.

Overlapping ownership is resolved by three inclusion methods, each carried
separately through every step:
- `keep_all` keeps every link.
- `keep_comps` drops subsidiaries that are themselves parents.
- `keep_subs` drops parents that are themselves subsidiaries.

The repository holds two versions of the pipeline, and they are modelled
separately, never merged:

- **The newer pipeline** (`rnd_new_approach/rnd_methods.py`) does identity and
  financial clean-up, top-R&D selection, method flags and keyword screening.
  It computes exposure for all methods at once, then parent, GUO and
  subsidiary R&D.
  - Its subsidiary allocation divides by the parent's exposure.
  - Its `keep_comps` tests a subsidiary against the tracked parent ids.
- **The older pipeline** (`methods.py`) selects top companies per region, then
  does link clean-up, method flags, screening, and exposure and R&D for one
  method at a time.
  - Its subsidiary allocation divides by the sum of the subsidiary exposures
    of the parent and year.
  - Its `keep_comps` tests a subsidiary against the link table's own parent
    column.

## How the tables are modelled

- Tables are `seq`s of immutable record datatypes.
- pandas' missing value is `Option<real>` (module `Missing`), and money is an
  exact `real`.
- Sums skip missing values, and an all-missing sum is 0.
- A division by zero gives a missing value. pandas would give an infinity or
  NaN.
- The pandas operations become generic functions in module `Tables`:
  - `drop_duplicates(keep='first')` is `DedupBy` / `DropDuplicates`.
  - `groupby().sum()` is `GroupKeys` / `GroupSum`.
  - `merge(how='left')` is `LeftJoin`, with one output row per matching
    right row.
  - `melt` is `Melt`.
  - Boolean indexing is `Filter`.
- The configuration (year labels, keyword map, category names, `rnd_limit`
  and the methods) is passed in as parameters.

Modules, in dependency order:
`Missing`, `Tables`, `Schema`, `Text`, `Financials`, `Identity`, `Selection`,
`Flags`, `Screening`, `Exposure`, `ParentAllocation`, `GuoRollup`,
`SubAllocation` (newer pipeline) and `MainCompAllocation` (older pipeline).

Notes on the code:
- The newer pipeline keeps rows whose exposure is undefined; the drops are
  commented out at rnd_methods.py lines 416 and 451. Only the older pipeline
  drops them (methods.py line 539).
- The older pipeline divides a subsidiary's allocation by the per-(parent,
  year) sum of subsidiary exposures, not by the parent exposure.
- `keep_comps` tests against different id sets in the two versions.
- Negative R&D is clamped cell by cell (`Financials.ClampRnd`, used by
  `Financials.LoadFins`). The loop as written zeroes whole rows instead; that
  behaviour is modelled separately and recorded under Findings.
- A keyword match is the intended "found in any of the three descriptions"
  (`Screening.KeywordIn`). As written, a missing trade description hides a
  match in the products description; that is recorded under Findings.
- The subsidiary exposure table is modelled before its `parent_conso` merge.
  That merge repeats each row once per consolidation code of the parent, which
  is recorded under Findings.

## Model

| member | source | states |
|---|---|---|
| Identity.CollectParentIds | rnd_new_approach/rnd_methods.py:41-58 | Every output link has an owner. A link read without an owner gets its parent as owner, and a link with an owner keeps it. Every output link comes from an input row, no output link repeats, and the output is no longer than the input. The kept links are the first occurrence of each filled link, in input order. |
| Identity.LoadSubIds | rnd_new_approach/rnd_methods.py:218-219 | Rows without a subsidiary id are dropped. Each subsidiary id with a row survives exactly once, as its first row in input order. |
| Identity.SelectSubs | methods.py:283 | Links with a missing parent or subsidiary id are dropped. No (parent, subsidiary) pair repeats. Every complete input link survives, and every output link was in the input. The kept links are the first occurrence of each pair, in input order. |
| Identity.KeptLinksSurvive | methods.py:283 | Every complete link is still present after the pair de-duplication. |
| Financials.ClampRnd | rnd_new_approach/rnd_methods.py:118-119 | No R&D value is negative after clamping, and a negative R&D cell becomes exactly 0. The same cells are present as before. Every non-R&D cell, every non-negative R&D cell and the row's identity are unchanged. |
| Financials.LoadFins | rnd_new_approach/rnd_methods.py:113-122 | Every output row has at least one R&D or revenue figure, and (id, consolidation) keys are unique. Each key that has such a row keeps its first one. No R&D value is negative. `rnd_sum` and `oprev_sum` are the missing-skipping row sums, and `rnd_sum` is non-negative. The same steps serve `load_sub_fins` (lines 243-250). |
| Financials.SummarizedFacts | rnd_new_approach/rnd_methods.py:114-122 | After de-duplication and clamping, keys stay unique. Every kept key still has a row, and every row keeps a figure and non-negative R&D. |
| Financials.ClampedRndSumNonNeg | rnd_new_approach/rnd_methods.py:118-121 | Once R&D is clamped, the missing-skipping R&D total of a row is non-negative. |
| Financials.AsWrittenZeroesWholeRow | rnd_new_approach/rnd_methods.py:118-119 | The loop as written turns a row into all zeros (id and texts included) exactly when some R&D value is negative, and leaves it unchanged otherwise. |
| Financials.NegativeRndCounterexample | rnd_new_approach/rnd_methods.py:118-119 | A row with R&D -5 and 10 loses its id and its 10 under the loop as written. Under the clamp it keeps both, and -5 becomes 0. |
| Financials.LoadMainCompFin | methods.py:224-233 | A row is kept if and only if it has some R&D figure and its company was selected. A kept row appears as often as in the input, and the kept rows are a subsequence of the input, in input order. |
| Financials.LoadSubsFin | methods.py:346-357 | At most one row per subsidiary. Each is the subsidiary's first row, kept only if that first row has revenue and the subsidiary is selected. A later row with revenue never replaces a first row without. |
| Financials.SubsFinFacts | methods.py:346-357 | A subsidiary that is selected and whose first row has revenue is present in the output. |
| Schema.YearOf | rnd_new_approach/rnd_methods.py:512 | The year of a label is 2000 plus the number its last two digits spell, so it lies in 2000..2099. |
| Schema.YearOfInjective | rnd_new_approach/rnd_methods.py:519-526 | Two labels decode to the same year exactly when their last two characters agree. This is what the (parent, year) join of R&D and revenue relies on. |
| Text.ContainsNoCase | rnd_new_approach/rnd_methods.py:349-351 | A text cell contains a keyword exactly when the upper-cased keyword occurs at some position of the upper-cased text. A missing text cell contains nothing. |
| Text.ContainsNoCaseIgnoresCase | rnd_new_approach/rnd_methods.py:349-351 | The match depends only on the upper-cased text and keyword, so a change of letter case on either side never changes it. |
| Screening.CategoryFlags | rnd_new_approach/rnd_methods.py:344-351 | A category's flag is true exactly when some keyword of that category occurs, ignoring case, in the trade, products or overview text. This is the intended match; the rule as written is `Screening.KeywordInAsWritten` (see Findings). |
| Screening.MatchInAnyCell | rnd_new_approach/rnd_methods.py:349-351 | A keyword found in any one of the three descriptions matches, whichever of the others are missing; and a match is always found in one of them. |
| Screening.AsWrittenAgreesWithTrade | rnd_new_approach/rnd_methods.py:349-351 | The `|` chain as written never matches where the intended rule does not. With the trade description present the two agree. Without it, the chain as written matches exactly when the overview does. |
| Screening.MissingTradeCounterexample | rnd_new_approach/rnd_methods.py:349-351 | A subsidiary with only a products description "Solar Panels" matches "solar panel" under the intended rule but not under the chain as written. |
| Screening.KeywordMask | rnd_new_approach/rnd_methods.py:357-358 | The mask is true exactly when some category other than `generation` and `rnd` is flagged. |
| Screening.MaskTurnover | rnd_new_approach/rnd_methods.py:360 | Masked turnover is present exactly when the mask holds, and then equals the turnover. |
| Screening.ScreenRow | rnd_new_approach/rnd_methods.py:344-360 | A screened subsidiary has the row's id, the category flags (intended match), the missing-skipping turnover over the exposure years, and the mask with its masked turnover, as the rules above define them. |
| Screening.ScreenSubFinsForKeywords | rnd_new_approach/rnd_methods.py:337-368 | Every output row screens some input row with the configured categories. Every input row has a screened row with its id and consolidation code. No output row repeats. |
| Screening.ScreenSubs | methods.py:467-486 | One screened row per subsidiary row, in order, with turnover summed over `operating_revenue_y10`..`y19`. Categories are the keyword map's entries, matched by the same intended rule (the older chain at lines 475-477 has the same missing-trade behaviour). |
| Screening.MaskedBelowTurnover | rnd_new_approach/rnd_methods.py:357-360 | Counted as a number, masked turnover is the turnover when the mask holds and 0 otherwise. |
| Screening.GenerationOnlyIsUnmasked | rnd_new_approach/rnd_methods.py:357-360 | For every row and category list: when no category other than `generation` and `rnd` is flagged, the row is outside the mask and its masked turnover is missing. |
| Selection.SortDesc | rnd_new_approach/rnd_methods.py:160 | The ranking is in non-increasing `rnd_mean` order, with missing values last. It is a permutation of the input, so it has the same total. |
| Selection.Ranked | rnd_new_approach/rnd_methods.py:160-162 | The ranked rows are, as a multiset, exactly the rows with a defined `rnd_mean`, in non-increasing order and with the same total as the whole table. |
| Selection.TopCount | rnd_new_approach/rnd_methods.py:158-160 | `count` is the least number whose top-`count` sum reaches the target: that sum reaches it, and every smaller prefix falls short. |
| Selection.SelectTop | rnd_new_approach/rnd_methods.py:158-162 | The selection is a sub-multiset of the table, has defined means and is sorted. It reaches the target, and no shorter prefix does. Every row ranked strictly above a selected row is selected too. |
| Selection.NonNegativeReaches | rnd_new_approach/rnd_methods.py:158-160 | With non-negative `rnd_mean` values and a fraction of at most 1, the loop's target is reachable, so the loop ends. |
| Selection.SelectParentIdsWithRndAsWritten | rnd_new_approach/rnd_methods.py:156-168 | As written, the result is the top selection with only exact duplicates dropped. It holds exactly the selected rows. |
| Selection.SelectParentIdsWithRnd | rnd_new_approach/rnd_methods.py:164 | With the `bvd9` de-duplication kept, every parent id appears once, every row is a selected row, and every selected id is present. The row kept per id is the first one of the selection, in selection order. |
| Selection.DuplicateParentCounterexample | rnd_new_approach/rnd_methods.py:160-166 | Two rows of one parent with different consolidation codes are both returned as written. The corrected version returns the first only. |
| Selection.StackRegions | methods.py:146-155 | Ids in the main list are unique. Each row has a defined mean and is in the top selection of some region. Every company selected in some region is represented. The row kept per company is its first row in the regional selections stacked in region order. |
| Selection.SelectMain | methods.py:122-155 | The same, with each region's target at 0.99 (or `limit`) of the region's total `rnd_mean`, and `rnd_mean` the missing-skipping mean of the R&D years. The first row per company of the stacked selections is kept. |
| Selection.StackedCovers | methods.py:155 | Every company selected in any region keeps a row in the de-duplicated main list. |
| Missing.MeanOf | methods.py:122 | The mean is missing exactly when every value is missing. Otherwise it times the number of present values equals their sum. |
| Flags.SubCountShared | rnd_new_approach/rnd_methods.py:309 | A subsidiary id occurs more than once exactly when two different rows carry it. |
| Flags.ScreenSubIdsForMethod | rnd_new_approach/rnd_methods.py:309-331 | Each link gets its flags, and no flagged row repeats. `keep_all` is always true. `keep_subs` holds iff the link's parent is nobody's subsidiary. `keep_comps` holds iff the subsidiary is not a tracked parent id. The duplicate flag holds iff the subsidiary id occurs in two rows. |
| Flags.FilterCompsAndSubs | methods.py:400-437 | The same flags in the older version, row for row. There `keep_comps` holds iff the subsidiary is not a parent in the link table itself. |
| Flags.PerParentCounts | methods.py:410-437 | For every parent, its `keep_comps` and `keep_subs` link counts are at most its `keep_all` count. `keep_all` holds on every link, so this bounds any filter's count by the parent's link count. |
| Exposure.ParentGroup | rnd_new_approach/rnd_methods.py:399-408 | The masked and raw sums are the missing-skipping sums of masked turnover and of turnover over the parent's joined rows. The exposure is defined exactly when the raw sum is non-zero, and then exposure times raw sum is the masked sum. The mask count is at most the parent's number of joined rows. |
| Exposure.RawSumSplitsOnMask | rnd_new_approach/rnd_methods.py:399-404 | The raw sum is the turnover of the parent's matched links plus that of its unmatched links. |
| Exposure.ParentExposures | rnd_new_approach/rnd_methods.py:399-412 | One row per parent that has an included link, and no parent twice. Each row is that parent's group aggregate. |
| Exposure.MaskedSumIsMatchedTurnover | rnd_new_approach/rnd_methods.py:399-404 | The numerator is the sum of the turnover over the parent's included links whose subsidiary matched a keyword. |
| Exposure.ExposureInUnitInterval | rnd_new_approach/rnd_methods.py:407-408 | With non-negative turnovers, a defined exposure lies in [0, 1]. |
| Exposure.MaskCountAtMostLinks | rnd_new_approach/rnd_methods.py:390-404 | When screened rows are unique per subsidiary, `keyword_mask_sum_in_parent` is at most the parent's number of included links. |
| Exposure.SubExposureOf | rnd_new_approach/rnd_methods.py:427-428 | A share is defined exactly when the subsidiary's masked turnover is present and the parent's raw sum is non-zero. Then share times raw sum is the masked turnover. |
| Exposure.SubExposures | rnd_new_approach/rnd_methods.py:419-430 | One subsidiary exposure row per joined row, in order, each carrying its parent's group aggregate. |
| Exposure.SharesSumToExposure | rnd_new_approach/rnd_methods.py:407-428 | For each method, the shares of a parent's subsidiaries add up to the parent's exposure. |
| Exposure.ShareColumnSumsToExposure | rnd_new_approach/rnd_methods.py:407-428 | The same, summed over the whole subsidiary table with the other parents' shares counted as 0. |
| Exposure.AsWrittenSharesRepeat | rnd_new_approach/rnd_methods.py:471-478 | After the `parent_conso` merge as written, a parent's shares add up to their total before the merge times the number of the parent's financial rows (1 when it has none). |
| Exposure.ComputeParentExposure | rnd_new_approach/rnd_methods.py:385-414 | The stacked table, with no row twice, holds one row per (method, parent with an included link). Each row is that method's group aggregate. |
| Exposure.ComputeSubExposure | rnd_new_approach/rnd_methods.py:385-449 | The stacked table, with no row twice, holds exactly the rows of every method's subsidiary table. |
| Exposure.ComputeMainCompExposure | methods.py:515-526 | The older group exposure for one method: one row per parent, each its group aggregate, and every parent of a joined row has its row. |
| Exposure.ComputeOldSubExposure | methods.py:505-539 | Every output row has a defined parent exposure and a defined share. Exactly the fully defined subsidiary rows of the method survive. |
| Exposure.OldSharesSumToExposure | methods.py:523-539 | After the rows with missing values are dropped, a parent's shares still add up to its exposure. |
| ParentAllocation.ParentRndForMethod | rnd_new_approach/rnd_methods.py:502-532 | Every row is tagged with the method, and the table has at least one row per (joined row of the method, R&D label), the melt's size. What each row holds is stated by ParentAllocation.ParentRndRows, and what it covers by ParentAllocation.ParentRndCovers and ParentAllocation.ParentRndPairsRevenue. |
| ParentAllocation.ParentRndRows | rnd_new_approach/rnd_methods.py:506-532 | Clean R&D is R&D times exposure. The label is a configured R&D year and the year is its decoded year. The R&D value comes from a financial row of the same parent. Any revenue comes from a revenue label of the same parent and the same year. When the parent has a revenue label for that year, the row's revenue is that of such a label, so it is missing only when that cell is. |
| ParentAllocation.ParentRndPairsRevenue | rnd_new_approach/rnd_methods.py:519-526 | Every R&D cell and every revenue cell of the same parent and year, both of the method, meet in some row of the table. |
| ParentAllocation.ParentRndCovers | rnd_new_approach/rnd_methods.py:506-526 | Every (exposure row, R&D label) pair of the method yields a row of the table. |
| ParentAllocation.CleanWithinRnd | rnd_new_approach/rnd_methods.py:528-530 | With exposure in [0, 1] and non-negative R&D, clean R&D lies between 0 and the R&D. |
| ParentAllocation.ComputeParentRnd | rnd_new_approach/rnd_methods.py:484-548 | The stacked table holds, without repeats, exactly the rows of the per-method tables of the configured methods. |
| GuoRollup.LinkedRows | rnd_new_approach/rnd_methods.py:570-596 | The rows that enter the grouping are exactly the joined rows whose parent has an owner, each paired with that owner. |
| GuoRollup.GuoRow | rnd_new_approach/rnd_methods.py:596-610 | The owner's exposure is defined exactly when its R&D sum is non-zero. Then exposure times R&D sum is the clean R&D sum. |
| GuoRollup.GuoRndForMethod | rnd_new_approach/rnd_methods.py:578-612 | One row per (owner, year) of the method's linked rows, none twice. Each is that group's aggregate. |
| GuoRollup.GuoRowIsParentSums | rnd_new_approach/rnd_methods.py:596-607 | Each owner row's revenue, R&D and clean R&D are the sums over the parent rows of that method and year that are linked to the owner. |
| GuoRollup.GuoTotalsAreParentTotals | rnd_new_approach/rnd_methods.py:596-607 | Summed over all owners, a method's owner clean R&D equals the clean R&D of its parent rows that have an owner. |
| GuoRollup.LinkedCleanIsParentClean | rnd_new_approach/rnd_methods.py:568-576 | When no parent has two owner links, the rows that enter the grouping carry each owned parent row's clean R&D exactly once. |
| GuoRollup.LinkedRowsSum | rnd_new_approach/rnd_methods.py:596 | Summing over the grouped rows equals summing over the joined rows that have an owner. |
| GuoRollup.GuoExposureInUnitInterval | rnd_new_approach/rnd_methods.py:609-610 | When every parent row's clean R&D lies between 0 and its R&D, a defined owner exposure lies in [0, 1]. |
| GuoRollup.ComputeGuoRnd | rnd_new_approach/rnd_methods.py:552-631 | The stacked owner table holds, without repeats, exactly the rows of the per-method tables. |
| SubAllocation.Allocate | rnd_new_approach/rnd_methods.py:675-676 | A subsidiary's clean R&D is defined exactly when parent clean R&D, the share and a non-zero parent exposure all are. Then clean times exposure equals parent clean times share. |
| SubAllocation.SubRndForMethod | rnd_new_approach/rnd_methods.py:645-680 | Every subsidiary exposure row of the method gives at least one row. Every row is tagged with the method, comes from a subsidiary exposure row of that method, and carries the allocation as its clean R&D. Its pairing with parent R&D rows is stated by SubAllocation.SubRndRows and SubAllocation.SubRndCovers. |
| SubAllocation.SubRndRows | rnd_new_approach/rnd_methods.py:648-678 | Each row is tagged with the method and comes from a subsidiary exposure row of that method. It is joined with a parent R&D row of the same parent and method when one exists, and its clean R&D is the allocation. |
| SubAllocation.SubRndCovers | rnd_new_approach/rnd_methods.py:652-657 | Every pair of a subsidiary exposure row and a parent R&D row of the same parent and method yields a row. |
| SubAllocation.AllocationConservesCleanRnd | rnd_new_approach/rnd_methods.py:675-676 | When the parent's exposure is defined and non-zero, the clean R&D allocated from one parent R&D row sums over the subsidiaries to that row's clean R&D. |
| SubAllocation.NothingFromUnexposedParent | rnd_new_approach/rnd_methods.py:675-676 | A parent with missing or zero exposure passes no clean R&D to any subsidiary. |
| SubAllocation.ComputeSubRnd | rnd_new_approach/rnd_methods.py:635-707 | The stacked table holds, without repeats, exactly the rows of the per-method tables. |
| MainCompAllocation.OldRndLabelsAreYears | methods.py:570-573 | The melted labels `rnd_y19`..`rnd_y10` all decode, to the years 2019 down to 2010. |
| MainCompAllocation.MainCompRndRows | methods.py:561-578 | Every kept row has clean R&D equal to R&D times exposure, and a label that decodes to its year. It comes from an exposure row and, when present, an R&D row of the same parent, with exposure and R&D both defined. |
| MainCompAllocation.MainCompRndCovers | methods.py:569-578 | Every (exposure row, matching R&D row, label) whose exposure and R&D are both present yields its row. |
| MainCompAllocation.FromSub | methods.py:598-609 | The per-(parent, year) share sum is present exactly when the subsidiary found a parent R&D row. |
| MainCompAllocation.ComputeOldSubRnd | methods.py:590-612 | One output row per joined row, in order. Each row comes from a subsidiary exposure row, joined with a parent R&D row of the same parent when one exists. Its clean R&D is defined exactly when a parent row, a share and a non-zero group share sum exist. Then clean times the group share sum equals parent clean times share. |
| MainCompAllocation.OldAllocationConserves | methods.py:598-612 | When a (parent, year) group's share sum is non-zero, its subsidiaries receive exactly the parent's clean R&D in total. |
| MainCompAllocation.OldAllocationConservesUnique | methods.py:598-612 | With one parent row per (parent, year), every parent row's clean R&D is shared out exactly, whenever its group's share sum is non-zero. |
| Tables.DedupBy | rnd_new_approach/rnd_methods.py:58 | The result keeps the first row of every key in input order, and no key twice. |
| Tables.FilterIsSubsequence | methods.py:224-233 | A filter keeps its rows in their original order: the result is a subsequence of the table. |
| Tables.LeftJoin | rnd_new_approach/rnd_methods.py:390-394 | Every left row appears, paired with every matching right row, or alone when nothing matches. Every output pair comes from the inputs. |
| Tables.Melt | rnd_new_approach/rnd_methods.py:506-510 | The melt holds exactly one cell for each (row, label) pair. |
| Tables.MeltLength | rnd_new_approach/rnd_methods.py:506-510 | The melt has `labels × rows` rows. |
| Tables.GroupKeys | rnd_new_approach/rnd_methods.py:399-401 | The group keys are distinct and are exactly the keys occurring in the table. |
| Tables.PartitionSum | rnd_new_approach/rnd_methods.py:596-598 | Summing the per-group sums over all keys gives the sum of the whole table. |
| Missing.Div | rnd_new_approach/rnd_methods.py:407-408 | A quotient is present exactly when both operands are present and the divisor is non-zero. Then quotient times divisor is the dividend. |

## Left out

- Reading and writing Excel and CSV files, directory handling and console
  output. The older functions' CSV outputs become returned tables, and their
  `report` frames are not built.
- `import_my_config`, `create_country_map` and the module-level country
  table. The configuration enters as parameters.
- The country-reference and name decoration joins, and the `guo_ids` merge
  of `compute_guo_rnd`. These are lookups with no logic of their own:
  - `load_parent_ids`, and the country join of `load_sub_ids`;
  - the `parent_name` merge of `compute_exposure`;
  - the `company_name` column of the older main-company R&D table.
- Exposure.SubExposures: the subsidiary table is modelled before the
  `parent_conso` merge of `compute_exposure` (rnd_methods.py lines 471-475),
  and so is SubAllocation.ComputeSubRnd's input. That merge is not a lookup: it
  repeats every row once per financial row of the parent, and the
  `drop_duplicates` at lines 478 and 705 keep the copies because their
  `parent_conso` differs. The merge is modelled separately as
  Exposure.AttachConsoAsWritten and recorded under Findings. The
  `parent_conso` merge of the parent exposure table (lines 459-463) repeats
  rows in the same way. It is not modelled: `compute_parent_rnd` projects
  `parent_conso` away, so those copies become exact duplicates.
- `update_report`, `pprint_report` and both `group_soeur_rnd_for_bench`
  definitions, because they are reporting and benchmark grouping only.
- `collect_sub_ids`: it only reads a file and projects two columns.
- Missing identifiers in the newer link table: `collect_sub_ids` does not
  drop rows with a missing `bvd9` or `sub_bvd9`, unlike the older
  `select_subs`. The loader it reads through is not part of this model, and
  a `Link` always holds both ids, so the newer link table is assumed to have
  both ids on every row.
- `select_main`'s `y_lastav` and `rnd_y_lastav` columns and its regional
  report. These are reporting columns that no later step reads.
- Row order after `groupby`: pandas sorts group keys, while the model lists
  groups in order of first appearance. Every stated property holds in either
  order.
- Missing identifiers in the financial tables: `Id` is always present, so the
  `dropna(subset=['bvd9'])` of `load_parent_fins` has nothing to remove.
- pandas dtype coercion, and infinities from division by zero. Both are
  modelled as exact `real` arithmetic with a missing result.
- `Text.ContainsNoCase`: case folding covers ASCII letters only. pandas
  upper-cases the full Unicode range.
- Schema.LabelYear: a label whose last two characters are not digits (where
  `int()` would raise) maps to year 0. Every caller requires all its labels
  to be year labels, so that case is never reached.
- GuoRollup.GuoRow: `guo_exposure_from_parent`, the mean of the parents'
  exposures, is kept as a diagnostic column only. No property is stated
  about it.
- SubAllocation.AllocationConservesCleanRnd: it is stated under two
  assumptions:
  - the method's subsidiary exposure rows are exactly one exposure
    computation's rows;
  - the projected parent R&D columns hold no repeated row.

  Without them, the left join fans out and a parent's clean R&D can be
  counted more than once.
- GuoRollup.LinkedCleanIsParentClean: it assumes at most one owner link per
  parent. `compute_guo_rnd` de-duplicates on (parent, owner) only, so a
  parent with two owners is counted under both.
- Exposure.MaskCountAtMostLinks: it assumes one screened row per subsidiary.
  In general the bound is the parent's number of joined rows, which
  Exposure.ParentGroup states.
- Selection.SelectTop: it requires `Selection.Reaches`, that some number of
  leading rows reaches the target. Otherwise the `while start < limit * sum`
  loop (methods.py lines 130-132, rnd_methods.py lines 158-160) never stops,
  because after every row is counted `start` stays below the target. This
  happens when `limit` is above 1, or when negative means make the target
  exceed the total. The newer pipeline clamps negative R&D first, and
  Selection.NonNegativeReaches proves the loop then stops for `limit` at
  most 1. The older `select_main` does not clamp, so a region whose
  `rnd_mean` values include a large enough negative one never stops. The
  model leaves that non-termination out.
- Commented-out code throughout both files.

## Findings

| source | as written | input that shows it | evidently intended | confidence | as-written member | corrected member |
|---|---|---|---|---|---|---|
| rnd_new_approach/rnd_methods.py:118-119 | `df[df[col] < 0] = 0` sets every cell of a row to 0 when one R&D year is negative, including `bvd9` and the texts (the same at line 247). | A row `A` with `rnd_y19 = -5` and `rnd_y18 = 10` becomes a row with id `0` and `rnd_y18 = 0`. | Clamp only the negative R&D cell to 0 and keep the rest of the row. | not executed | Financials.ZeroNegativeRowsAsWritten (shown by Financials.AsWrittenZeroesWholeRow and Financials.NegativeRndCounterexample) | Financials.ClampRnd (used by Financials.LoadFins) |
| rnd_new_approach/rnd_methods.py:349-351 | `trade.str.contains(k) \| products.str.contains(k) \| overview.str.contains(k)`: `str.contains` gives a missing value on a missing cell, and pandas' `\|` treats a missing left operand as false for the whole element. So a missing trade description hides a match in the products description (the same at methods.py lines 475-477). | A subsidiary with no trade description, products description "Solar Panels" and no overview: keyword "solar panel" does not match. | A keyword found in any one of the three descriptions matches. | not executed | Screening.KeywordInAsWritten (shown by Screening.MissingTradeCounterexample and Screening.AsWrittenAgreesWithTrade) | Screening.KeywordIn (with Screening.MatchInAnyCell; used by Screening.CategoryFlags) |
| rnd_new_approach/rnd_methods.py:471-478 | The subsidiary exposure table is merged with `parent_fins[['bvd9', 'parent_conso']]`, which has one row per (parent, consolidation code). Each subsidiary row is repeated once per code, and `drop_duplicates` keeps the copies. | A parent with financial rows under codes `C1` and `U1`: each of its subsidiary rows appears twice, and its shares add up to twice its exposure, so `compute_sub_rnd` allocates its clean R&D twice. | One row per subsidiary link, whose shares add up to the parent exposure. | not executed | Exposure.AttachConsoAsWritten (shown by Exposure.AsWrittenSharesRepeat) | Exposure.SubExposures (with Exposure.SharesSumToExposure and Exposure.ShareColumnSumsToExposure) |
| rnd_new_approach/rnd_methods.py:164 | `drop_duplicates(subset=['bvd9'])` is called without `inplace` and its result is discarded, so two rows of one parent can both be selected. | Two rows of parent `P` with consolidation codes `C1` and `U1` and `rnd_mean` 10 each: both are returned. | One row per parent id, the first. | not executed | Selection.SelectParentIdsWithRndAsWritten (shown by Selection.DuplicateParentCounterexample) | Selection.SelectParentIdsWithRnd |

=== FILE: exposure.dfy ===
/** Exposure of parent companies and subsidiaries. For one method, the links
    the method includes are joined with the screened subsidiary rows; per
    parent, the exposure is the masked turnover of its subsidiaries over their
    whole turnover, and each subsidiary's share is its own masked turnover over
    the parent's whole turnover. Both pipelines compute these the same way; the
    older one then drops the subsidiary rows whose exposure or share is
    missing. */
module Exposure {
  import opened Missing
  import opened Tables
  import opened Schema
  import opened Financials
  import opened Flags
  import opened Screening

  /** An included link joined with one screened row of its subsidiary, or with none. */
  type SubRow = Joined<FlaggedLink, ScreenedSub>

  predicate OnSub(f: FlaggedLink, s: ScreenedSub) {
    f.link.sub == s.sub
  }

  /** `merge(sub_ids[sub_ids[method] == True], screened, on='sub_bvd9', how='left')`. */
  function JoinScreened(flagged: seq<FlaggedLink>, screened: seq<ScreenedSub>, m: Method): seq<SubRow> {
    LeftJoin(Filter(flagged, KeptBy(m)), screened, OnSub)
  }

  function ParentOf(j: SubRow): Id {
    j.left.link.parent
  }

  /** `keyword_mask == True` after the join; an unmatched link is not masked. */
  predicate Matched(j: SubRow) {
    j.right.Some? && j.right.value.keywordMask
  }

  function MaskedOf(j: SubRow): Option<real> {
    if j.right.Some? then j.right.value.masked else None
  }

  function TurnoverOf(j: SubRow): Option<real> {
    if j.right.Some? then Some(j.right.value.turnover) else None
  }

  function OfParent(p: Id): SubRow -> bool {
    KeyIs(ParentOf, p)
  }

  function MatchedOfParent(p: Id): SubRow -> bool {
    (j: SubRow) => ParentOf(j) == p && Matched(j)
  }

  /** A screened row whose masked turnover is its turnover or missing, as screening makes it. */
  predicate Consistent(s: ScreenedSub) {
    (s.masked.Some? <==> s.keywordMask) && (s.masked.Some? ==> s.masked.value == s.turnover)
  }

  lemma ScreenedConsistent(s: ScreenedSub, d: Desc, turnover: real, cats: seq<Category>)
    requires ScreensAs(s, d, turnover, cats)
    ensures Consistent(s)
  {
  }

  // ---------------------------------------------------------------------------
  // Parent level

  /** One parent's group: number of masked subsidiary rows
      (`keyword_mask_sum_in_parent`), masked and whole turnover sums, and the
      exposure, their quotient. */
  datatype ParentExposure = ParentExposure(parent: Id, strategy: Method, maskCount: nat,
                                           maskedSum: real, rawSum: real, exposure: Option<real>)

  /** The group of parent `p` in the joined rows. */
  function ParentGroup(rows: seq<SubRow>, p: Id, m: Method): (pe: ParentExposure)
    ensures pe.parent == p && pe.strategy == m
    ensures pe.maskCount <= |Filter(rows, OfParent(p))|
    ensures pe.maskedSum == SumOf(Filter(rows, OfParent(p)), MaskedOf)
    ensures pe.rawSum == SumOf(Filter(rows, OfParent(p)), TurnoverOf)
    ensures pe.exposure.Some? <==> pe.rawSum != 0.0
    ensures pe.exposure.Some? ==> pe.exposure.value * pe.rawSum == pe.maskedSum
  {
    CountMono(rows, MatchedOfParent(p), OfParent(p));
    var masked := GroupSum(rows, ParentOf, p, MaskedOf);
    var raw := GroupSum(rows, ParentOf, p, TurnoverOf);
    ParentExposure(p, m, Count(rows, MatchedOfParent(p)), masked, raw, Div(Some(masked), Some(raw)))
  }

  function GroupOf(rows: seq<SubRow>, m: Method): Id -> ParentExposure {
    (p: Id) => ParentGroup(rows, p, m)
  }

  /** `groupby('bvd9').sum()` and the exposure quotient: one group per parent
      of the joined rows, in order of first appearance. */
  function ParentExposures(rows: seq<SubRow>, m: Method): (r: seq<ParentExposure>)
    ensures forall i, j :: 0 <= i < j < |r| ==> r[i].parent != r[j].parent
    ensures forall j :: j in rows ==> exists pe :: pe in r && pe.parent == ParentOf(j)
    ensures forall pe :: pe in r ==> pe == ParentGroup(rows, pe.parent, m) && exists j :: j in rows && ParentOf(j) == pe.parent
  {
    GroupsFacts(rows, m);
    MapSeq(GroupKeys(rows, ParentOf), GroupOf(rows, m))
  }

  lemma GroupsFacts(rows: seq<SubRow>, m: Method)
    ensures var r := MapSeq(GroupKeys(rows, ParentOf), GroupOf(rows, m));
      && (forall i, j :: 0 <= i < j < |r| ==> r[i].parent != r[j].parent)
      && (forall j :: j in rows ==> exists pe :: pe in r && pe.parent == ParentOf(j))
      && (forall pe :: pe in r ==> pe == ParentGroup(rows, pe.parent, m) && exists j :: j in rows && ParentOf(j) == pe.parent)
  {
    var ks := GroupKeys(rows, ParentOf);
    var r := MapSeq(ks, GroupOf(rows, m));
    GroupsAtKeys(rows, m, ks, r);
    GroupsCover(rows, m, ks, r);
    GroupsFrom(rows, m, ks, r);
  }

  lemma GroupsAtKeys(rows: seq<SubRow>, m: Method, ks: seq<Id>, r: seq<ParentExposure>)
    requires r == MapSeq(ks, GroupOf(rows, m)) && Distinct(ks)
    ensures forall i, j :: 0 <= i < j < |r| ==> r[i].parent != r[j].parent
  {
    forall i, j | 0 <= i < j < |r| ensures r[i].parent != r[j].parent {
      assert r[i] == GroupOf(rows, m)(ks[i]) && r[j] == GroupOf(rows, m)(ks[j]);
    }
  }

  lemma GroupsCover(rows: seq<SubRow>, m: Method, ks: seq<Id>, r: seq<ParentExposure>)
    requires r == MapSeq(ks, GroupOf(rows, m))
    requires forall j :: j in rows ==> ParentOf(j) in ks
    ensures forall j :: j in rows ==> exists pe :: pe in r && pe.parent == ParentOf(j)
  {
    forall j | j in rows ensures exists pe :: pe in r && pe.parent == ParentOf(j) {
      var i :| 0 <= i < |ks| && ks[i] == ParentOf(j);
      assert r[i] == GroupOf(rows, m)(ks[i]);
      assert r[i] in r;
    }
  }

  lemma GroupsFrom(rows: seq<SubRow>, m: Method, ks: seq<Id>, r: seq<ParentExposure>)
    requires r == MapSeq(ks, GroupOf(rows, m))
    requires forall k :: k in ks ==> exists j :: j in rows && ParentOf(j) == k
    ensures forall pe :: pe in r ==> pe == ParentGroup(rows, pe.parent, m) && exists j :: j in rows && ParentOf(j) == pe.parent
  {
    forall pe | pe in r ensures pe == ParentGroup(rows, pe.parent, m) && exists j :: j in rows && ParentOf(j) == pe.parent {
      var i :| 0 <= i < |r| && r[i] == pe;
      assert r[i] == GroupOf(rows, m)(ks[i]);
      assert ks[i] in ks;
    }
  }

  /** The masked sum of a parent is the turnover of its links whose subsidiary matched a keyword. */
  lemma MaskedSumIsMatchedTurnover(rows: seq<SubRow>, p: Id, m: Method)
    requires forall j :: j in rows && j.right.Some? ==> Consistent(j.right.value)
    ensures ParentGroup(rows, p, m).maskedSum == SumOf(Filter(rows, MatchedOfParent(p)), TurnoverOf)
  {
    var g := (j: SubRow) => if ParentOf(j) == p then MaskedOf(j) else None;
    SumOfFilter(rows, OfParent(p), MaskedOf, g);
    SumOfFilter(rows, MatchedOfParent(p), TurnoverOf, g);
  }

  function UnmatchedOfParent(p: Id): SubRow -> bool {
    (j: SubRow) => ParentOf(j) == p && !Matched(j)
  }

  /** The whole turnover of a parent, the exposure's denominator, is the
      turnover of its links whose subsidiary matched a keyword plus that of
      all its other links; a link without a screened row adds nothing. */
  lemma RawSumSplitsOnMask(rows: seq<SubRow>, p: Id, m: Method)
    ensures ParentGroup(rows, p, m).rawSum ==
      SumOf(Filter(rows, MatchedOfParent(p)), TurnoverOf) + SumOf(Filter(rows, UnmatchedOfParent(p)), TurnoverOf)
  {
    var all := (j: SubRow) => if ParentOf(j) == p then TurnoverOf(j) else None;
    var matched := (j: SubRow) => if MatchedOfParent(p)(j) then TurnoverOf(j) else None;
    var unmatched := (j: SubRow) => if UnmatchedOfParent(p)(j) then TurnoverOf(j) else None;
    SumOfFilter(rows, OfParent(p), TurnoverOf, all);
    SumOfFilter(rows, MatchedOfParent(p), TurnoverOf, matched);
    SumOfFilter(rows, UnmatchedOfParent(p), TurnoverOf, unmatched);
    SumOfAdd(rows, matched, unmatched, all);
  }

  /** With non-negative turnovers, a parent's exposure, when defined, lies in [0, 1]. */
  lemma ExposureInUnitInterval(rows: seq<SubRow>, p: Id, m: Method)
    requires forall j :: j in rows && j.right.Some? ==> Consistent(j.right.value) && j.right.value.turnover >= 0.0
    ensures var e := ParentGroup(rows, p, m).exposure; e.Some? ==> 0.0 <= e.value <= 1.0
  {
    var pe := ParentGroup(rows, p, m);
    var group := Filter(rows, OfParent(p));
    assert forall j :: j in group ==> j in rows;
    SumOfNonNeg(group, MaskedOf);
    SumOfMono(group, MaskedOf, TurnoverOf);
    if pe.exposure.Some? {
      UnitQuotient(pe.maskedSum, pe.rawSum, pe.exposure.value);
    }
  }

  lemma UnitQuotient(a: real, b: real, q: real)
    requires 0.0 <= a <= b && b != 0.0 && q * b == a
    ensures 0.0 <= q <= 1.0
  {
    assert b > 0.0;
    assert q == a / b;
  }

  /** The number of masked rows of a parent is at most its number of included
      links, when every subsidiary has at most one screened row. */
  lemma MaskCountAtMostLinks(flagged: seq<FlaggedLink>, screened: seq<ScreenedSub>, m: Method, p: Id)
    requires forall i, j :: 0 <= i < j < |screened| ==> screened[i].sub != screened[j].sub
    ensures ParentGroup(JoinScreened(flagged, screened, m), p, m).maskCount <=
      Count(Filter(flagged, KeptBy(m)), LinkOfParent(p))
  {
    var left := Filter(flagged, KeptBy(m));
    forall f | f in left ensures |Matches(f, screened, OnSub)| <= 1 {
      AtMostOneMatch(f, screened);
    }
    LeftJoinAtMostOne(left, screened, OnSub);
    SameParents(LeftJoin(left, screened, OnSub), left, p);
  }

  /** Joined rows that keep their links one for one have as many rows per parent as the links. */
  lemma SameParents(rows: seq<SubRow>, left: seq<FlaggedLink>, p: Id)
    requires |rows| == |left|
    requires forall i :: 0 <= i < |rows| ==> rows[i].left == left[i]
    ensures Count(rows, OfParent(p)) == Count(left, LinkOfParent(p))
  {
    forall i | 0 <= i < |rows| ensures OfParent(p)(rows[i]) == LinkOfParent(p)(left[i]) {
      assert ParentOf(rows[i]) == left[i].link.parent;
    }
    CountPointwise(rows, OfParent(p), left, LinkOfParent(p));
  }

  function LinkOfParent(p: Id): FlaggedLink -> bool {
    (f: FlaggedLink) => f.link.parent == p
  }

  function SubKey(s: ScreenedSub): Id {
    s.sub
  }

  /** A link matches at most one screened row when no subsidiary is screened twice. */
  lemma AtMostOneMatch(f: FlaggedLink, screened: seq<ScreenedSub>)
    requires forall i, j :: 0 <= i < j < |screened| ==> screened[i].sub != screened[j].sub
    ensures |Matches(f, screened, OnSub)| <= 1
  {
    FilterSingleKey(screened, MatchesOn(f, OnSub), SubKey, f.link.sub);
  }

  /** Tables of equal length whose rows pass their filters at the same positions pass as many rows. */
  lemma {:induction false} CountPointwise<A, B>(a: seq<A>, p: A -> bool, b: seq<B>, q: B -> bool)
    requires |a| == |b|
    requires forall i :: 0 <= i < |a| ==> p(a[i]) == q(b[i])
    ensures Count(a, p) == Count(b, q)
    decreases |a|
  {
    if |a| > 0 {
      assert forall i :: 0 <= i < |a| - 1 ==> a[1..][i] == a[i + 1] && b[1..][i] == b[i + 1];
      CountPointwise(a[1..], p, b[1..], q);
    }
  }

  // ---------------------------------------------------------------------------
  // Subsidiary level

  /** A joined row with its parent's group (the merge back on `bvd9`) and its
      share `sub_exposure`, the masked turnover over the parent's whole turnover. */
  datatype SubExposure = SubExposure(row: SubRow, parent: ParentExposure, share: Option<real>)

  /** One subsidiary row of the table of `rows`. */
  function SubExposureOf(rows: seq<SubRow>, m: Method, j: SubRow): (x: SubExposure)
    ensures x.row == j && x.parent == ParentGroup(rows, ParentOf(j), m)
    ensures x.share.Some? <==> MaskedOf(j).Some? && x.parent.rawSum != 0.0
    ensures x.share.Some? ==> x.share.value * x.parent.rawSum == MaskedOf(j).value
  {
    var pe := ParentGroup(rows, ParentOf(j), m);
    SubExposure(j, pe, Div(MaskedOf(j), Some(pe.rawSum)))
  }

  /** The subsidiary exposure table of one method: every joined row, in order, with its share. */
  function SubExposures(rows: seq<SubRow>, m: Method): (r: seq<SubExposure>)
    ensures |r| == |rows|
    ensures forall i :: 0 <= i < |rows| ==> r[i] == SubExposureOf(rows, m, rows[i])
    ensures forall x :: x in r ==> x.row in rows && x == SubExposureOf(rows, m, x.row)
  {
    MapSeq(rows, (j: SubRow) => SubExposureOf(rows, m, j))
  }

  function ShareOf(x: SubExposure): Option<real> {
    x.share
  }

  function SubOfParent(p: Id): SubExposure -> bool {
    (x: SubExposure) => ParentOf(x.row) == p
  }

  /** The share column restricted to the rows of parent `p`. */
  function ShareOfParent(p: Id): SubExposure -> Option<real> {
    (x: SubExposure) => if ParentOf(x.row) == p then x.share else None
  }

  /** The masked turnover column restricted to the rows of parent `p`. */
  function MaskedOfParent(p: Id): SubRow -> Option<real> {
    (j: SubRow) => if ParentOf(j) == p then MaskedOf(j) else None
  }

  /** The masked turnover of the rows of parent `p`, each over `raw`. */
  function ShareOfRow(p: Id, raw: real): SubRow -> Option<real> {
    (j: SubRow) => if ParentOf(j) == p then Div(MaskedOf(j), Some(raw)) else None
  }

  /** The shares of a parent's subsidiary rows add up to the parent's exposure
      (both count as 0 when the parent's whole turnover is 0). */
  lemma SharesSumToExposure(rows: seq<SubRow>, m: Method, p: Id)
    ensures SumOf(Filter(SubExposures(rows, m), SubOfParent(p)), ShareOf) == Val(ParentGroup(rows, p, m).exposure)
  {
    var subs := SubExposures(rows, m);
    var raw := ParentGroup(rows, p, m).rawSum;
    SumOfFilter(subs, SubOfParent(p), ShareOf, ShareOfParent(p));
    SharesByRow(rows, m, p);
    ExposureAsScaledMask(rows, p, m);
    if raw == 0.0 {
      RowSharesZero(rows, p);
    } else {
      RowSharesScale(rows, p, raw);
    }
  }

  /** A parent's exposure, missing counted as 0, is its masked column's sum over its whole turnover. */
  lemma ExposureAsScaledMask(rows: seq<SubRow>, p: Id, m: Method)
    ensures var pe := ParentGroup(rows, p, m);
      Val(pe.exposure) == if pe.rawSum == 0.0 then 0.0 else SumOf(rows, MaskedOfParent(p)) / pe.rawSum
  {
    SumOfFilter(rows, OfParent(p), MaskedOf, MaskedOfParent(p));
  }

  /** The shares of parent `p`, read off the subsidiary table or computed from the joined rows. */
  lemma SharesByRow(rows: seq<SubRow>, m: Method, p: Id)
    ensures SumOf(SubExposures(rows, m), ShareOfParent(p)) == SumOf(rows, ShareOfRow(p, ParentGroup(rows, p, m).rawSum))
  {
    var subs := SubExposures(rows, m);
    var raw := ParentGroup(rows, p, m).rawSum;
    forall i | 0 <= i < |subs| ensures Val(ShareOfParent(p)(subs[i])) == Val(ShareOfRow(p, raw)(rows[i])) {
      assert subs[i] == SubExposureOf(rows, m, rows[i]);
    }
    SumOfPointwise(subs, ShareOfParent(p), rows, ShareOfRow(p, raw));
  }

  lemma RowSharesZero(rows: seq<SubRow>, p: Id)
    ensures SumOf(rows, ShareOfRow(p, 0.0)) == 0.0
  {
    SumOfExt(rows, ShareOfRow(p, 0.0), (j: SubRow) => None);
    SumOfZero(rows);
  }

  lemma RowSharesScale(rows: seq<SubRow>, p: Id, raw: real)
    requires raw != 0.0
    ensures SumOf(rows, ShareOfRow(p, raw)) == SumOf(rows, MaskedOfParent(p)) / raw
  {
    RowSharesTimesInverse(rows, p, raw);
    QuotientAsProduct(SumOf(rows, MaskedOfParent(p)), raw);
  }

  lemma RowSharesTimesInverse(rows: seq<SubRow>, p: Id, raw: real)
    requires raw != 0.0
    ensures SumOf(rows, ShareOfRow(p, raw)) == (1.0 / raw) * SumOf(rows, MaskedOfParent(p))
  {
    forall j | j in rows ensures Val(ShareOfRow(p, raw)(j)) == (1.0 / raw) * Val(MaskedOfParent(p)(j)) {
      RowShareScale(p, raw, j);
    }
    SumOfScale(rows, MaskedOfParent(p), ShareOfRow(p, raw), 1.0 / raw);
  }

  lemma RowShareScale(p: Id, raw: real, j: SubRow)
    requires raw != 0.0
    ensures Val(ShareOfRow(p, raw)(j)) == (1.0 / raw) * Val(MaskedOfParent(p)(j))
  {
    if ParentOf(j) == p && MaskedOf(j).Some? {
      QuotientAsProduct(MaskedOf(j).value, raw);
    }
  }

  lemma QuotientAsProduct(a: real, b: real)
    requires b != 0.0
    ensures a / b == (1.0 / b) * a
  {
  }

  lemma {:induction false} SumOfZero<T>(s: seq<T>)
    ensures SumOf(s, (x: T) => None) == 0.0
    decreases |s|
  {
    if |s| > 0 {
      SumOfZero(s[1..]);
    }
  }

  // ---------------------------------------------------------------------------
  // Newer pipeline

  /** `compute_exposure`, parent table: the groups of every method in turn,
      then exact duplicate rows dropped. */
  function ComputeParentExposure(flagged: seq<FlaggedLink>, screened: seq<ScreenedSub>, methods: seq<Method>): (r: seq<ParentExposure>)
    ensures Distinct(r)
    ensures forall pe :: pe in r ==>
      (pe.strategy in methods && pe == ParentGroup(JoinScreened(flagged, screened, pe.strategy), pe.parent, pe.strategy))
    ensures forall m, f :: m in methods && f in flagged && Keeps(f, m) ==>
      exists pe :: pe in r && pe.strategy == m && pe.parent == f.link.parent
  {
    var all := ConcatMap(methods, ParentTables(flagged, screened));
    var r := DropDuplicates(all);
    forall pe | pe in r
      ensures pe.strategy in methods && pe == ParentGroup(JoinScreened(flagged, screened, pe.strategy), pe.parent, pe.strategy)
    {
      var m :| m in methods && pe in ParentTables(flagged, screened)(m);
      ParentTableRow(flagged, screened, m, pe);
    }
    forall m, f | m in methods && f in flagged && Keeps(f, m)
      ensures exists pe :: pe in r && pe.strategy == m && pe.parent == f.link.parent
    {
      var pe := ParentTableCovers(flagged, screened, m, f);
      assert pe in ParentTables(flagged, screened)(m);
    }
    r
  }

  /** The parent exposure table of method `m`. */
  function ParentTable(flagged: seq<FlaggedLink>, screened: seq<ScreenedSub>, m: Method): seq<ParentExposure> {
    ParentExposures(JoinScreened(flagged, screened, m), m)
  }

  function ParentTables(flagged: seq<FlaggedLink>, screened: seq<ScreenedSub>): Method -> seq<ParentExposure> {
    (m: Method) => ParentTable(flagged, screened, m)
  }

  lemma ParentTableRow(flagged: seq<FlaggedLink>, screened: seq<ScreenedSub>, m: Method, pe: ParentExposure)
    requires pe in ParentTable(flagged, screened, m)
    ensures pe.strategy == m && pe == ParentGroup(JoinScreened(flagged, screened, m), pe.parent, m)
  {
  }

  /** Every parent with a link that `m` includes has a row in the table of `m`. */
  lemma ParentTableCovers(flagged: seq<FlaggedLink>, screened: seq<ScreenedSub>, m: Method, f: FlaggedLink)
    returns (pe: ParentExposure)
    requires f in flagged && Keeps(f, m)
    ensures pe in ParentTable(flagged, screened, m) && pe.strategy == m && pe.parent == f.link.parent
  {
    var left := Filter(flagged, KeptBy(m));
    assert f in left;
    LeftJoinKeepsLeft(left, screened, OnSub, f);
    var rows := JoinScreened(flagged, screened, m);
    var j :| j in rows && j.left == f;
    assert ParentTable(flagged, screened, m) == ParentExposures(rows, m);
    pe :| pe in ParentTable(flagged, screened, m) && pe.parent == ParentOf(j);
    ParentTableRow(flagged, screened, m, pe);
  }

  /** `compute_exposure`, subsidiary table: the subsidiary rows of every
      method in turn, then exact duplicate rows dropped. */
  function ComputeSubExposure(flagged: seq<FlaggedLink>, screened: seq<ScreenedSub>, methods: seq<Method>): (r: seq<SubExposure>)
    ensures Distinct(r)
    ensures forall x :: x in r ==>
      (x.parent.strategy in methods && x in SubTable(flagged, screened, x.parent.strategy))
    ensures forall m, x :: m in methods && x in SubTable(flagged, screened, m) ==> x in r
  {
    var all := ConcatMap(methods, SubTables(flagged, screened));
    var r := DropDuplicates(all);
    forall x | x in r ensures x.parent.strategy in methods && x in SubTable(flagged, screened, x.parent.strategy) {
      var m :| m in methods && x in SubTables(flagged, screened)(m);
      SubTableStrategy(flagged, screened, m, x);
    }
    forall m, x | m in methods && x in SubTable(flagged, screened, m) ensures x in r {
      assert x in SubTables(flagged, screened)(m);
      assert x in all;
    }
    r
  }

  /** The subsidiary exposure table of method `m`. */
  function SubTable(flagged: seq<FlaggedLink>, screened: seq<ScreenedSub>, m: Method): seq<SubExposure> {
    SubExposures(JoinScreened(flagged, screened, m), m)
  }

  function SubTables(flagged: seq<FlaggedLink>, screened: seq<ScreenedSub>): Method -> seq<SubExposure> {
    (m: Method) => SubTable(flagged, screened, m)
  }

  /** Every row of the table of `m` carries `m` in its parent group. */
  lemma SubTableStrategy(flagged: seq<FlaggedLink>, screened: seq<ScreenedSub>, m: Method, x: SubExposure)
    requires x in SubTable(flagged, screened, m)
    ensures x.parent.strategy == m
  {
  }

  // ---------------------------------------------------------------------------
  // The consolidation-code merge

  /** A subsidiary exposure row with one financial row of its parent attached,
      for the parent's consolidation code `parent_conso`. */
  type ConsoSub = Joined<SubExposure, CleanFin>

  predicate OnParentFin(x: SubExposure, c: CleanFin) {
    ParentOf(x.row) == c.row.id
  }

  /** The merge of the subsidiary exposure table with
      `parent_fins[['bvd9', 'parent_conso']]` as written: one row for every
      financial row of the parent. The financial rows of one parent differ in
      their consolidation code, so the copies differ and the later
      `drop_duplicates` keeps them all. */
  function AttachConsoAsWritten(subs: seq<SubExposure>, fins: seq<CleanFin>): seq<ConsoSub> {
    LeftJoin(subs, fins, OnParentFin)
  }

  function FinOfParent(p: Id): CleanFin -> bool {
    (c: CleanFin) => c.row.id == p
  }

  /** How many rows the merge makes of one subsidiary row of parent `p`:
      one per financial row of `p`, and one for a parent without any. */
  function Copies(fins: seq<CleanFin>, p: Id): nat {
    if Count(fins, FinOfParent(p)) == 0 then 1 else Count(fins, FinOfParent(p))
  }

  /** The share column of the merged table restricted to the rows of parent `p`. */
  function ConsoShareOfParent(p: Id): ConsoSub -> Option<real> {
    (j: ConsoSub) => if ParentOf(j.left.row) == p then j.left.share else None
  }

  /** After the merge as written, the shares of a parent's subsidiaries add up
      to their total before the merge times the number of the parent's
      consolidation codes. On the subsidiary exposure table that total is the
      parent's exposure (`SharesSumToExposure`), so every allocation made from
      the merged rows is repeated as often. */
  lemma AsWrittenSharesRepeat(subs: seq<SubExposure>, fins: seq<CleanFin>, p: Id)
    ensures SumOf(AttachConsoAsWritten(subs, fins), ConsoShareOfParent(p)) ==
      Copies(fins, p) as real * SumOf(subs, ShareOfParent(p))
  {
    AllCopied(subs, fins, p);
    ConsoSharesScale(subs, fins, p, Copies(fins, p));
  }

  /** The share column of parent `p` over the whole subsidiary table adds up
      to the parent's exposure. */
  lemma ShareColumnSumsToExposure(rows: seq<SubRow>, m: Method, p: Id)
    ensures SumOf(SubExposures(rows, m), ShareOfParent(p)) == Val(ParentGroup(rows, p, m).exposure)
  {
    SumOfFilter(SubExposures(rows, m), SubOfParent(p), ShareOf, ShareOfParent(p));
    SharesSumToExposure(rows, m, p);
  }

  /** The merge makes `n` rows of every subsidiary row of parent `p`. */
  ghost predicate EachCopied(subs: seq<SubExposure>, fins: seq<CleanFin>, p: Id, n: nat) {
    forall a :: a in subs && ParentOf(a.row) == p ==> |JoinOne(a, fins, OnParentFin)| == n
  }

  lemma AllCopied(subs: seq<SubExposure>, fins: seq<CleanFin>, p: Id)
    ensures EachCopied(subs, fins, p, Copies(fins, p))
  {
    forall a | a in subs && ParentOf(a.row) == p ensures |JoinOne(a, fins, OnParentFin)| == Copies(fins, p) {
      CopiesOfOne(a, fins, p);
    }
  }

  /** The share column of parent `p`, each share taken `n` times. */
  function RepeatedShareOfParent(p: Id, n: nat): SubExposure -> Option<real> {
    (x: SubExposure) => if ParentOf(x.row) == p then Some(n as real * Val(x.share)) else None
  }

  /** When the merge makes `n` rows of every subsidiary row of parent `p`, it
      multiplies the parent's share total by `n`. */
  lemma ConsoSharesScale(subs: seq<SubExposure>, fins: seq<CleanFin>, p: Id, n: nat)
    requires EachCopied(subs, fins, p, n)
    ensures SumOf(AttachConsoAsWritten(subs, fins), ConsoShareOfParent(p)) == n as real * SumOf(subs, ShareOfParent(p))
  {
    ConsoRowsRepeat(subs, fins, p, n);
    SumOverJoin(subs, fins, OnParentFin, ConsoShareOfParent(p), RepeatedShareOfParent(p, n));
    RepeatedSharesSum(subs, p, n);
  }

  lemma ConsoRowsRepeat(subs: seq<SubExposure>, fins: seq<CleanFin>, p: Id, n: nat)
    requires EachCopied(subs, fins, p, n)
    ensures forall a :: a in subs ==>
      Val(RepeatedShareOfParent(p, n)(a)) == SumOf(JoinOne(a, fins, OnParentFin), ConsoShareOfParent(p))
  {
    forall a | a in subs
      ensures Val(RepeatedShareOfParent(p, n)(a)) == SumOf(JoinOne(a, fins, OnParentFin), ConsoShareOfParent(p))
    {
      ConsoRowsOfOne(a, fins, p, n);
      RepeatedShareAt(p, n, a);
    }
  }

  lemma RepeatedSharesSum(subs: seq<SubExposure>, p: Id, n: nat)
    ensures SumOf(subs, RepeatedShareOfParent(p, n)) == n as real * SumOf(subs, ShareOfParent(p))
  {
    forall x | x in subs ensures Val(RepeatedShareOfParent(p, n)(x)) == n as real * Val(ShareOfParent(p)(x)) {
      RepeatedShareAt(p, n, x);
    }
    SumOfRepeat(subs, ShareOfParent(p), RepeatedShareOfParent(p, n), n);
  }

  lemma RepeatedShareAt(p: Id, n: nat, x: SubExposure)
    ensures Val(RepeatedShareOfParent(p, n)(x)) == n as real * Val(ShareOfParent(p)(x))
  {
  }

  /** The merged rows of one subsidiary row carry its share once per copy. */
  lemma ConsoRowsOfOne(a: SubExposure, fins: seq<CleanFin>, p: Id, n: nat)
    requires ParentOf(a.row) == p ==> |JoinOne(a, fins, OnParentFin)| == n
    ensures SumOf(JoinOne(a, fins, OnParentFin), ConsoShareOfParent(p)) == n as real * Val(ShareOfParent(p)(a))
  {
    CopiesSum(JoinOne(a, fins, OnParentFin), a, p, n);
  }

  /** Rows that all copy one subsidiary row sum its share once per row. */
  lemma CopiesSum(r: seq<ConsoSub>, a: SubExposure, p: Id, n: nat)
    requires forall x :: x in r ==> x.left == a
    requires ParentOf(a.row) == p ==> |r| == n
    ensures SumOf(r, ConsoShareOfParent(p)) == n as real * Val(ShareOfParent(p)(a))
  {
    var v := Val(ShareOfParent(p)(a));
    forall x | x in r ensures Val(ConsoShareOfParent(p)(x)) == v {
      assert x.left == a;
    }
    SumOfConst(r, ConsoShareOfParent(p), v);
  }

  /** A subsidiary row of parent `p` becomes `Copies(fins, p)` merged rows. */
  lemma CopiesOfOne(a: SubExposure, fins: seq<CleanFin>, p: Id)
    requires ParentOf(a.row) == p
    ensures |JoinOne(a, fins, OnParentFin)| == Copies(fins, p)
  {
    forall c | c in fins ensures MatchesOn(a, OnParentFin)(c) == FinOfParent(p)(c) {
      assert OnParentFin(a, c) == (c.row.id == p);
    }
    FilterSame(fins, MatchesOn(a, OnParentFin), FinOfParent(p));
  }

  // ---------------------------------------------------------------------------
  // Older pipeline

  predicate FullyDefined(x: SubExposure) {
    x.parent.exposure.Some? && x.share.Some?
  }

  /** `compute_sub_exposure` (older pipeline), for one method: the parent
      groups, and the subsidiary rows with a defined parent exposure and share. */
  function ComputeMainCompExposure(flagged: seq<FlaggedLink>, screened: seq<ScreenedSub>, m: Method): (r: seq<ParentExposure>)
    ensures forall pe :: pe in r ==> pe == ParentGroup(JoinScreened(flagged, screened, m), pe.parent, m)
    ensures forall i, j :: 0 <= i < j < |r| ==> r[i].parent != r[j].parent
    ensures forall j :: j in JoinScreened(flagged, screened, m) ==> exists pe :: pe in r && pe.parent == ParentOf(j)
  {
    ParentExposures(JoinScreened(flagged, screened, m), m)
  }

  function ComputeOldSubExposure(flagged: seq<FlaggedLink>, screened: seq<ScreenedSub>, m: Method): (r: seq<SubExposure>)
    ensures forall x :: x in r ==> x.parent.exposure.Some? && x.share.Some?
    ensures forall x :: x in r ==> x in SubTable(flagged, screened, m)
    ensures forall x :: x in SubTable(flagged, screened, m) && FullyDefined(x) ==> x in r
  {
    Filter(SubTable(flagged, screened, m), FullyDefined)
  }

  /** The share column of parent `p` on the rows the older pipeline keeps. */
  function DefinedShareOfParent(p: Id): SubExposure -> Option<real> {
    (x: SubExposure) => if FullyDefined(x) then ShareOfParent(p)(x) else None
  }

  /** A subsidiary row with a share always has a parent exposure, so the older
      pipeline's filter drops no share. */
  lemma ShareImpliesExposure(rows: seq<SubRow>, m: Method, x: SubExposure)
    requires x in SubExposures(rows, m)
    ensures x.share.Some? ==> FullyDefined(x)
  {
  }

  /** Dropping the rows with a missing exposure or share keeps the shares of a
      parent adding up to its exposure. */
  lemma OldSharesSumToExposure(flagged: seq<FlaggedLink>, screened: seq<ScreenedSub>, m: Method, p: Id)
    ensures SumOf(Filter(ComputeOldSubExposure(flagged, screened, m), SubOfParent(p)), ShareOf) ==
      Val(ParentGroup(JoinScreened(flagged, screened, m), p, m).exposure)
  {
    var rows := JoinScreened(flagged, screened, m);
    var subs := SubExposures(rows, m);
    var kept := Filter(subs, FullyDefined);
    SumOfFilter(kept, SubOfParent(p), ShareOf, ShareOfParent(p));
    SumOfFilter(subs, FullyDefined, ShareOfParent(p), DefinedShareOfParent(p));
    forall x | x in subs ensures Val(DefinedShareOfParent(p)(x)) == Val(ShareOfParent(p)(x)) {
      ShareImpliesExposure(rows, m, x);
    }
    SumOfExt(subs, DefinedShareOfParent(p), ShareOfParent(p));
    ShareColumnSumsToExposure(rows, m, p);
  }
}

=== FILE: financials.dfy ===
/** Cleaning of the financial tables: rows without any figure are dropped,
    duplicate rows are removed, negative R&D figures are clamped to zero and
    per-row R&D and revenue totals are added. */
module Financials {
  import opened Missing
  import opened Tables
  import opened Schema

  /** A cleaned financial row with its missing-skipping R&D and revenue totals
      (`rnd_sum`, `oprev_sum`). */
  datatype CleanFin = CleanFin(row: FinRow, rndSum: real, oprevSum: real)

  /** The row carries at least one figure among `labels`. */
  predicate HasAnyValue(r: FinRow, labels: seq<string>) {
    exists l :: l in labels && Cell(r.values, l).Some?
  }

  /** `dropna(subset=labels, how='all')` keeps exactly the rows this accepts. */
  function HasDataIn(labels: seq<string>): FinRow -> bool {
    (r: FinRow) => HasAnyValue(r, labels)
  }

  /** Missing-skipping sum of the row's cells over `labels` (`sum(axis=1, skipna=True)`). */
  function RowSum(r: FinRow, labels: seq<string>): real {
    SumOf(labels, (l: string) => Cell(r.values, l))
  }

  predicate IsNegative(o: Option<real>) {
    o.Some? && o.value < 0.0
  }

  /** Negative R&D figures become 0; every other cell, and the identity of the row, stays. */
  function ClampRnd(r: FinRow, rnd: seq<string>): (c: FinRow)
    ensures c.id == r.id && c.conso == r.conso && c.desc == r.desc
    ensures forall l :: Cell(c.values, l).Some? <==> Cell(r.values, l).Some?
    ensures forall l :: l in rnd && Cell(c.values, l).Some? ==> Cell(c.values, l).value >= 0.0
    ensures forall l :: l in rnd && IsNegative(Cell(r.values, l)) ==> Cell(c.values, l) == Some(0.0)
    ensures forall l :: !(l in rnd && IsNegative(Cell(r.values, l))) ==> Cell(c.values, l) == Cell(r.values, l)
  {
    r.(values := map l | l in r.values :: if l in rnd && IsNegative(r.values[l]) then Some(0.0) else r.values[l])
  }

  /** The per-row clean-up applied after de-duplication. */
  function Summarize(r: FinRow, years: Years): CleanFin {
    var c := ClampRnd(r, years.rnd);
    CleanFin(c, RowSum(c, years.rnd), RowSum(c, years.oprev))
  }

  function CleanFinKey(c: CleanFin): (Id, string) {
    FinKey(c.row)
  }

  function Summarized(s: seq<FinRow>, years: Years): (r: seq<CleanFin>)
    ensures |r| == |s| && forall i :: 0 <= i < |s| ==> r[i] == Summarize(s[i], years)
  {
    seq(|s|, i requires 0 <= i < |s| => Summarize(s[i], years))
  }

  /** `load_parent_fins` and `load_sub_fins` (newer pipeline): drop rows with no
      R&D and no revenue figure; keep the first row per (identifier,
      consolidation code); clamp negative R&D to zero; add `rnd_sum` and
      `oprev_sum`; drop exact duplicates, which by then removes nothing. */
  function LoadFins(rows: seq<FinRow>, years: Years): (r: seq<CleanFin>)
    ensures |r| <= |rows|
    ensures UniqueKeys(r, CleanFinKey)
    ensures forall c :: c in r ==> HasAnyValue(c.row, years.rnd + years.oprev)
    ensures forall c, l :: c in r && l in years.rnd && Cell(c.row.values, l).Some? ==> Cell(c.row.values, l).value >= 0.0
    ensures forall c :: c in r ==> c.rndSum == RowSum(c.row, years.rnd) && c.oprevSum == RowSum(c.row, years.oprev)
    ensures forall c :: c in r ==> c.rndSum >= 0.0
    ensures var kept := Filter(rows, HasDataIn(years.rnd + years.oprev));
      forall c :: c in r ==>
        FinKey(c.row) in KeySet(kept, FinKey) && c.row == ClampRnd(kept[First(kept, FinKey, FinKey(c.row))], years.rnd)
    ensures forall x :: x in rows && HasAnyValue(x, years.rnd + years.oprev) ==>
      exists c :: c in r && FinKey(c.row) == FinKey(x)
  {
    var kept := Filter(rows, HasDataIn(years.rnd + years.oprev));
    var unique := DedupBy(kept, FinKey);
    var summed := Summarized(unique, years);
    SummarizedFacts(kept, unique, summed, years);
    DedupUnique(summed, (c: CleanFin) => c);
    DedupBy(summed, (c: CleanFin) => c)
  }

  lemma SummarizedFacts(kept: seq<FinRow>, unique: seq<FinRow>, summed: seq<CleanFin>, years: Years)
    requires forall x :: x in kept ==> HasAnyValue(x, years.rnd + years.oprev)
    requires unique == DedupBy(kept, FinKey)
    requires summed == Summarized(unique, years)
    ensures UniqueKeys(summed, CleanFinKey) && UniqueKeys(summed, (c: CleanFin) => c)
    ensures forall c :: c in summed ==> HasAnyValue(c.row, years.rnd + years.oprev)
    ensures forall c :: c in summed ==> c.rndSum == RowSum(c.row, years.rnd) && c.oprevSum == RowSum(c.row, years.oprev)
    ensures forall c :: c in summed ==> c.rndSum >= 0.0
    ensures forall c :: c in summed ==>
      FinKey(c.row) in KeySet(kept, FinKey) && c.row == ClampRnd(kept[First(kept, FinKey, FinKey(c.row))], years.rnd)
    ensures forall x :: x in kept ==> exists c :: c in summed && FinKey(c.row) == FinKey(x)
  {
    SummarizedRows(kept, unique, summed, years);
    SummarizedUnique(unique, summed, years);
    SummarizedCovers(kept, unique, summed, years);
  }

  lemma SummarizedRows(kept: seq<FinRow>, unique: seq<FinRow>, summed: seq<CleanFin>, years: Years)
    requires forall x :: x in kept ==> HasAnyValue(x, years.rnd + years.oprev)
    requires unique == DedupBy(kept, FinKey)
    requires summed == Summarized(unique, years)
    ensures forall c :: c in summed ==> HasAnyValue(c.row, years.rnd + years.oprev)
    ensures forall c :: c in summed ==> c.rndSum >= 0.0
    ensures forall c :: c in summed ==>
      FinKey(c.row) in KeySet(kept, FinKey) && c.row == ClampRnd(kept[First(kept, FinKey, FinKey(c.row))], years.rnd)
  {
    forall c | c in summed
      ensures HasAnyValue(c.row, years.rnd + years.oprev)
      ensures c.rndSum >= 0.0
      ensures FinKey(c.row) in KeySet(kept, FinKey) && c.row == ClampRnd(kept[First(kept, FinKey, FinKey(c.row))], years.rnd)
    {
      var i :| 0 <= i < |summed| && summed[i] == c;
      var u := unique[i];
      assert c == Summarize(u, years);
      assert u in kept;
      var l :| l in years.rnd + years.oprev && Cell(u.values, l).Some?;
      assert Cell(c.row.values, l).Some?;
      ClampedRndSumNonNeg(u, years.rnd);
      assert FinKey(c.row) == FinKey(u);
      assert u == kept[First(kept, FinKey, FinKey(u))];
    }
  }

  lemma SummarizedUnique(unique: seq<FinRow>, summed: seq<CleanFin>, years: Years)
    requires UniqueKeys(unique, FinKey)
    requires summed == Summarized(unique, years)
    ensures UniqueKeys(summed, CleanFinKey) && UniqueKeys(summed, (c: CleanFin) => c)
  {
    forall i, j | 0 <= i < j < |summed| ensures CleanFinKey(summed[i]) != CleanFinKey(summed[j]) {
      assert CleanFinKey(summed[i]) == FinKey(unique[i]) && CleanFinKey(summed[j]) == FinKey(unique[j]);
    }
  }

  lemma SummarizedCovers(kept: seq<FinRow>, unique: seq<FinRow>, summed: seq<CleanFin>, years: Years)
    requires unique == DedupBy(kept, FinKey)
    requires summed == Summarized(unique, years)
    ensures forall x :: x in kept ==> exists c :: c in summed && FinKey(c.row) == FinKey(x)
  {
    forall x | x in kept ensures exists c :: c in summed && FinKey(c.row) == FinKey(x) {
      var i :| 0 <= i < |kept| && kept[i] == x;
      assert FinKey(kept[i]) in KeySet(kept, FinKey);
      assert FinKey(x) in KeySet(unique, FinKey);
      var j :| 0 <= j < |unique| && FinKey(unique[j]) == FinKey(x);
      assert summed[j] == Summarize(unique[j], years);
      assert summed[j] in summed && FinKey(summed[j].row) == FinKey(x);
    }
  }

  /** Once negative R&D figures are clamped, the R&D total is not negative. */
  lemma ClampedRndSumNonNeg(r: FinRow, rnd: seq<string>)
    ensures RowSum(ClampRnd(r, rnd), rnd) >= 0.0
  {
    var c := ClampRnd(r, rnd);
    SumOfNonNeg(rnd, (l: string) => Cell(c.values, l));
  }

  // ---------------------------------------------------------------------------
  // The negative-R&D clean-up as written

  /** What `df[df[col] < 0] = 0` does to a selected row: every cell of the row,
      its identifier and description included, becomes 0. A text cell holding
      the number 0 never matches a keyword, like an empty one. */
  function ZeroedRow(r: FinRow): FinRow {
    FinRow("0", "0", map l | l in r.values :: Some(0.0), NoDesc)
  }

  /** `for col in rnd_ys: df[df[col] < 0] = 0`, row by row. */
  function ZeroNegativeRowsAsWritten(r: FinRow, rnd: seq<string>): FinRow
    decreases |rnd|
  {
    if |rnd| == 0 then r
    else ZeroNegativeRowsAsWritten(if IsNegative(Cell(r.values, rnd[0])) then ZeroedRow(r) else r, rnd[1..])
  }

  /** The loop as written zeroes the whole row as soon as one R&D figure is negative. */
  lemma {:induction false} AsWrittenZeroesWholeRow(r: FinRow, rnd: seq<string>)
    ensures ZeroNegativeRowsAsWritten(r, rnd) ==
      if exists l :: l in rnd && IsNegative(Cell(r.values, l)) then ZeroedRow(r) else r
    decreases |rnd|
  {
    if |rnd| > 0 {
      assert forall l :: l in rnd <==> l == rnd[0] || l in rnd[1..];
      if IsNegative(Cell(r.values, rnd[0])) {
        AsWrittenZeroesWholeRow(ZeroedRow(r), rnd[1..]);
        ZeroedStaysZeroed(r);
      } else {
        AsWrittenZeroesWholeRow(r, rnd[1..]);
      }
    }
  }

  lemma ZeroedStaysZeroed(r: FinRow)
    ensures forall l :: !IsNegative(Cell(ZeroedRow(r).values, l))
    ensures ZeroedRow(ZeroedRow(r)) == ZeroedRow(r)
  {
  }

  /** A row with one negative R&D figure loses its identifier and its positive
      figures under the loop as written, and keeps both under the clamp. */
  lemma NegativeRndCounterexample()
    ensures var r := FinRow("A", "C1", map["rnd_y19" := Some(-5.0), "rnd_y18" := Some(10.0)], NoDesc);
      var rnd := ["rnd_y19", "rnd_y18"];
      && ZeroNegativeRowsAsWritten(r, rnd).id == "0"
      && Cell(ZeroNegativeRowsAsWritten(r, rnd).values, "rnd_y18") == Some(0.0)
      && ClampRnd(r, rnd).id == "A"
      && Cell(ClampRnd(r, rnd).values, "rnd_y18") == Some(10.0)
      && Cell(ClampRnd(r, rnd).values, "rnd_y19") == Some(0.0)
  {
    var r := FinRow("A", "C1", map["rnd_y19" := Some(-5.0), "rnd_y18" := Some(10.0)], NoDesc);
    var rnd := ["rnd_y19", "rnd_y18"];
    assert "rnd_y19" in rnd && IsNegative(Cell(r.values, "rnd_y19"));
    AsWrittenZeroesWholeRow(r, rnd);
    assert "rnd_y18" in ZeroedRow(r).values;
  }

  // ---------------------------------------------------------------------------
  // Older pipeline

  /** `load_main_comp_fin` (older pipeline): keep the rows with at least one R&D
      figure whose company was selected. */
  function LoadMainCompFin(rows: seq<FinRow>, rnd: seq<string>, selected: seq<Id>): (r: seq<FinRow>)
    ensures |r| <= |rows|
    ensures forall x :: x in r <==> x in rows && HasAnyValue(x, rnd) && x.id in selected
    ensures forall x :: multiset(r)[x] == if HasAnyValue(x, rnd) && x.id in selected then multiset(rows)[x] else 0
    ensures SubsequenceOf(r, rows)
  {
    var withData := Filter(rows, HasDataIn(rnd));
    var r := Filter(withData, (x: FinRow) => x.id in selected);
    FilterIsSubsequence(rows, HasDataIn(rnd));
    FilterIsSubsequence(withData, (x: FinRow) => x.id in selected);
    SubsequenceTrans(r, withData, rows);
    forall x ensures multiset(r)[x] == if HasAnyValue(x, rnd) && x.id in selected then multiset(rows)[x] else 0 {
      FilterMultiplicity(rows, HasDataIn(rnd), x);
      FilterMultiplicity(Filter(rows, HasDataIn(rnd)), (x: FinRow) => x.id in selected, x);
    }
    r
  }

  /** `load_subs_fin` (older pipeline): keep the first row per subsidiary, then
      drop it when it has no revenue figure, then keep the selected
      subsidiaries. A later row with revenue does not stand in for a first row
      without. */
  function LoadSubsFin(rows: seq<FinRow>, oprev: seq<string>, selected: seq<Id>): (r: seq<FinRow>)
    ensures |r| <= |rows|
    ensures UniqueKeys(r, RowId)
    ensures forall x :: x in r ==>
      && x.id in KeySet(rows, RowId) && x == rows[First(rows, RowId, x.id)]
      && HasAnyValue(x, oprev) && x.id in selected
    ensures forall id :: id in KeySet(rows, RowId) && id in selected && HasAnyValue(rows[First(rows, RowId, id)], oprev) ==>
      id in KeySet(r, RowId)
  {
    var unique := DedupBy(rows, RowId);
    var r := Filter(Filter(unique, HasDataIn(oprev)), (x: FinRow) => x.id in selected);
    var hasRevenue := Filter(unique, HasDataIn(oprev));
    FilterUnique(unique, HasDataIn(oprev), RowId);
    FilterUnique(hasRevenue, (x: FinRow) => x.id in selected, RowId);
    SubsFinFacts(rows, unique, r, oprev, selected);
    r
  }

  lemma SubsFinFacts(rows: seq<FinRow>, unique: seq<FinRow>, r: seq<FinRow>, oprev: seq<string>, selected: seq<Id>)
    requires unique == DedupBy(rows, RowId)
    requires forall x :: x in r <==> x in unique && HasAnyValue(x, oprev) && x.id in selected
    ensures forall id :: id in KeySet(rows, RowId) && id in selected && HasAnyValue(rows[First(rows, RowId, id)], oprev) ==>
      id in KeySet(r, RowId)
  {
    forall id | id in KeySet(rows, RowId) && id in selected && HasAnyValue(rows[First(rows, RowId, id)], oprev)
      ensures id in KeySet(r, RowId)
    {
      var k :| 0 <= k < |unique| && RowId(unique[k]) == id;
      assert unique[k] == rows[First(rows, RowId, id)];
      assert unique[k] in r;
      var m :| 0 <= m < |r| && r[m] == unique[k];
    }
  }
}

=== FILE: flags.dfy ===
/** Method flags on the parent-to-subsidiary link table. Each link is marked
    with the three inclusion policies and with whether its subsidiary is
    shared by several links:
    - `keep_all` keeps every link;
    - `keep_comps` drops links whose subsidiary is itself a tracked parent;
    - `keep_subs` drops links whose parent is itself somebody's subsidiary.
    The two pipelines differ in what "a tracked parent" is: the newer one
    looks the subsidiary up in the parent identity table, the older one in
    the link table's own parent column. */
module Flags {
  import opened Tables
  import opened Schema

  /** A link with `is_sub_a_duplicate`, `keep_all`, `keep_comps` and `keep_subs`. */
  datatype FlaggedLink = FlaggedLink(link: Link, isSubDuplicate: bool, keepAll: bool, keepComps: bool, keepSubs: bool)

  /** `sub_ids[method] == True`: the link takes part in `method`. */
  function Keeps(f: FlaggedLink, m: Method): bool {
    match m
    case KeepAll => f.keepAll
    case KeepComps => f.keepComps
    case KeepSubs => f.keepSubs
  }

  function KeptBy(m: Method): FlaggedLink -> bool {
    (f: FlaggedLink) => Keeps(f, m)
  }

  /** The `sub_bvd9` column of a link table. */
  function SubColumn(links: seq<Link>): seq<Id> {
    MapSeq(links, (l: Link) => l.sub)
  }

  /** The `bvd9` column of a link table. */
  function ParentColumn(links: seq<Link>): seq<Id> {
    MapSeq(links, (l: Link) => l.parent)
  }

  lemma ColumnFacts(links: seq<Link>)
    ensures forall l :: l in links ==> l.sub in SubColumn(links) && l.parent in ParentColumn(links)
    ensures forall s :: s in SubColumn(links) ==> exists l :: l in links && l.sub == s
    ensures forall p :: p in ParentColumn(links) ==> exists l :: l in links && l.parent == p
  {
    forall l | l in links ensures l.sub in SubColumn(links) && l.parent in ParentColumn(links) {
      var i :| 0 <= i < |links| && links[i] == l;
      assert SubColumn(links)[i] == l.sub && ParentColumn(links)[i] == l.parent;
    }
    forall s | s in SubColumn(links) ensures exists l :: l in links && l.sub == s {
      var i :| 0 <= i < |links| && SubColumn(links)[i] == s;
      assert links[i] in links;
    }
    forall p | p in ParentColumn(links) ensures exists l :: l in links && l.parent == p {
      var i :| 0 <= i < |links| && ParentColumn(links)[i] == p;
      assert links[i] in links;
    }
  }

  // ---------------------------------------------------------------------------
  // Shared subsidiaries

  /** Number of links whose subsidiary is `s`. */
  function SubCount(links: seq<Link>, s: Id): nat
    decreases |links|
  {
    if |links| == 0 then 0 else (if links[0].sub == s then 1 else 0) + SubCount(links[1..], s)
  }

  /** `s` occurs on two different links. */
  ghost predicate SharedSub(links: seq<Link>, s: Id) {
    exists i, j :: 0 <= i < j < |links| && links[i].sub == s && links[j].sub == s
  }

  lemma {:induction false} SubCountZero(links: seq<Link>, s: Id)
    ensures SubCount(links, s) == 0 <==> forall k :: 0 <= k < |links| ==> links[k].sub != s
    decreases |links|
  {
    if |links| > 0 {
      SubCountZero(links[1..], s);
      assert forall k :: 1 <= k < |links| ==> links[1..][k - 1] == links[k];
    }
  }

  /** `duplicated(keep=False)`: a subsidiary counted more than once is exactly one shared by two links. */
  lemma {:induction false} SubCountShared(links: seq<Link>, s: Id)
    ensures SubCount(links, s) > 1 <==> SharedSub(links, s)
    decreases |links|
  {
    if |links| > 0 {
      var tail := links[1..];
      assert forall k :: 1 <= k < |links| ==> tail[k - 1] == links[k];
      SubCountShared(tail, s);
      SubCountZero(tail, s);
      if links[0].sub == s {
        if SubCount(tail, s) > 0 {
          var k :| 0 <= k < |tail| && tail[k].sub == s;
          assert links[0].sub == s && links[k + 1].sub == s;
        }
        if SharedSub(links, s) {
          var i, j :| 0 <= i < j < |links| && links[i].sub == s && links[j].sub == s;
          assert tail[j - 1].sub == s;
        }
      } else {
        if SharedSub(tail, s) {
          var i, j :| 0 <= i < j < |tail| && tail[i].sub == s && tail[j].sub == s;
          assert links[i + 1].sub == s && links[j + 1].sub == s;
        }
        if SharedSub(links, s) {
          var i, j :| 0 <= i < j < |links| && links[i].sub == s && links[j].sub == s;
          assert i > 0;
          assert tail[i - 1].sub == s && tail[j - 1].sub == s;
        }
      }
    }
  }

  // ---------------------------------------------------------------------------
  // Newer pipeline

  /** The flags of every link, row by row, before de-duplication. */
  function FlagLinks(parentIds: seq<Id>, links: seq<Link>): (r: seq<FlaggedLink>)
    ensures |r| == |links|
    ensures forall i :: 0 <= i < |links| ==> r[i].link == links[i]
  {
    var subs := SubColumn(links);
    seq(|links|, i requires 0 <= i < |links| =>
      FlaggedLink(links[i], SubCount(links, links[i].sub) > 1, true, links[i].sub !in parentIds, links[i].parent !in subs))
  }

  /** `screen_sub_ids_for_method`: flag every link of the subsidiary table, then
      drop exact duplicate rows. `keep_comps` looks the subsidiary up among the
      parent identifiers. */
  function ScreenSubIdsForMethod(parentIds: seq<Id>, links: seq<Link>): (r: seq<FlaggedLink>)
    ensures Distinct(r)
    ensures forall l :: l in links ==> exists f :: f in r && f.link == l
    ensures forall f :: f in r ==> f.link in links && f.keepAll
    ensures forall f :: f in r ==> (f.keepSubs <==> forall l :: l in links ==> l.sub != f.link.parent)
    ensures forall f :: f in r ==> (f.keepComps <==> f.link.sub !in parentIds)
    ensures forall f :: f in r ==> (f.isSubDuplicate <==> SharedSub(links, f.link.sub))
  {
    var flagged := FlagLinks(parentIds, links);
    var r := DropDuplicates(flagged);
    FlagLinksFacts(parentIds, links);
    forall l | l in links ensures exists f :: f in r && f.link == l {
      var i :| 0 <= i < |links| && links[i] == l;
      assert flagged[i] in flagged;
    }
    r
  }

  lemma FlagLinksFacts(parentIds: seq<Id>, links: seq<Link>)
    ensures forall f :: f in FlagLinks(parentIds, links) ==>
      && f.link in links && f.keepAll
      && (f.keepSubs <==> forall l :: l in links ==> l.sub != f.link.parent)
      && (f.keepComps <==> f.link.sub !in parentIds)
      && (f.isSubDuplicate <==> SharedSub(links, f.link.sub))
  {
    var flagged := FlagLinks(parentIds, links);
    forall f | f in flagged
      ensures && f.link in links && f.keepAll
              && (f.keepSubs <==> forall l :: l in links ==> l.sub != f.link.parent)
              && (f.keepComps <==> f.link.sub !in parentIds)
              && (f.isSubDuplicate <==> SharedSub(links, f.link.sub))
    {
      var i :| 0 <= i < |flagged| && flagged[i] == f;
      FlaggedRow(parentIds, links, i);
    }
  }

  /** The flags of the link at position `i`. */
  lemma FlaggedRow(parentIds: seq<Id>, links: seq<Link>, i: nat)
    requires i < |links|
    ensures var f := FlagLinks(parentIds, links)[i];
      && f.link == links[i] && f.keepAll
      && (f.keepSubs <==> forall l :: l in links ==> l.sub != f.link.parent)
      && (f.keepComps <==> f.link.sub !in parentIds)
      && (f.isSubDuplicate <==> SharedSub(links, f.link.sub))
  {
    ColumnFacts(links);
    SubCountShared(links, links[i].sub);
  }

  // ---------------------------------------------------------------------------
  // Older pipeline

  /** `filter_comps_and_subs` (older pipeline): flag every link; `keep_comps`
      looks the subsidiary up in the link table's own parent column. No row is
      dropped. */
  function FilterCompsAndSubs(links: seq<Link>): (r: seq<FlaggedLink>)
    ensures |r| == |links|
    ensures forall i :: 0 <= i < |links| ==> r[i].link == links[i] && r[i].keepAll
    ensures forall i :: 0 <= i < |links| ==> (r[i].keepSubs <==> forall l :: l in links ==> l.sub != links[i].parent)
    ensures forall i :: 0 <= i < |links| ==> (r[i].keepComps <==> forall l :: l in links ==> l.parent != links[i].sub)
    ensures forall i :: 0 <= i < |links| ==> (r[i].isSubDuplicate <==> SharedSub(links, links[i].sub))
  {
    var subs, parents := SubColumn(links), ParentColumn(links);
    var r := seq(|links|, i requires 0 <= i < |links| =>
      FlaggedLink(links[i], SubCount(links, links[i].sub) > 1, true, links[i].sub !in parents, links[i].parent !in subs));
    ColumnFacts(links);
    forall i | 0 <= i < |links| ensures r[i].isSubDuplicate <==> SharedSub(links, links[i].sub) {
      SubCountShared(links, links[i].sub);
    }
    r
  }

  /** The links of parent `p` that `m` keeps. */
  function ParentKept(p: Id, m: Method): FlaggedLink -> bool {
    (f: FlaggedLink) => f.link.parent == p && Keeps(f, m)
  }

  /** Per parent, the `keep_comps` and `keep_subs` link counts never exceed the
      `keep_all` count. `keep_all` holds on every link, so this is the bound
      of any filter's count by the parent's whole link count. */
  lemma PerParentCounts(links: seq<Link>, p: Id, m: Method)
    ensures Count(FilterCompsAndSubs(links), ParentKept(p, m)) <= Count(FilterCompsAndSubs(links), ParentKept(p, KeepAll))
  {
    var r := FilterCompsAndSubs(links);
    forall f | f in r && ParentKept(p, m)(f) ensures ParentKept(p, KeepAll)(f) {
      var i :| 0 <= i < |r| && r[i] == f;
    }
    CountMono(r, ParentKept(p, m), ParentKept(p, KeepAll));
  }
}

=== FILE: guo_rnd.dfy ===
/** GUO-level R&D of the newer pipeline (`compute_guo_rnd`). Each parent R&D
    row is joined with the parent's ultimate owners; rows of parents without an
    owner drop out of the grouping; per (owner, year) and method the operating
    revenue, R&D and clean R&D are summed, the parents' exposures averaged, and
    the owner's exposure is clean R&D over R&D. */
module GuoRollup {
  import opened Missing
  import opened Tables
  import opened Schema
  import opened Identity
  import opened ParentAllocation

  /** A parent R&D row joined with one owner link of its parent, or with none. */
  type GuoJoined = Joined<ParentRnd, GuoLink>

  predicate OnGuoParent(x: ParentRnd, g: GuoLink) {
    x.parent == g.parent
  }

  /** A parent R&D row with the owner it rolls up to. */
  datatype Linked = Linked(guo: Id, row: ParentRnd)

  /** `groupby(['guo_bvd9', 'year'])` leaves out the rows whose owner is missing. */
  function LinkedRows(rows: seq<GuoJoined>): (r: seq<Linked>)
    ensures forall l :: l in r ==> exists j :: j in rows && j.right.Some? && l == Linked(j.right.value.guo, j.left)
    ensures forall j :: j in rows && j.right.Some? ==> Linked(j.right.value.guo, j.left) in r
    decreases |rows|
  {
    if |rows| == 0 then []
    else
      var rest := LinkedRows(rows[1..]);
      assert forall j :: j in rows ==> j == rows[0] || j in rows[1..];
      var j := rows[0];
      if j.right.Some? then [Linked(j.right.value.guo, j.left)] + rest else rest
  }

  function GuoYear(l: Linked): (Id, int) {
    (l.guo, l.row.year)
  }

  function LinkedClean(l: Linked): Option<real> {
    l.row.clean
  }

  function LinkedRnd(l: Linked): Option<real> {
    l.row.rnd
  }

  function LinkedOprev(l: Linked): Option<real> {
    l.row.oprev
  }

  function LinkedExposure(l: Linked): Option<real> {
    l.row.exposure
  }

  /** A row of the owner R&D table; `exposureFromParent` is the mean of the
      parents' exposures, kept as a diagnostic. */
  datatype GuoRnd = GuoRnd(guo: Id, year: int, strategy: Method, oprev: real, rnd: real, clean: real,
                           exposureFromParent: Option<real>, exposure: Option<real>)

  /** The aggregates of one (owner, year) group. */
  function GuoRow(linked: seq<Linked>, m: Method, k: (Id, int)): (g: GuoRnd)
    ensures g.guo == k.0 && g.year == k.1 && g.strategy == m
    ensures g.exposure.Some? <==> g.rnd != 0.0
    ensures g.exposure.Some? ==> g.exposure.value * g.rnd == g.clean
  {
    var clean := GroupSum(linked, GuoYear, k, LinkedClean);
    var rnd := GroupSum(linked, GuoYear, k, LinkedRnd);
    GuoRnd(k.0, k.1, m, GroupSum(linked, GuoYear, k, LinkedOprev), rnd, clean,
           MeanOf(Filter(linked, KeyIs(GuoYear, k)), LinkedExposure), Div(Some(clean), Some(rnd)))
  }

  function GuoRowMaker(linked: seq<Linked>, m: Method): ((Id, int)) -> GuoRnd {
    (k: (Id, int)) => GuoRow(linked, m, k)
  }

  function JoinedStrategyIs(m: Method): GuoJoined -> bool {
    (j: GuoJoined) => j.left.strategy == m
  }

  /** The linked rows of one method. */
  function LinkedOf(joined: seq<GuoJoined>, m: Method): seq<Linked> {
    LinkedRows(Filter(joined, JoinedStrategyIs(m)))
  }

  /** The body of the method loop: one row per (owner, year) of the method's linked rows. */
  function GuoRndForMethod(joined: seq<GuoJoined>, m: Method): (r: seq<GuoRnd>)
    ensures forall i, j :: 0 <= i < j < |r| ==> (r[i].guo, r[i].year) != (r[j].guo, r[j].year)
    ensures forall l :: l in LinkedOf(joined, m) ==> exists g :: g in r && g.guo == l.guo && g.year == l.row.year
    ensures forall g :: g in r ==> g == GuoRow(LinkedOf(joined, m), m, (g.guo, g.year))
  {
    var linked := LinkedOf(joined, m);
    GuoTableFacts(linked, m);
    MapSeq(GroupKeys(linked, GuoYear), GuoRowMaker(linked, m))
  }

  lemma GuoTableFacts(linked: seq<Linked>, m: Method)
    ensures var r := MapSeq(GroupKeys(linked, GuoYear), GuoRowMaker(linked, m));
      && (forall i, j :: 0 <= i < j < |r| ==> (r[i].guo, r[i].year) != (r[j].guo, r[j].year))
      && (forall l :: l in linked ==> exists g :: g in r && g.guo == l.guo && g.year == l.row.year)
      && (forall g :: g in r ==> g == GuoRow(linked, m, (g.guo, g.year)))
  {
    var ks := GroupKeys(linked, GuoYear);
    var r := MapSeq(ks, GuoRowMaker(linked, m));
    GuoRowsDistinct(linked, m, ks, r);
    GuoRowsCover(linked, m, ks, r);
    GuoRowsFrom(linked, m, ks, r);
  }

  lemma GuoRowsDistinct(linked: seq<Linked>, m: Method, ks: seq<(Id, int)>, r: seq<GuoRnd>)
    requires r == MapSeq(ks, GuoRowMaker(linked, m)) && Distinct(ks)
    ensures forall i, j :: 0 <= i < j < |r| ==> (r[i].guo, r[i].year) != (r[j].guo, r[j].year)
  {
    forall i, j | 0 <= i < j < |r| ensures (r[i].guo, r[i].year) != (r[j].guo, r[j].year) {
      assert r[i] == GuoRowMaker(linked, m)(ks[i]) && r[j] == GuoRowMaker(linked, m)(ks[j]);
    }
  }

  lemma GuoRowsCover(linked: seq<Linked>, m: Method, ks: seq<(Id, int)>, r: seq<GuoRnd>)
    requires r == MapSeq(ks, GuoRowMaker(linked, m))
    requires forall l :: l in linked ==> GuoYear(l) in ks
    ensures forall l :: l in linked ==> exists g :: g in r && g.guo == l.guo && g.year == l.row.year
  {
    forall l | l in linked ensures exists g :: g in r && g.guo == l.guo && g.year == l.row.year {
      var i :| 0 <= i < |ks| && ks[i] == GuoYear(l);
      assert r[i] == GuoRowMaker(linked, m)(ks[i]);
      assert r[i] in r;
    }
  }

  lemma GuoRowsFrom(linked: seq<Linked>, m: Method, ks: seq<(Id, int)>, r: seq<GuoRnd>)
    requires r == MapSeq(ks, GuoRowMaker(linked, m))
    ensures forall g :: g in r ==> g == GuoRow(linked, m, (g.guo, g.year))
  {
    forall g | g in r ensures g == GuoRow(linked, m, (g.guo, g.year)) {
      var i :| 0 <= i < |r| && r[i] == g;
      assert r[i] == GuoRowMaker(linked, m)(ks[i]);
    }
  }

  /** The owner links with exact duplicates dropped
      (`drop_duplicates(subset=['bvd9', 'guo_bvd9'])`). */
  function JoinGuos(prnd: seq<ParentRnd>, parentIds: seq<GuoLink>): seq<GuoJoined> {
    LeftJoin(prnd, DropDuplicates(parentIds), OnGuoParent)
  }

  function GuoTables(joined: seq<GuoJoined>): Method -> seq<GuoRnd> {
    (m: Method) => GuoRndForMethod(joined, m)
  }

  /** `compute_guo_rnd`: the tables of every method stacked, then exact duplicate rows dropped. */
  function ComputeGuoRnd(prnd: seq<ParentRnd>, parentIds: seq<GuoLink>, methods: seq<Method>): (r: seq<GuoRnd>)
    ensures Distinct(r)
    ensures forall g :: g in r ==> g.strategy in methods && g in GuoRndForMethod(JoinGuos(prnd, parentIds), g.strategy)
    ensures forall m, g :: m in methods && g in GuoRndForMethod(JoinGuos(prnd, parentIds), m) ==> g in r
  {
    var joined := JoinGuos(prnd, parentIds);
    var all := ConcatMap(methods, GuoTables(joined));
    var r := DropDuplicates(all);
    forall g | g in r ensures g.strategy in methods && g in GuoRndForMethod(joined, g.strategy) {
      var m :| m in methods && g in GuoTables(joined)(m);
      assert g == GuoRow(LinkedOf(joined, m), m, (g.guo, g.year));
    }
    forall m, g | m in methods && g in GuoRndForMethod(joined, m) ensures g in r {
      assert g in GuoTables(joined)(m);
    }
    r
  }

  // ---------------------------------------------------------------------------
  // Conservation

  /** `f` of the parent row of a joined row, counted only when the row belongs
      to method `m`, has owner `guo` and is for `year`. */
  function OwnerYearValue(m: Method, guo: Id, year: int, f: ParentRnd -> Option<real>): GuoJoined -> Option<real> {
    (j: GuoJoined) =>
      if j.left.strategy == m && j.right.Some? && j.right.value.guo == guo && j.left.year == year then f(j.left) else None
  }

  function ParentRndValue(x: ParentRnd): Option<real> {
    x.rnd
  }

  function ParentOprev(x: ParentRnd): Option<real> {
    x.oprev
  }

  /** Every owner row carries, for its method, owner and year, the sums of the
      revenue, R&D and clean R&D of the parent rows linked to that owner. */
  lemma GuoRowIsParentSums(joined: seq<GuoJoined>, m: Method, g: GuoRnd)
    requires g in GuoRndForMethod(joined, m)
    ensures g.strategy == m
    ensures g.clean == SumOf(joined, OwnerYearValue(m, g.guo, g.year, ParentClean))
    ensures g.rnd == SumOf(joined, OwnerYearValue(m, g.guo, g.year, ParentRndValue))
    ensures g.oprev == SumOf(joined, OwnerYearValue(m, g.guo, g.year, ParentOprev))
  {
    var k := (g.guo, g.year);
    GroupIsParentSum(joined, m, k, LinkedClean, ParentClean);
    GroupIsParentSum(joined, m, k, LinkedRnd, ParentRndValue);
    GroupIsParentSum(joined, m, k, LinkedOprev, ParentOprev);
  }

  /** One (owner, year) group sum of the linked rows, as a sum over the joined rows. */
  lemma GroupIsParentSum(joined: seq<GuoJoined>, m: Method, k: (Id, int), lf: Linked -> Option<real>, f: ParentRnd -> Option<real>)
    requires forall l :: lf(l) == f(l.row)
    ensures GroupSum(LinkedOf(joined, m), GuoYear, k, lf) == SumOf(joined, OwnerYearValue(m, k.0, k.1, f))
  {
    var rows := Filter(joined, JoinedStrategyIs(m));
    var linked := LinkedRows(rows);
    var inGroup := (l: Linked) => if GuoYear(l) == k then lf(l) else None;
    SumOfFilter(linked, KeyIs(GuoYear, k), lf, inGroup);
    LinkedRowsSum(rows, inGroup);
    SumOfFilter(joined, JoinedStrategyIs(m), ViaOwner(inGroup), OwnerYearValue(m, k.0, k.1, f));
  }


  function GuoClean(g: GuoRnd): Option<real> {
    Some(g.clean)
  }

  /** The owners' clean R&D of one method adds up to the clean R&D of the
      method's parent rows that have an owner. */
  lemma GuoTotalsAreParentTotals(joined: seq<GuoJoined>, m: Method)
    ensures SumOf(GuoRndForMethod(joined, m), GuoClean) == SumOf(LinkedOf(joined, m), LinkedClean)
  {
    var linked := LinkedOf(joined, m);
    var ks := GroupKeys(linked, GuoYear);
    SumOverGroupRows(ks, linked, m);
    PartitionSum(ks, linked, GuoYear, LinkedClean);
  }

  lemma {:induction false} SumOverGroupRows(ks: seq<(Id, int)>, linked: seq<Linked>, m: Method)
    ensures SumOf(MapSeq(ks, GuoRowMaker(linked, m)), GuoClean) == SumOverKeys(ks, linked, GuoYear, LinkedClean)
    decreases |ks|
  {
    if |ks| > 0 {
      assert MapSeq(ks, GuoRowMaker(linked, m))[1..] == MapSeq(ks[1..], GuoRowMaker(linked, m));
      SumOverGroupRows(ks[1..], linked, m);
    }
  }

  /** Without a duplicated parent among the owner links, the linked rows carry
      each parent row's clean R&D once when the parent has an owner, and not
      at all otherwise. */
  lemma LinkedCleanIsParentClean(prnd: seq<ParentRnd>, links: seq<GuoLink>)
    requires forall i, j :: 0 <= i < j < |links| ==> links[i].parent != links[j].parent
    ensures SumOf(LinkedRows(LeftJoin(prnd, links, OnGuoParent)), LinkedClean) ==
      SumOf(Filter(prnd, HasOwner(links)), ParentClean)
  {
    var rows := LeftJoin(prnd, links, OnGuoParent);
    LinkedRowsClean(rows);
    forall a | a in prnd ensures Val(OwnedClean(links)(a)) == SumOf(JoinOne(a, links, OnGuoParent), JoinedClean) {
      OneOwnerRow(a, links);
    }
    SumOverJoin(prnd, links, OnGuoParent, JoinedClean, OwnedClean(links));
    SumOfFilter(prnd, HasOwner(links), ParentClean, OwnedClean(links));
  }

  function ParentClean(x: ParentRnd): Option<real> {
    x.clean
  }

  /** The parent has an owner link. */
  function HasOwner(links: seq<GuoLink>): ParentRnd -> bool {
    (x: ParentRnd) => exists g :: g in links && g.parent == x.parent
  }

  function OwnedClean(links: seq<GuoLink>): ParentRnd -> Option<real> {
    (x: ParentRnd) => if HasOwner(links)(x) then x.clean else None
  }

  /** Clean R&D of a joined row, counted only when the row has an owner. */
  function JoinedClean(j: GuoJoined): Option<real> {
    if j.right.Some? then j.left.clean else None
  }

  /** A value of the linked row a joined row becomes, or nothing for a row without owner. */
  function ViaOwner(h: Linked -> Option<real>): GuoJoined -> Option<real> {
    (j: GuoJoined) => if j.right.Some? then h(Linked(j.right.value.guo, j.left)) else None
  }

  /** Summing over the linked rows is summing over the joined rows that have an owner. */
  lemma {:induction false} LinkedRowsSum(rows: seq<GuoJoined>, h: Linked -> Option<real>)
    ensures SumOf(LinkedRows(rows), h) == SumOf(rows, ViaOwner(h))
    decreases |rows|
  {
    if |rows| > 0 {
      LinkedRowsSum(rows[1..], h);
      if rows[0].right.Some? {
        var l := Linked(rows[0].right.value.guo, rows[0].left);
        assert LinkedRows(rows) == [l] + LinkedRows(rows[1..]);
        SumOfAppend([l], LinkedRows(rows[1..]), h);
      }
    }
  }

  lemma LinkedRowsClean(rows: seq<GuoJoined>)
    ensures SumOf(LinkedRows(rows), LinkedClean) == SumOf(rows, JoinedClean)
  {
    LinkedRowsSum(rows, LinkedClean);
    forall j | j in rows ensures Val(ViaOwner(LinkedClean)(j)) == Val(JoinedClean(j)) {
      if j.right.Some? {
        assert ViaOwner(LinkedClean)(j) == LinkedClean(Linked(j.right.value.guo, j.left)) == j.left.clean;
      }
    }
    SumOfExt(rows, ViaOwner(LinkedClean), JoinedClean);
  }

  lemma OneOwnerRow(a: ParentRnd, links: seq<GuoLink>)
    requires forall i, j :: 0 <= i < j < |links| ==> links[i].parent != links[j].parent
    ensures Val(OwnedClean(links)(a)) == SumOf(JoinOne(a, links, OnGuoParent), JoinedClean)
  {
    var ms := Matches(a, links, OnGuoParent);
    FilterSingleKey(links, MatchesOn(a, OnGuoParent), LinkParent, a.parent);
    if |ms| == 0 {
      forall g | g in links ensures g.parent != a.parent {
        assert g in links && OnGuoParent(a, g) ==> g in ms;
      }
      assert !HasOwner(links)(a);
      var one := [Joined(a, None)];
      assert JoinOne(a, links, OnGuoParent) == one;
      assert SumOf(one, JoinedClean) == Val(JoinedClean(one[0])) + SumOf(one[1..], JoinedClean);
    } else {
      assert ms[0] in ms;
      assert ms[0] in links && ms[0].parent == a.parent;
      assert HasOwner(links)(a);
      var one := [Joined(a, Some(ms[0]))];
      assert JoinOne(a, links, OnGuoParent) == one;
      assert SumOf(one, JoinedClean) == Val(a.clean) + SumOf(one[1..], JoinedClean);
    }
  }

  function LinkParent(g: GuoLink): Id {
    g.parent
  }

  /** With clean R&D between 0 and the R&D on every row, an owner's exposure lies in [0, 1]. */
  lemma GuoExposureInUnitInterval(joined: seq<GuoJoined>, m: Method, g: GuoRnd)
    requires forall l :: l in LinkedOf(joined, m) ==> 0.0 <= Val(l.row.clean) <= Val(l.row.rnd)
    requires g in GuoRndForMethod(joined, m)
    ensures g.exposure.Some? ==> 0.0 <= g.exposure.value <= 1.0
  {
    GroupExposureInUnitInterval(LinkedOf(joined, m), m, (g.guo, g.year));
  }

  lemma GroupExposureInUnitInterval(linked: seq<Linked>, m: Method, k: (Id, int))
    requires forall l :: l in linked ==> 0.0 <= Val(l.row.clean) <= Val(l.row.rnd)
    ensures var g := GuoRow(linked, m, k); g.exposure.Some? ==> 0.0 <= g.exposure.value <= 1.0
  {
    GroupCleanWithinRnd(linked, k);
    var g := GuoRow(linked, m, k);
    if g.exposure.Some? {
      Exposure.UnitQuotient(g.clean, g.rnd, g.exposure.value);
    }
  }

  lemma GroupCleanWithinRnd(linked: seq<Linked>, k: (Id, int))
    requires forall l :: l in linked ==> 0.0 <= Val(l.row.clean) <= Val(l.row.rnd)
    ensures 0.0 <= GroupSum(linked, GuoYear, k, LinkedClean) <= GroupSum(linked, GuoYear, k, LinkedRnd)
  {
    var group := Filter(linked, KeyIs(GuoYear, k));
    SumOfNonNeg(group, LinkedClean);
    SumOfMono(group, LinkedClean, LinkedRnd);
  }
}

=== FILE: identity.dfy ===
/** Identity tables: parent-to-ultimate-owner links, the subsidiary
    identity list, and (in the older pipeline) the parent-to-subsidiary
    links. Each is cleaned of missing identifiers and duplicates before use. */
module Identity {
  import opened Missing
  import opened Tables
  import opened Schema

  /** A parent company and its global ultimate owner (GUO) as read; the owner may be missing. */
  datatype RawGuoLink = RawGuoLink(guo: Option<Id>, parent: Id)

  /** A parent company and its global ultimate owner. */
  datatype GuoLink = GuoLink(guo: Id, parent: Id)

  /** A parent without an identified owner is its own ultimate owner. */
  function FillGuo(x: RawGuoLink): GuoLink {
    GuoLink(if x.guo.Some? then x.guo.value else x.parent, x.parent)
  }

  /** `collect_parent_ids`: fill missing owners with the parent itself, then drop exact duplicates. */
  function CollectParentIds(rows: seq<RawGuoLink>): (r: seq<GuoLink>)
    ensures |r| <= |rows|
    ensures UniqueKeys(r, WholeLink)
    ensures forall x :: x in rows && x.guo.None? ==> GuoLink(x.parent, x.parent) in r
    ensures forall x :: x in rows && x.guo.Some? ==> GuoLink(x.guo.value, x.parent) in r
    ensures forall g :: g in r ==>
      exists x :: x in rows && x.parent == g.parent && (x.guo == Some(g.guo) || (x.guo.None? && g.guo == g.parent))
    ensures IsDedupOf(r, MapSeq(rows, FillGuo), WholeLink)
  {
    var r := DedupBy(MapSeq(rows, FillGuo), WholeLink);
    FilledCovered(rows);
    FilledFrom(rows);
    r
  }

  /** The whole row is the de-duplication key. */
  function WholeLink(g: GuoLink): GuoLink {
    g
  }

  lemma FilledCovered(rows: seq<RawGuoLink>)
    ensures forall x :: x in rows ==> FillGuo(x) in DedupBy(MapSeq(rows, FillGuo), WholeLink)
  {
    var filled := MapSeq(rows, FillGuo);
    var r := DedupBy(filled, WholeLink);
    forall x | x in rows ensures FillGuo(x) in r {
      var i :| 0 <= i < |rows| && rows[i] == x;
      assert filled[i] == FillGuo(x);
      assert WholeLink(filled[i]) in KeySet(filled, WholeLink);
      var j :| 0 <= j < |r| && WholeLink(r[j]) == FillGuo(x);
    }
  }

  lemma FilledFrom(rows: seq<RawGuoLink>)
    ensures forall g :: g in DedupBy(MapSeq(rows, FillGuo), WholeLink) ==>
      exists x :: x in rows && x.parent == g.parent && (x.guo == Some(g.guo) || (x.guo.None? && g.guo == g.parent))
  {
    var filled := MapSeq(rows, FillGuo);
    var r := DedupBy(filled, WholeLink);
    forall g | g in r ensures exists x :: x in rows && x.parent == g.parent && (x.guo == Some(g.guo) || (x.guo.None? && g.guo == g.parent)) {
      var i :| 0 <= i < |filled| && filled[i] == g;
      assert rows[i] in rows;
    }
  }

  /** A subsidiary identity row as read; the identifier may be missing. */
  datatype SubIdRow = SubIdRow(sub: Option<Id>, conso: string, name: string)

  predicate HasSubId(x: SubIdRow) {
    x.sub.Some?
  }

  function SubIdOf(x: SubIdRow): Option<Id> {
    x.sub
  }

  /** `load_sub_ids`: drop rows without a subsidiary identifier, then keep the first row per identifier. */
  function LoadSubIds(rows: seq<SubIdRow>): (r: seq<SubIdRow>)
    ensures |r| <= |rows|
    ensures forall x :: x in r ==> x in rows && x.sub.Some?
    ensures UniqueKeys(r, SubIdOf)
    ensures forall x :: x in rows && x.sub.Some? ==> exists y :: y in r && y.sub == x.sub
    ensures forall y :: y in r ==> y.sub in KeySet(rows, SubIdOf) && y == rows[First(rows, SubIdOf, y.sub)]
  {
    var r := DedupBy(Filter(rows, HasSubId), SubIdOf);
    SubIdsCovered(rows);
    SubIdsFirst(rows);
    r
  }

  lemma SubIdsCovered(rows: seq<SubIdRow>)
    ensures forall x :: x in rows && x.sub.Some? ==> exists y :: y in DedupBy(Filter(rows, HasSubId), SubIdOf) && y.sub == x.sub
  {
    var kept := Filter(rows, HasSubId);
    var r := DedupBy(kept, SubIdOf);
    forall x | x in rows && x.sub.Some? ensures exists y :: y in r && y.sub == x.sub {
      assert x in kept;
      var i :| 0 <= i < |kept| && kept[i] == x;
      assert SubIdOf(kept[i]) == x.sub;
      assert x.sub in KeySet(kept, SubIdOf);
      assert x.sub in KeySet(r, SubIdOf);
      var j :| 0 <= j < |r| && SubIdOf(r[j]) == x.sub;
      assert r[j] in r;
    }
  }

  lemma SubIdsFirst(rows: seq<SubIdRow>)
    ensures forall y :: y in DedupBy(Filter(rows, HasSubId), SubIdOf) ==>
      y.sub in KeySet(rows, SubIdOf) && y == rows[First(rows, SubIdOf, y.sub)]
  {
    var kept := Filter(rows, HasSubId);
    var r := DedupBy(kept, SubIdOf);
    forall y | y in r ensures y.sub in KeySet(rows, SubIdOf) && y == rows[First(rows, SubIdOf, y.sub)] {
      var j :| 0 <= j < |r| && r[j] == y;
      assert y == kept[First(kept, SubIdOf, y.sub)];
      var i :| 0 <= i < |rows| && rows[i] == y;
      assert y.sub == SubIdOf(rows[i]);
      FirstThroughFilter(rows, HasSubId, SubIdOf, y.sub);
    }
  }

  /** A parent-to-subsidiary link as read; either identifier may be missing. */
  datatype RawLink = RawLink(parent: Option<Id>, sub: Option<Id>)

  predicate BothIds(x: RawLink) {
    x.parent.Some? && x.sub.Some?
  }

  function ToLink(x: RawLink): Link
    requires BothIds(x)
  {
    Link(x.parent.value, x.sub.value)
  }

  /** The links of rows that carry both identifiers. */
  function ToLinks(kept: seq<RawLink>): (links: seq<Link>)
    requires forall x :: x in kept ==> BothIds(x)
    ensures |links| == |kept|
    ensures forall i :: 0 <= i < |kept| ==> links[i] == ToLink(kept[i])
  {
    seq(|kept|, i requires 0 <= i < |kept| => ToLink(kept[i]))
  }

  /** `select_subs` (older pipeline): drop links with a missing identifier, then
      keep the first row per (parent, subsidiary) pair. */
  function SelectSubs(rows: seq<RawLink>): (r: seq<Link>)
    ensures |r| <= |rows|
    ensures UniqueKeys(r, (l: Link) => l)
    ensures forall l :: l in r ==> RawLink(Some(l.parent), Some(l.sub)) in rows
    ensures forall x :: x in rows && BothIds(x) ==> Link(x.parent.value, x.sub.value) in r
    ensures IsDedupOf(r, ToLinks(Filter(rows, BothIds)), (l: Link) => l)
  {
    var r := DedupBy(ToLinks(Filter(rows, BothIds)), (l: Link) => l);
    SelectSubsFacts(rows);
    r
  }

  lemma SelectSubsFacts(rows: seq<RawLink>)
    ensures forall l :: l in DedupBy(ToLinks(Filter(rows, BothIds)), (l: Link) => l) ==>
      RawLink(Some(l.parent), Some(l.sub)) in rows
    ensures forall x :: x in rows && BothIds(x) ==>
      Link(x.parent.value, x.sub.value) in DedupBy(ToLinks(Filter(rows, BothIds)), (l: Link) => l)
  {
    var kept := Filter(rows, BothIds);
    LinksFromKept(kept);
    KeptLinksSurvive(kept);
  }

  lemma LinksFromKept(kept: seq<RawLink>)
    requires forall x :: x in kept ==> BothIds(x)
    ensures forall l :: l in DedupBy(ToLinks(kept), (l: Link) => l) ==> RawLink(Some(l.parent), Some(l.sub)) in kept
  {
    var links := ToLinks(kept);
    forall i | 0 <= i < |links| ensures RawLink(Some(links[i].parent), Some(links[i].sub)) in kept {
      assert kept[i] in kept;
    }
  }

  lemma KeptLinksSurvive(kept: seq<RawLink>)
    requires forall x :: x in kept ==> BothIds(x)
    ensures forall x :: x in kept ==> ToLink(x) in DedupBy(ToLinks(kept), (l: Link) => l)
  {
    var links := ToLinks(kept);
    var r := DedupBy(links, (l: Link) => l);
    forall x | x in kept ensures ToLink(x) in r {
      var i :| 0 <= i < |kept| && kept[i] == x;
      assert links[i] == ToLink(x);
      assert links[i] in KeySet(links, (l: Link) => l);
      assert links[i] in KeySet(r, (l: Link) => l);
    }
  }
}

=== FILE: missing.dfy ===
/** Missing values and the missing-skipping arithmetic of the pipeline.

    A table cell that pandas would hold as NaN is `None` here. Aggregates follow
    pandas' defaults: a sum skips missing values and a sum of nothing (or of
    only missing values) is 0; a mean skips missing values and is missing when
    nothing is left; a product or quotient with a missing operand is missing.
    A quotient by zero is missing too (pandas would give NaN or an infinity). */
module Missing {

  datatype Option<+T> = None | Some(value: T)

  /** The contribution of a cell to a missing-skipping sum. */
  function Val(o: Option<real>): real {
    if o.Some? then o.value else 0.0
  }

  /** Product of two cells; missing when either is. */
  function Mul(a: Option<real>, b: Option<real>): (r: Option<real>)
    ensures r.Some? <==> a.Some? && b.Some?
  {
    if a.Some? && b.Some? then Some(a.value * b.value) else None
  }

  /** Quotient of two cells; missing when either is, or when the divisor is zero. */
  function Div(a: Option<real>, b: Option<real>): (r: Option<real>)
    ensures r.Some? <==> a.Some? && b.Some? && b.value != 0.0
    ensures r.Some? ==> r.value * b.value == a.value && r.value == a.value / b.value
  {
    if a.Some? && b.Some? && b.value != 0.0 then Some(a.value / b.value) else None
  }

  /** Missing-skipping sum of `f` over the rows of `s` (pandas `sum(skipna=True)`). */
  function SumOf<T>(s: seq<T>, f: T -> Option<real>): real
    decreases |s|
  {
    if |s| == 0 then 0.0 else Val(f(s[0])) + SumOf(s[1..], f)
  }

  /** Number of rows of `s` on which `f` is defined. */
  function CountSome<T>(s: seq<T>, f: T -> Option<real>): (n: nat)
    ensures n <= |s|
    ensures n == 0 <==> forall x :: x in s ==> f(x).None?
    decreases |s|
  {
    if |s| == 0 then 0
    else (if f(s[0]).Some? then 1 else 0) + CountSome(s[1..], f)
  }

  /** Missing-skipping mean (pandas `mean(skipna=True)`): missing when no row is defined. */
  function MeanOf<T>(s: seq<T>, f: T -> Option<real>): (r: Option<real>)
    ensures r.None? <==> forall x :: x in s ==> f(x).None?
    ensures r.Some? ==> r.value * (CountSome(s, f) as real) == SumOf(s, f)
  {
    var n := CountSome(s, f);
    if n == 0 then None else Some(SumOf(s, f) / (n as real))
  }

  // ---------------------------------------------------------------------------
  // Sum lemmas

  lemma {:induction false} SumOfAppend<T>(a: seq<T>, b: seq<T>, f: T -> Option<real>)
    ensures SumOf(a + b, f) == SumOf(a, f) + SumOf(b, f)
    decreases |a|
  {
    if |a| == 0 {
      assert a + b == b;
    } else {
      assert (a + b)[0] == a[0];
      assert (a + b)[1..] == a[1..] + b;
      SumOfAppend(a[1..], b, f);
    }
  }

  /** Two column functions that agree row by row (up to missing-as-zero) sum alike. */
  lemma {:induction false} SumOfExt<T>(s: seq<T>, f: T -> Option<real>, g: T -> Option<real>)
    requires forall x :: x in s ==> Val(f(x)) == Val(g(x))
    ensures SumOf(s, f) == SumOf(s, g)
    decreases |s|
  {
    if |s| > 0 {
      assert s[0] in s;
      assert forall x :: x in s[1..] ==> x in s;
      SumOfExt(s[1..], f, g);
    }
  }

  /** Summing two columns row by row and then down the table is summing each down the table. */
  lemma {:induction false} SumOfAdd<T>(s: seq<T>, f: T -> Option<real>, g: T -> Option<real>, h: T -> Option<real>)
    requires forall x :: x in s ==> Val(h(x)) == Val(f(x)) + Val(g(x))
    ensures SumOf(s, h) == SumOf(s, f) + SumOf(s, g)
    decreases |s|
  {
    if |s| > 0 {
      assert s[0] in s;
      assert forall x :: x in s[1..] ==> x in s;
      SumOfAdd(s[1..], f, g, h);
    }
  }

  /** A column that is `v` on every row sums to `v` times the number of rows. */
  lemma {:induction false} SumOfConst<T>(s: seq<T>, f: T -> Option<real>, v: real)
    requires forall x :: x in s ==> Val(f(x)) == v
    ensures SumOf(s, f) == |s| as real * v
    decreases |s|
  {
    if |s| > 0 {
      assert s[0] in s;
      assert forall x :: x in s[1..] ==> x in s;
      SumOfConst(s[1..], f, v);
    }
  }

  /** Two tables whose rows contribute alike position by position sum alike. */
  lemma {:induction false} SumOfPointwise<A, B>(r: seq<A>, g: A -> Option<real>, s: seq<B>, h: B -> Option<real>)
    requires |r| == |s|
    requires forall i :: 0 <= i < |r| ==> Val(g(r[i])) == Val(h(s[i]))
    ensures SumOf(r, g) == SumOf(s, h)
    decreases |r|
  {
    if |r| > 0 {
      assert forall i :: 0 <= i < |r| - 1 ==> r[1..][i] == r[i + 1] && s[1..][i] == s[i + 1];
      SumOfPointwise(r[1..], g, s[1..], h);
    }
  }

  /** A sum scales with its rows: if every row of `g` is `k` times the row of `f`. */
  lemma {:induction false} SumOfScale<T>(s: seq<T>, f: T -> Option<real>, g: T -> Option<real>, k: real)
    requires forall x :: x in s ==> Val(g(x)) == k * Val(f(x))
    ensures SumOf(s, g) == k * SumOf(s, f)
    decreases |s|
  {
    if |s| == 0 {
      assert SumOf(s, f) == 0.0;
    } else {
      var fh, ft := Val(f(s[0])), SumOf(s[1..], f);
      var gh, gt := Val(g(s[0])), SumOf(s[1..], g);
      assert s[0] in s;
      forall x | x in s[1..] ensures Val(g(x)) == k * Val(f(x)) {
        assert x in s;
      }
      SumOfScale(s[1..], f, g, k);
      ScaleStep(gh, gt, fh, ft, k);
    }
  }

  lemma ScaleStep(gh: real, gt: real, fh: real, ft: real, k: real)
    requires gh == k * fh && gt == k * ft
    ensures gh + gt == k * (fh + ft)
  {
  }

  /** Every row's `g` is `k` times its `f`. */
  ghost predicate ScaledBy<T>(s: seq<T>, f: T -> Option<real>, g: T -> Option<real>, k: real) {
    forall x :: x in s ==> Val(g(x)) == k * Val(f(x))
  }

  /** A sum of rows each counted `n` times is `n` times the sum. */
  lemma SumOfRepeat<T>(s: seq<T>, f: T -> Option<real>, g: T -> Option<real>, n: nat)
    requires ScaledBy(s, f, g, n as real)
    ensures SumOf(s, g) == n as real * SumOf(s, f)
  {
    SumOfScale(s, f, g, n as real);
  }

  /** Rows each worth `a / e` times their share, with shares adding up to `e`, add up to `a`. */
  lemma SumOfShares<T>(s: seq<T>, share: T -> Option<real>, g: T -> Option<real>, a: real, e: real)
    requires e != 0.0
    requires ScaledBy(s, share, g, a / e)
    requires SumOf(s, share) == e
    ensures SumOf(s, g) == a
  {
    SumOfScale(s, share, g, a / e);
  }

  /** A sum is monotone in its rows. */
  lemma {:induction false} SumOfMono<T>(s: seq<T>, f: T -> Option<real>, g: T -> Option<real>)
    requires forall x :: x in s ==> Val(f(x)) <= Val(g(x))
    ensures SumOf(s, f) <= SumOf(s, g)
    decreases |s|
  {
    if |s| > 0 {
      assert s[0] in s;
      assert forall x :: x in s[1..] ==> x in s;
      SumOfMono(s[1..], f, g);
    }
  }

  /** A sum of non-negative cells is non-negative. */
  lemma {:induction false} SumOfNonNeg<T>(s: seq<T>, f: T -> Option<real>)
    requires forall x :: x in s ==> Val(f(x)) >= 0.0
    ensures SumOf(s, f) >= 0.0
    decreases |s|
  {
    if |s| > 0 {
      assert s[0] in s;
      assert forall x :: x in s[1..] ==> x in s;
      SumOfNonNeg(s[1..], f);
    }
  }
}

=== FILE: old_rnd.dfy ===
/** R&D allocation of the older pipeline, for one method:
    `compute_main_comp_rnd` turns the group exposures and the parents' R&D
    rows into one row per parent and year, keeping only rows whose exposure
    and R&D are both known; `compute_sub_rnd` joins the subsidiary exposures
    with those rows and hands every subsidiary the parent's clean R&D times
    its share over the sum of the shares of its (parent, year) group. */
module MainCompAllocation {
  import opened Missing
  import opened Tables
  import opened Schema
  import opened Exposure

  /** `['rnd_y' + str(YY) for YY in range(10, 20)[::-1]]`: 2019 down to 2010. */
  const OldRndLabels: seq<string> := [
    "rnd_y19", "rnd_y18", "rnd_y17", "rnd_y16", "rnd_y15",
    "rnd_y14", "rnd_y13", "rnd_y12", "rnd_y11", "rnd_y10"]

  lemma OldRndLabelsAreYears()
    ensures AllYearLabels(OldRndLabels)
    ensures forall i :: 0 <= i < |OldRndLabels| ==> YearOf(OldRndLabels[i]) == 2019 - i
  {
  }

  // ---------------------------------------------------------------------------
  // Parent level

  /** A group exposure row joined with one R&D row of the parent, or with none. */
  type MainJoined = Joined<ParentExposure, FinRow>

  predicate OnMainFin(pe: ParentExposure, f: FinRow) {
    pe.parent == f.id
  }

  /** One row of the melt: parent, exposure, label, year and R&D value. */
  datatype MainCell = MainCell(parent: Id, exposure: Option<real>, column: string, year: int, rnd: Option<real>)

  function MainCellOf(j: MainJoined, l: string): MainCell {
    MainCell(j.left.parent, j.left.exposure, l, LabelYear(l), if j.right.Some? then Cell(j.right.value.values, l) else None)
  }

  /** `dropna(subset=[exposure, rnd, clean], how='any')`; the product is known
      exactly when both factors are. */
  predicate Complete(c: MainCell) {
    c.exposure.Some? && c.rnd.Some?
  }

  /** A row of `listed companies - rnd estimates`: parent, exposure, label,
      year, R&D and the clean R&D `main_comp_rnd_<method>`. */
  datatype MainCompRnd = MainCompRnd(parent: Id, exposure: real, column: string, year: int, rnd: real, clean: real)

  /** The row a complete melt cell becomes. */
  function MainRndOf(c: MainCell): MainCompRnd {
    MainCompRnd(c.parent, Val(c.exposure), c.column, c.year, Val(c.rnd), Val(c.rnd) * Val(c.exposure))
  }

  /** The cells of the melt, before the rows with a missing value are dropped. */
  function MainCells(exposures: seq<ParentExposure>, fins: seq<FinRow>): seq<MainCell> {
    Melt(LeftJoin(exposures, fins, OnMainFin), OldRndLabels, MainCellOf)
  }

  /** `compute_main_comp_rnd`: join, melt, clean R&D, and drop the rows with a missing value. */
  function ComputeMainCompRnd(exposures: seq<ParentExposure>, fins: seq<FinRow>): (r: seq<MainCompRnd>)
  {
    MapSeq(Filter(MainCells(exposures, fins), Complete), MainRndOf)
  }

  /** The row an exposure row, an R&D row and a label with known values give. */
  function Expected(pe: ParentExposure, f: FinRow, l: string): MainCompRnd {
    var rnd := Val(Cell(f.values, l));
    MainCompRnd(pe.parent, Val(pe.exposure), l, LabelYear(l), rnd, rnd * Val(pe.exposure))
  }

  /** `x` comes from an exposure row and an R&D row of its parent with known values. */
  ghost predicate MainRowFrom(exposures: seq<ParentExposure>, fins: seq<FinRow>, x: MainCompRnd) {
    exists pe, f :: pe in exposures && f in fins && OnMainFin(pe, f) && pe.exposure.Some? && Cell(f.values, x.column).Some?
      && x == Expected(pe, f, x.column)
  }

  /** Every row comes from a group exposure row and an R&D row of the same
      parent whose exposure and R&D for the row's label are known; its year is
      the label's and its clean R&D is the R&D times the exposure. */
  lemma MainCompRndRows(exposures: seq<ParentExposure>, fins: seq<FinRow>, x: MainCompRnd)
    requires x in ComputeMainCompRnd(exposures, fins)
    ensures x.column in OldRndLabels && YearLabel(x.column) && x.year == YearOf(x.column) && x.clean == x.rnd * x.exposure
    ensures MainRowFrom(exposures, fins, x)
  {
    var c := CellOfRow(exposures, fins, x);
    var j, l := SourceOfCell(exposures, fins, c);
    RowFromJoined(exposures, fins, j, l, x);
  }

  lemma CellOfRow(exposures: seq<ParentExposure>, fins: seq<FinRow>, x: MainCompRnd) returns (c: MainCell)
    requires x in ComputeMainCompRnd(exposures, fins)
    ensures c in MainCells(exposures, fins) && Complete(c) && x == MainRndOf(c)
  {
    var kept := Filter(MainCells(exposures, fins), Complete);
    MapSeqMembers(kept, MainRndOf);
    c :| c in kept && x == MainRndOf(c);
  }

  lemma SourceOfCell(exposures: seq<ParentExposure>, fins: seq<FinRow>, c: MainCell) returns (j: MainJoined, l: string)
    requires c in MainCells(exposures, fins)
    ensures j in LeftJoin(exposures, fins, OnMainFin) && l in OldRndLabels && c == MainCellOf(j, l)
  {
    j, l :| j in LeftJoin(exposures, fins, OnMainFin) && l in OldRndLabels && c == MainCellOf(j, l);
  }

  lemma RowFromJoined(exposures: seq<ParentExposure>, fins: seq<FinRow>, j: MainJoined, l: string, x: MainCompRnd)
    requires j.left in exposures
    requires j.right.Some? ==> j.right.value in fins && OnMainFin(j.left, j.right.value)
    requires l in OldRndLabels && Complete(MainCellOf(j, l)) && x == MainRndOf(MainCellOf(j, l))
    ensures x.column in OldRndLabels && YearLabel(x.column) && x.year == YearOf(x.column) && x.clean == x.rnd * x.exposure
    ensures MainRowFrom(exposures, fins, x)
  {
    OldRndLabelsAreYears();
    assert x == Expected(j.left, j.right.value, l);
  }

  /** Every group exposure row, R&D row of the same parent and year label
      whose exposure and R&D are known give a row. */
  lemma MainCompRndCovers(exposures: seq<ParentExposure>, fins: seq<FinRow>, pe: ParentExposure, f: FinRow, l: string)
    requires pe in exposures && f in fins && OnMainFin(pe, f) && l in OldRndLabels
    requires pe.exposure.Some? && Cell(f.values, l).Some?
    ensures Expected(pe, f, l) in ComputeMainCompRnd(exposures, fins)
  {
    var j := Joined(pe, Some(f));
    assert j in LeftJoin(exposures, fins, OnMainFin);
    CellInMelt(exposures, fins, j, l);
    KeptRow(exposures, fins, MainCellOf(j, l));
    ExpectedCell(pe, f, l);
  }

  lemma ExpectedCell(pe: ParentExposure, f: FinRow, l: string)
    ensures MainRndOf(MainCellOf(Joined(pe, Some(f)), l)) == Expected(pe, f, l)
  {
  }

  lemma CellInMelt(exposures: seq<ParentExposure>, fins: seq<FinRow>, j: MainJoined, l: string)
    requires j in LeftJoin(exposures, fins, OnMainFin) && l in OldRndLabels
    ensures MainCellOf(j, l) in MainCells(exposures, fins)
  {
  }

  lemma KeptRow(exposures: seq<ParentExposure>, fins: seq<FinRow>, c: MainCell)
    requires c in MainCells(exposures, fins) && Complete(c)
    ensures MainRndOf(c) in ComputeMainCompRnd(exposures, fins)
  {
    var kept := Filter(MainCells(exposures, fins), Complete);
    assert c in kept;
    MapSeqMembers(kept, MainRndOf);
  }

  // ---------------------------------------------------------------------------
  // Subsidiary level

  /** The columns of a parent row carried into the join:
      `bvd9`, `main_comp_rnd`, `year` and `main_comp_rnd_<method>`. */
  datatype MainCols = MainCols(parent: Id, rnd: real, year: int, clean: real)

  function MainColsOf(x: MainCompRnd): MainCols {
    MainCols(x.parent, x.rnd, x.year, x.clean)
  }

  type OldJoined = Joined<SubExposure, MainCols>

  predicate OnMainRnd(x: SubExposure, c: MainCols) {
    ParentOf(x.row) == c.parent
  }

  /** The `groupby(['bvd9', 'year'])` key; a row without a parent row has no
      year, and pandas leaves such rows out of every group. */
  function YearKey(j: OldJoined): Option<(Id, int)> {
    if j.right.Some? then Some((ParentOf(j.left.row), j.right.value.year)) else None
  }

  function JoinedShare(j: OldJoined): Option<real> {
    j.left.share
  }

  /** `main_comp_exposure_from_sub`: the sum of the shares of the row's
      (parent, year) group, missing for a row without a parent row. */
  function FromSub(joined: seq<OldJoined>, j: OldJoined): (d: Option<real>)
    ensures d.Some? <==> j.right.Some?
  {
    if j.right.Some? then Some(GroupSum(joined, YearKey, YearKey(j), JoinedShare)) else None
  }

  /** A row of `listed companies subsidiaries - rnd estimates`: the subsidiary
      exposure row, the parent row it was joined with (none when its parent
      has none), the group's share sum, and `sub_rnd_<method>`. */
  datatype OldSubRnd = OldSubRnd(exposure: SubExposure, main: Option<MainCols>, fromSub: Option<real>, clean: Option<real>)

  /** `main_comp_rnd_<method> * sub_exposure / main_comp_exposure_from_sub`. */
  function OldAllocate(j: OldJoined, d: Option<real>): Option<real> {
    if j.right.Some? then Div(Mul(Some(j.right.value.clean), j.left.share), d) else None
  }

  function OldSubRndOf(joined: seq<OldJoined>, j: OldJoined): OldSubRnd {
    var d := FromSub(joined, j);
    OldSubRnd(j.left, j.right, d, OldAllocate(j, d))
  }

  function OldSubRndMaker(joined: seq<OldJoined>): OldJoined -> OldSubRnd {
    (j: OldJoined) => OldSubRndOf(joined, j)
  }

  function JoinMains(subs: seq<SubExposure>, mains: seq<MainCompRnd>): seq<OldJoined> {
    LeftJoin(subs, MapSeq(mains, MainColsOf), OnMainRnd)
  }

  /** `compute_sub_rnd` (older pipeline): one row per joined row, in order.
      Each row is a subsidiary exposure row joined with a parent row of its
      parent, or with none when its parent has none. A row has a group sum
      exactly when it found a parent row, and clean R&D exactly when, besides,
      its share is known and the group sum is not zero; then the clean R&D
      times the group sum is the parent's clean R&D times the share. */
  function ComputeOldSubRnd(subs: seq<SubExposure>, mains: seq<MainCompRnd>): (r: seq<OldSubRnd>)
    ensures |r| == |JoinMains(subs, mains)|
    ensures forall i :: 0 <= i < |r| ==> r[i] == OldSubRndOf(JoinMains(subs, mains), JoinMains(subs, mains)[i])
    ensures forall y :: y in r ==> y.exposure in subs
    ensures forall y :: y in r && y.main.Some? ==>
      OnMainRnd(y.exposure, y.main.value) && exists x :: x in mains && MainColsOf(x) == y.main.value
    ensures forall y, x :: y in r && y.main.None? && x in mains ==> x.parent != ParentOf(y.exposure.row)
    ensures forall y :: y in r ==> (y.fromSub.Some? <==> y.main.Some?)
    ensures forall y :: y in r ==>
      (y.clean.Some? <==> y.main.Some? && y.exposure.share.Some? && Val(y.fromSub) != 0.0)
    ensures forall y :: y in r && y.clean.Some? ==>
      y.clean.value * y.fromSub.value == y.main.value.clean * y.exposure.share.value
  {
    var joined := JoinMains(subs, mains);
    var r := MapSeq(joined, OldSubRndMaker(joined));
    forall y | y in r
      ensures y.exposure in subs
      ensures y.main.Some? ==> OnMainRnd(y.exposure, y.main.value) && exists x :: x in mains && MainColsOf(x) == y.main.value
      ensures y.main.None? ==> forall x :: x in mains ==> x.parent != ParentOf(y.exposure.row)
      ensures y.fromSub.Some? <==> y.main.Some?
      ensures y.clean.Some? <==> y.main.Some? && y.exposure.share.Some? && Val(y.fromSub) != 0.0
      ensures y.clean.Some? ==> y.clean.value * y.fromSub.value == y.main.value.clean * y.exposure.share.value
    {
      var i :| 0 <= i < |r| && r[i] == y;
      OldSubRndOfFacts(joined, joined[i], y);
      JoinedRowFacts(subs, mains, joined[i]);
    }
    r
  }

  lemma JoinedRowFacts(subs: seq<SubExposure>, mains: seq<MainCompRnd>, j: OldJoined)
    requires j in JoinMains(subs, mains)
    ensures j.left in subs
    ensures j.right.Some? ==> OnMainRnd(j.left, j.right.value) && exists x :: x in mains && MainColsOf(x) == j.right.value
    ensures j.right.None? ==> forall x :: x in mains ==> x.parent != ParentOf(j.left.row)
  {
    var cols := MapSeq(mains, MainColsOf);
    MapSeqMembers(mains, MainColsOf);
    if j.right.None? {
      forall x | x in mains ensures x.parent != ParentOf(j.left.row) {
        assert MainColsOf(x) in cols;
      }
    }
  }

  lemma OldSubRndOfFacts(joined: seq<OldJoined>, j: OldJoined, y: OldSubRnd)
    requires y == OldSubRndOf(joined, j)
    ensures y.exposure == j.left && y.main == j.right
    ensures y.fromSub.Some? <==> y.main.Some?
    ensures y.clean.Some? <==> y.main.Some? && y.exposure.share.Some? && Val(y.fromSub) != 0.0
    ensures y.clean.Some? ==> y.clean.value * y.fromSub.value == y.main.value.clean * y.exposure.share.value
  {
  }

  // ---------------------------------------------------------------------------
  // Conservation

  function InGroup(k: (Id, int)): OldSubRnd -> bool {
    (y: OldSubRnd) => YearKey(Joined(y.exposure, y.main)) == Some(k)
  }

  function OldClean(y: OldSubRnd): Option<real> {
    y.clean
  }

  function OldCleanInGroup(k: (Id, int)): OldSubRnd -> Option<real> {
    (y: OldSubRnd) => if YearKey(Joined(y.exposure, y.main)) == Some(k) then y.clean else None
  }

  /** The clean R&D a joined row receives. */
  function JoinedClean(joined: seq<OldJoined>): OldJoined -> Option<real> {
    (j: OldJoined) => OldAllocate(j, FromSub(joined, j))
  }

  function JoinedCleanInGroup(joined: seq<OldJoined>, k: (Id, int)): OldJoined -> Option<real> {
    (j: OldJoined) => if YearKey(j) == Some(k) then OldAllocate(j, FromSub(joined, j)) else None
  }

  /** The rows of one (parent, year) group of the joined table. */
  function GroupRows(joined: seq<OldJoined>, k: (Id, int)): seq<OldJoined> {
    Filter(joined, KeyIs(YearKey, Some(k)))
  }

  /** Dividing by the group's own share sum shares out the parent's clean R&D
      of a year exactly: when every row of a (parent, year) group carries the
      same parent clean R&D `c` and the group's shares do not add up to zero,
      the group's subsidiaries receive `c` in total. */
  lemma OldAllocationConserves(subs: seq<SubExposure>, mains: seq<MainCompRnd>, k: (Id, int), c: real)
    requires forall j :: j in JoinMains(subs, mains) && YearKey(j) == Some(k) ==> j.right.value.clean == c
    requires GroupSum(JoinMains(subs, mains), YearKey, Some(k), JoinedShare) != 0.0
    ensures SumOf(Filter(ComputeOldSubRnd(subs, mains), InGroup(k)), OldClean) == c
  {
    OutputGroupSum(subs, mains, k);
    GroupConserves(JoinMains(subs, mains), k, c);
  }

  /** The same, over the joined rows. */
  lemma GroupConserves(joined: seq<OldJoined>, k: (Id, int), c: real)
    requires forall j :: j in joined && YearKey(j) == Some(k) ==> j.right.value.clean == c
    requires GroupSum(joined, YearKey, Some(k), JoinedShare) != 0.0
    ensures SumOf(GroupRows(joined, k), JoinedClean(joined)) == c
  {
    var d := GroupSum(joined, YearKey, Some(k), JoinedShare);
    EachInGroupScaled(joined, k, c, d);
    GroupRowsScaled(joined, k, c, d);
    GroupShareSum(joined, k);
    SumOfShares(GroupRows(joined, k), JoinedShare, JoinedClean(joined), c, d);
  }

  lemma GroupShareSum(joined: seq<OldJoined>, k: (Id, int))
    ensures SumOf(GroupRows(joined, k), JoinedShare) == GroupSum(joined, YearKey, Some(k), JoinedShare)
  {
  }

  /** The clean R&D of a group in the output is the clean R&D of the group's joined rows. */
  lemma OutputGroupSum(subs: seq<SubExposure>, mains: seq<MainCompRnd>, k: (Id, int))
    ensures SumOf(Filter(ComputeOldSubRnd(subs, mains), InGroup(k)), OldClean) ==
      SumOf(GroupRows(JoinMains(subs, mains), k), JoinedClean(JoinMains(subs, mains)))
  {
    RowwiseGroupSum(JoinMains(subs, mains), ComputeOldSubRnd(subs, mains), k);
  }

  lemma RowwiseGroupSum(joined: seq<OldJoined>, r: seq<OldSubRnd>, k: (Id, int))
    requires r == MapSeq(joined, OldSubRndMaker(joined))
    ensures SumOf(Filter(r, InGroup(k)), OldClean) == SumOf(GroupRows(joined, k), JoinedClean(joined))
  {
    SumOfFilter(r, InGroup(k), OldClean, OldCleanInGroup(k));
    SumOfPointwise(r, OldCleanInGroup(k), joined, JoinedCleanInGroup(joined, k));
    SumOfFilter(joined, KeyIs(YearKey, Some(k)), JoinedClean(joined), JoinedCleanInGroup(joined, k));
  }

  /** Every row of the group receives `c` over the group's share sum times its share. */
  lemma GroupRowsScaled(joined: seq<OldJoined>, k: (Id, int), c: real, d: real)
    requires d != 0.0
    requires forall j :: j in GroupRows(joined, k) ==> Val(JoinedClean(joined)(j)) == (c / d) * Val(JoinedShare(j))
    ensures ScaledBy(GroupRows(joined, k), JoinedShare, JoinedClean(joined), c / d)
  {
  }

  lemma EachInGroupScaled(joined: seq<OldJoined>, k: (Id, int), c: real, d: real)
    requires forall j :: j in joined && YearKey(j) == Some(k) ==> j.right.value.clean == c
    requires d == GroupSum(joined, YearKey, Some(k), JoinedShare) && d != 0.0
    ensures forall j :: j in GroupRows(joined, k) ==> Val(JoinedClean(joined)(j)) == (c / d) * Val(JoinedShare(j))
  {
    forall j | j in GroupRows(joined, k) ensures Val(JoinedClean(joined)(j)) == (c / d) * Val(JoinedShare(j)) {
      InGroupScaled(joined, k, j, c, d);
    }
  }

  lemma InGroupScaled(joined: seq<OldJoined>, k: (Id, int), j: OldJoined, c: real, d: real)
    requires j in GroupRows(joined, k)
    requires forall j :: j in joined && YearKey(j) == Some(k) ==> j.right.value.clean == c
    requires d == GroupSum(joined, YearKey, Some(k), JoinedShare) && d != 0.0
    ensures Val(JoinedClean(joined)(j)) == (c / d) * Val(JoinedShare(j))
  {
    assert j in joined && KeyIs(YearKey, Some(k))(j);
    RowScaled(joined, j, c, d);
  }

  lemma RowScaled(joined: seq<OldJoined>, j: OldJoined, c: real, d: real)
    requires j.right.Some? && j.right.value.clean == c
    requires FromSub(joined, j) == Some(d) && d != 0.0
    ensures Val(JoinedClean(joined)(j)) == (c / d) * Val(JoinedShare(j))
  {
    if j.left.share.Some? {
      Reassociate(c, j.left.share.value, d);
    }
  }

  lemma Reassociate(a: real, b: real, e: real)
    requires e != 0.0
    ensures a * b / e == (a / e) * b
  {
  }

  /** When the parent rows hold one row per (parent, year), a parent row's
      clean R&D is shared out exactly among the subsidiaries joined with it. */
  lemma OldAllocationConservesUnique(subs: seq<SubExposure>, mains: seq<MainCompRnd>, x: MainCompRnd)
    requires x in mains
    requires forall i, j :: 0 <= i < j < |mains| ==> (mains[i].parent, mains[i].year) != (mains[j].parent, mains[j].year)
    requires GroupSum(JoinMains(subs, mains), YearKey, Some((x.parent, x.year)), JoinedShare) != 0.0
    ensures SumOf(Filter(ComputeOldSubRnd(subs, mains), InGroup((x.parent, x.year))), OldClean) == x.clean
  {
    var k := (x.parent, x.year);
    forall j | j in JoinMains(subs, mains) && YearKey(j) == Some(k) ensures j.right.value.clean == x.clean {
      SameKeySameRow(mains, x, j.right.value);
    }
    OldAllocationConserves(subs, mains, k, x.clean);
  }

  lemma SameKeySameRow(mains: seq<MainCompRnd>, x: MainCompRnd, b: MainCols)
    requires x in mains && b in MapSeq(mains, MainColsOf) && b.parent == x.parent && b.year == x.year
    requires forall i, j :: 0 <= i < j < |mains| ==> (mains[i].parent, mains[i].year) != (mains[j].parent, mains[j].year)
    ensures b.clean == x.clean
  {
    var cols := MapSeq(mains, MainColsOf);
    var i :| 0 <= i < |cols| && cols[i] == b;
    var i0 :| 0 <= i0 < |mains| && mains[i0] == x;
    assert cols[i] == MainColsOf(mains[i]);
    assert (mains[i].parent, mains[i].year) == (mains[i0].parent, mains[i0].year);
    assert i == i0;
  }
}

=== FILE: parent_rnd.dfy ===
/** Parent-level R&D of the newer pipeline (`compute_parent_rnd`). The parent
    exposure table is joined with the parent financial rows; the R&D years and
    the operating-revenue years are melted into one row per year; the two are
    joined on (parent, year); and the clean R&D of a row is its R&D times the
    parent's exposure. The tables of all methods are stacked and exact
    duplicate rows dropped. */
module ParentAllocation {
  import opened Missing
  import opened Tables
  import opened Schema
  import opened Financials
  import opened Exposure

  /** A parent exposure row joined with one financial row of the parent, or with none. */
  type FinJoined = Joined<ParentExposure, CleanFin>

  predicate OnParent(pe: ParentExposure, c: CleanFin) {
    pe.parent == c.row.id
  }

  /** `parent_rnd[parent_rnd['method'] == method]`. */
  function JoinedStrategyIs(m: Method): FinJoined -> bool {
    (j: FinJoined) => j.left.strategy == m
  }

  /** A cell of the joined table; an unmatched parent has no financial values. */
  function FinCell(j: FinJoined, l: string): Option<real> {
    if j.right.Some? then Cell(j.right.value.row.values, l) else None
  }

  /** `parent_conso`: missing for a parent without financial rows. */
  function ConsoOf(j: FinJoined): Option<string> {
    if j.right.Some? then Some(j.right.value.row.conso) else None
  }

  /** One row of the R&D melt: the parent's identity and exposure columns, the
      label and its year, and the R&D value. */
  datatype RndCell = RndCell(parent: Id, conso: Option<string>, maskedSum: real, rawSum: real,
                             exposure: Option<real>, column: string, year: int, rnd: Option<real>)

  /** One row of the operating-revenue melt; its only identity column is the parent. */
  datatype OprevCell = OprevCell(parent: Id, column: string, year: int, oprev: Option<real>)

  function RndCellOf(j: FinJoined, l: string): RndCell {
    RndCell(j.left.parent, ConsoOf(j), j.left.maskedSum, j.left.rawSum, j.left.exposure, l, LabelYear(l), FinCell(j, l))
  }

  function OprevCellOf(j: FinJoined, l: string): OprevCell {
    OprevCell(j.left.parent, l, LabelYear(l), FinCell(j, l))
  }

  /** The `merge` of the two melts `on=['bvd9', 'year']`. */
  predicate SameParentYear(c: RndCell, o: OprevCell) {
    c.parent == o.parent && c.year == o.year
  }

  /** A row of the parent R&D table. */
  datatype ParentRnd = ParentRnd(parent: Id, conso: Option<string>, maskedSum: real, rawSum: real,
                                 exposure: Option<real>, column: string, year: int, rnd: Option<real>,
                                 oprev: Option<real>, strategy: Method, clean: Option<real>)

  /** `parent_rnd_clean = parent_rnd * parent_exposure` and `method = str(method)`. */
  function ParentRndOf(m: Method, j: Joined<RndCell, OprevCell>): ParentRnd {
    var c := j.left;
    ParentRnd(c.parent, c.conso, c.maskedSum, c.rawSum, c.exposure, c.column, c.year, c.rnd,
              if j.right.Some? then j.right.value.oprev else None, m, Mul(c.rnd, c.exposure))
  }

  function ParentRndMaker(m: Method): Joined<RndCell, OprevCell> -> ParentRnd {
    (j: Joined<RndCell, OprevCell>) => ParentRndOf(m, j)
  }

  /** The parent exposure table joined with the financial rows (before the method loop). */
  function JoinFins(exposures: seq<ParentExposure>, fins: seq<CleanFin>): seq<FinJoined> {
    LeftJoin(exposures, fins, OnParent)
  }

  /** The body of the method loop: select the method's rows, melt both year
      ranges, join them on (parent, year) and compute the clean R&D. */
  function ParentRndForMethod(joined: seq<FinJoined>, years: Years, m: Method): (r: seq<ParentRnd>)
    requires AllYearLabels(years.rnd) && AllYearLabels(years.oprev)
    ensures forall x :: x in r ==> x.strategy == m
    ensures |r| >= |years.rnd| * |Filter(joined, JoinedStrategyIs(m))|
  {
    var rows := Filter(joined, JoinedStrategyIs(m));
    var rnd := Melt(rows, years.rnd, RndCellOf);
    var oprev := Melt(rows, years.oprev, OprevCellOf);
    MeltLength(rows, years.rnd, RndCellOf);
    MapSeq(LeftJoin(rnd, oprev, SameParentYear), ParentRndMaker(m))
  }

  /** Some joined row of method `m` for `parent` has a revenue label of `year`. */
  ghost predicate HasRevenueCell(joined: seq<FinJoined>, m: Method, labels: seq<string>, parent: Id, year: int)
    requires AllYearLabels(labels)
  {
    exists j, l :: j in joined && j.left.strategy == m && l in labels && j.left.parent == parent && YearOf(l) == year
  }

  /** `v` is the revenue cell of some joined row of method `m` for `parent` and `year`. */
  ghost predicate RevenueFrom(joined: seq<FinJoined>, m: Method, labels: seq<string>, parent: Id, year: int, v: Option<real>)
    requires AllYearLabels(labels)
  {
    exists j, l :: j in joined && j.left.strategy == m && l in labels && j.left.parent == parent && YearOf(l) == year && FinCell(j, l) == v
  }

  /** Every row of one method's table: clean R&D is R&D times exposure, and
      every value traces back to the exposure row, a financial row of the same
      parent and a configured year label. A row is left without a revenue
      match only when its parent has no revenue cell for that year. */
  lemma ParentRndRows(joined: seq<FinJoined>, years: Years, m: Method, x: ParentRnd)
    requires AllYearLabels(years.rnd) && AllYearLabels(years.oprev)
    requires x in ParentRndForMethod(joined, years, m)
    ensures x.strategy == m && x.clean == Mul(x.rnd, x.exposure)
    ensures x.column in years.rnd && x.year == YearOf(x.column)
    ensures exists j :: j in joined && j.left.strategy == m && RndCellOf(j, x.column) == RndPart(x)
    ensures x.oprev.Some? ==> RevenueFrom(joined, m, years.oprev, x.parent, x.year, x.oprev)
    ensures HasRevenueCell(joined, m, years.oprev, x.parent, x.year) ==> RevenueFrom(joined, m, years.oprev, x.parent, x.year, x.oprev)
  {
    var p := PairOf(joined, years, m, x);
    CleanIsProduct(m, p);
    RndSide(joined, m, years.rnd, p.left);
    if p.right.Some? {
      OprevSide(joined, m, years.oprev, p.right.value);
    } else if HasRevenueCell(joined, m, years.oprev, x.parent, x.year) {
      var j, l :| j in joined && j.left.strategy == m && l in years.oprev && j.left.parent == x.parent && YearOf(l) == x.year;
      var rows := Filter(joined, JoinedStrategyIs(m));
      assert j in rows;
      assert OprevCellOf(j, l) in Melt(rows, years.oprev, OprevCellOf);
      assert SameParentYear(p.left, OprevCellOf(j, l));
      assert false;
    }
  }

  /** The other direction of the (parent, year) merge: an R&D cell of the
      method meets every revenue cell of the same parent and year on some row
      of the table. */
  lemma ParentRndPairsRevenue(joined: seq<FinJoined>, years: Years, m: Method, j: FinJoined, l: string, j': FinJoined, l': string)
    requires AllYearLabels(years.rnd) && AllYearLabels(years.oprev)
    requires j in joined && j.left.strategy == m && l in years.rnd
    requires j' in joined && j'.left.strategy == m && l' in years.oprev
    requires j'.left.parent == j.left.parent && YearOf(l') == YearOf(l)
    ensures exists x :: x in ParentRndForMethod(joined, years, m) && RndPart(x) == RndCellOf(j, l) && x.oprev == FinCell(j', l')
  {
    var rows := Filter(joined, JoinedStrategyIs(m));
    var rnd := Melt(rows, years.rnd, RndCellOf);
    var oprev := Melt(rows, years.oprev, OprevCellOf);
    assert j in rows && j' in rows;
    var c := RndCellOf(j, l);
    var o := OprevCellOf(j', l');
    assert c in rnd && o in oprev && SameParentYear(c, o);
    var pairs := LeftJoin(rnd, oprev, SameParentYear);
    assert Joined(c, Some(o)) in pairs;
    MapSeqMembers(pairs, ParentRndMaker(m));
    assert ParentRndMaker(m)(Joined(c, Some(o))) in ParentRndForMethod(joined, years, m);
  }

  lemma CleanIsProduct(m: Method, p: Joined<RndCell, OprevCell>)
    ensures var x := ParentRndOf(m, p);
      && x.strategy == m
      && x.clean == Mul(x.rnd, x.exposure)
      && (x.oprev.Some? ==> p.right.Some? && x.oprev == p.right.value.oprev)
  {
  }

  /** The R&D melt columns of a parent R&D row. */
  function RndPart(x: ParentRnd): RndCell {
    RndCell(x.parent, x.conso, x.maskedSum, x.rawSum, x.exposure, x.column, x.year, x.rnd)
  }

  /** The joined melt row a parent R&D row was made from. */
  lemma PairOf(joined: seq<FinJoined>, years: Years, m: Method, x: ParentRnd) returns (p: Joined<RndCell, OprevCell>)
    requires AllYearLabels(years.rnd) && AllYearLabels(years.oprev)
    requires x in ParentRndForMethod(joined, years, m)
    ensures var rows := Filter(joined, JoinedStrategyIs(m));
      p in LeftJoin(Melt(rows, years.rnd, RndCellOf), Melt(rows, years.oprev, OprevCellOf), SameParentYear)
    ensures x == ParentRndOf(m, p) && RndPart(x) == p.left
    ensures p.right.Some? ==> SameParentYear(p.left, p.right.value)
  {
    var rows := Filter(joined, JoinedStrategyIs(m));
    var pairs := LeftJoin(Melt(rows, years.rnd, RndCellOf), Melt(rows, years.oprev, OprevCellOf), SameParentYear);
    var k :| 0 <= k < |pairs| && ParentRndOf(m, pairs[k]) == x;
    p := pairs[k];
  }

  lemma RndSide(joined: seq<FinJoined>, m: Method, labels: seq<string>, c: RndCell)
    requires AllYearLabels(labels)
    requires c in Melt(Filter(joined, JoinedStrategyIs(m)), labels, RndCellOf)
    ensures c.column in labels && c.year == YearOf(c.column)
    ensures exists j :: j in joined && j.left.strategy == m && RndCellOf(j, c.column) == c
  {
    var j, l :| j in Filter(joined, JoinedStrategyIs(m)) && l in labels && c == RndCellOf(j, l);
    assert JoinedStrategyIs(m)(j);
  }

  lemma OprevSide(joined: seq<FinJoined>, m: Method, labels: seq<string>, o: OprevCell)
    requires AllYearLabels(labels)
    requires o in Melt(Filter(joined, JoinedStrategyIs(m)), labels, OprevCellOf)
    ensures exists j, l :: j in joined && l in labels && j.left.parent == o.parent && YearOf(l) == o.year && FinCell(j, l) == o.oprev
  {
    var j, l :| j in Filter(joined, JoinedStrategyIs(m)) && l in labels && o == OprevCellOf(j, l);
  }

  /** Every (exposure row, financial row, R&D label) of a method gives a row of
      that method's table, with that year and the financial row's R&D value. */
  lemma ParentRndCovers(joined: seq<FinJoined>, years: Years, m: Method, j: FinJoined, l: string)
    requires AllYearLabels(years.rnd) && AllYearLabels(years.oprev)
    requires j in joined && j.left.strategy == m && l in years.rnd
    ensures exists x :: x in ParentRndForMethod(joined, years, m) && RndPart(x) == RndCellOf(j, l)
  {
    var rows := Filter(joined, JoinedStrategyIs(m));
    var rnd := Melt(rows, years.rnd, RndCellOf);
    var oprev := Melt(rows, years.oprev, OprevCellOf);
    assert j in rows;
    var c := RndCellOf(j, l);
    assert c in rnd;
    LeftJoinKeepsLeft(rnd, oprev, SameParentYear, c);
    var pairs := LeftJoin(rnd, oprev, SameParentYear);
    var p :| p in pairs && p.left == c;
    MapSeqMembers(pairs, ParentRndMaker(m));
    assert ParentRndMaker(m)(p) in ParentRndForMethod(joined, years, m);
  }

  /** With an exposure in [0, 1] and non-negative R&D, clean R&D lies between 0 and the R&D. */
  lemma CleanWithinRnd(x: ParentRnd)
    requires x.clean == Mul(x.rnd, x.exposure)
    requires x.exposure.Some? ==> 0.0 <= x.exposure.value <= 1.0
    requires x.rnd.Some? ==> x.rnd.value >= 0.0
    ensures x.clean.Some? ==> 0.0 <= x.clean.value <= x.rnd.value
  {
    if x.clean.Some? {
      var r, e := x.rnd.value, x.exposure.value;
      assert r * e <= r * 1.0;
    }
  }

  function ParentRndTables(joined: seq<FinJoined>, years: Years): Method -> seq<ParentRnd>
    requires AllYearLabels(years.rnd) && AllYearLabels(years.oprev)
  {
    (m: Method) => ParentRndForMethod(joined, years, m)
  }

  /** `compute_parent_rnd`: the tables of every method stacked, then exact
      duplicate rows dropped. */
  function ComputeParentRnd(exposures: seq<ParentExposure>, fins: seq<CleanFin>, years: Years, methods: seq<Method>): (r: seq<ParentRnd>)
    requires AllYearLabels(years.rnd) && AllYearLabels(years.oprev)
    ensures Distinct(r)
    ensures forall x :: x in r ==> x.strategy in methods && x in ParentRndForMethod(JoinFins(exposures, fins), years, x.strategy)
    ensures forall m, x :: m in methods && x in ParentRndForMethod(JoinFins(exposures, fins), years, m) ==> x in r
  {
    var joined := JoinFins(exposures, fins);
    var all := ConcatMap(methods, ParentRndTables(joined, years));
    var r := DropDuplicates(all);
    forall x | x in r ensures x.strategy in methods && x in ParentRndForMethod(joined, years, x.strategy) {
      var m :| m in methods && x in ParentRndTables(joined, years)(m);
    }
    forall m, x | m in methods && x in ParentRndForMethod(joined, years, m) ensures x in r {
      assert x in ParentRndTables(joined, years)(m);
    }
    r
  }
}

=== FILE: schema.dfy ===
/** Shared vocabulary of the pipeline: company identifiers, the three
    inclusion methods, financial rows with their year-labelled numeric
    columns, and the decoding of a year from a column label. */
module Schema {
  import opened Missing

  /** A BvD nine-character company identifier (`bvd9`, `sub_bvd9`, `guo_bvd9`). */
  type Id = string

  /** The three inclusion policies that resolve ownership overlap. */
  datatype Method = KeepAll | KeepComps | KeepSubs

  /** Free-text activity descriptions of a subsidiary; `None` is an empty cell. */
  datatype Desc = Desc(trade: Option<string>, products: Option<string>, overview: Option<string>)

  const NoDesc := Desc(None, None, None)

  /** One financial row as read from the input files: identifier,
      consolidation code, and numeric cells keyed by column label
      (`rnd_y19`, `operating_revenue_y18`, `rnd_mean`, ...). */
  datatype FinRow = FinRow(id: Id, conso: string, values: map<string, Option<real>>, desc: Desc)

  /** An ownership link between a parent company and one of its subsidiaries. */
  datatype Link = Link(parent: Id, sub: Id)

  /** The configured column labels: R&D years, operating-revenue years, and
      the revenue years used for the exposure turnover. */
  datatype Years = Years(rnd: seq<string>, oprev: seq<string>, exposure: seq<string>)

  /** A numeric cell; a label the row does not carry reads as missing. */
  function Cell(values: map<string, Option<real>>, col: string): Option<real> {
    if col in values then values[col] else None
  }

  /** The identifier of a financial row. */
  function RowId(r: FinRow): Id {
    r.id
  }

  /** The identity of a financial row for de-duplication: (`bvd9`, `conso`). */
  function FinKey(r: FinRow): (Id, string) {
    (r.id, r.conso)
  }

  predicate IsDigit(c: char) {
    '0' <= c <= '9'
  }

  function DigitValue(c: char): (d: int)
    requires IsDigit(c)
    ensures 0 <= d <= 9
  {
    c as int - '0' as int
  }

  /** A label the year decoding accepts: its last two characters are digits. */
  predicate YearLabel(l: string) {
    |l| >= 2 && IsDigit(l[|l| - 2]) && IsDigit(l[|l| - 1])
  }

  predicate AllYearLabels(ls: seq<string>) {
    forall l :: l in ls ==> YearLabel(l)
  }

  /** `int('20' + label[-2:])`: the calendar year a column label stands for. */
  function YearOf(l: string): (y: int)
    requires YearLabel(l)
    ensures 2000 <= y <= 2099
    ensures (y - 2000) / 10 == DigitValue(l[|l| - 2]) && (y - 2000) % 10 == DigitValue(l[|l| - 1])
  {
    2000 + 10 * DigitValue(l[|l| - 2]) + DigitValue(l[|l| - 1])
  }

  /** The year of a label, for labels whose year the pipeline decodes; every
      caller requires `AllYearLabels` of its labels, so the other labels never
      reach it. */
  function LabelYear(l: string): int {
    if YearLabel(l) then YearOf(l) else 0
  }

  /** Two labels denote the same year exactly when their last two characters agree. */
  lemma YearOfInjective(a: string, b: string)
    requires YearLabel(a) && YearLabel(b)
    ensures YearOf(a) == YearOf(b) <==> a[|a| - 2..] == b[|b| - 2..]
  {
    assert a[|a| - 2..] == [a[|a| - 2], a[|a| - 1]];
    assert b[|b| - 2..] == [b[|b| - 2], b[|b| - 1]];
  }
}

=== FILE: screening.dfy ===
/** Keyword screening of subsidiaries. A category matches a subsidiary when
    one of its keywords occurs, ignoring letter case, in the trade
    description, the products-and-services description or the full overview.
    The keyword mask holds when some category other than `generation` and
    `rnd` matches; only then does the subsidiary's turnover count as masked
    turnover. */
module Screening {
  import opened Missing
  import opened Tables
  import opened Schema
  import opened Text
  import opened Financials

  /** A keyword category and its keywords. */
  datatype Category = Category(name: string, keywords: seq<string>)

  /** A screened subsidiary: identifier, consolidation code, one flag per
      category, turnover, keyword mask and masked turnover. */
  datatype ScreenedSub = ScreenedSub(sub: Id, conso: string, flags: seq<bool>, turnover: real,
                                     keywordMask: bool, masked: Option<real>)

  /** `keyword` occurs in one of the three description fields. */
  predicate KeywordIn(d: Desc, keyword: string) {
    ContainsNoCase(d.trade, keyword) || ContainsNoCase(d.products, keyword) || ContainsNoCase(d.overview, keyword)
  }

  /** The match of one keyword as the `|` chain of the source evaluates it.
      `str.contains` gives a missing value on a missing cell, and pandas'
      `|` turns a missing value into false only in its right operand; a
      missing left operand makes the result false. So a missing trade
      description makes `trade | products` false whatever the products
      description says, and only the overview can still match. */
  predicate KeywordInAsWritten(d: Desc, keyword: string) {
    (d.trade.Some? && (ContainsNoCase(d.trade, keyword) || ContainsNoCase(d.products, keyword)))
      || ContainsNoCase(d.overview, keyword)
  }

  /** The intended rule: a keyword found in any one description matches,
      whichever of the other descriptions are missing. */
  lemma MatchInAnyCell(d: Desc, keyword: string)
    ensures ContainsNoCase(d.trade, keyword) ==> KeywordIn(d, keyword)
    ensures ContainsNoCase(d.products, keyword) ==> KeywordIn(d, keyword)
    ensures ContainsNoCase(d.overview, keyword) ==> KeywordIn(d, keyword)
    ensures KeywordIn(d, keyword) ==>
      ContainsNoCase(d.trade, keyword) || ContainsNoCase(d.products, keyword) || ContainsNoCase(d.overview, keyword)
  {
  }

  /** The rule as written agrees with the intended one when the trade
      description is present; without it, only the overview counts. It never
      matches where the intended rule does not. */
  lemma AsWrittenAgreesWithTrade(d: Desc, keyword: string)
    ensures KeywordInAsWritten(d, keyword) ==> KeywordIn(d, keyword)
    ensures d.trade.Some? ==> (KeywordInAsWritten(d, keyword) <==> KeywordIn(d, keyword))
    ensures d.trade.None? ==> (KeywordInAsWritten(d, keyword) <==> ContainsNoCase(d.overview, keyword))
  {
  }

  /** A subsidiary described only by its products: the intended rule finds
      the keyword, the rule as written does not. */
  lemma MissingTradeCounterexample()
    ensures var d := Desc(None, Some("Solar Panels"), None);
      KeywordIn(d, "solar panel") && !KeywordInAsWritten(d, "solar panel")
  {
    SolarPanelExample();
  }

  /** The flag of one category: `flag |= ...` over its keywords, in order. */
  function CategoryMatches(d: Desc, keywords: seq<string>): (b: bool)
    ensures b <==> exists k :: k in keywords && KeywordIn(d, k)
    decreases |keywords|
  {
    if |keywords| == 0 then false
    else
      var n := |keywords| - 1;
      var before := CategoryMatches(d, keywords[..n]);
      assert forall k :: k in keywords <==> k in keywords[..n] || k == keywords[n];
      before || KeywordIn(d, keywords[n])
  }

  /** The category flags of one description, one per category in order. */
  function CategoryFlags(d: Desc, cats: seq<Category>): (flags: seq<bool>)
    ensures |flags| == |cats|
    ensures forall i :: 0 <= i < |cats| ==> (flags[i] <==> exists k :: k in cats[i].keywords && KeywordIn(d, k))
  {
    seq(|cats|, i requires 0 <= i < |cats| => CategoryMatches(d, cats[i].keywords))
  }

  /** Categories that take part in the keyword mask. */
  predicate InMask(name: string) {
    name != "generation" && name != "rnd"
  }

  /** `bool(sum of the flags of the mask categories)`. */
  function KeywordMask(cats: seq<Category>, flags: seq<bool>): (b: bool)
    requires |flags| == |cats|
    ensures b <==> exists i :: 0 <= i < |cats| && InMask(cats[i].name) && flags[i]
    decreases |cats|
  {
    if |cats| == 0 then false
    else
      var rest := KeywordMask(cats[1..], flags[1..]);
      assert forall i :: 1 <= i < |cats| ==> cats[1..][i - 1] == cats[i] && flags[1..][i - 1] == flags[i];
      (InMask(cats[0].name) && flags[0]) || rest
  }

  /** `turnover.mask(~keyword_mask)`. */
  function MaskTurnover(turnover: real, mask: bool): (m: Option<real>)
    ensures m.Some? <==> mask
    ensures m.Some? ==> m.value == turnover
  {
    if mask then Some(turnover) else None
  }

  /** The screening of one description against the categories, stated without the computation. */
  ghost predicate ScreensAs(s: ScreenedSub, d: Desc, turnover: real, cats: seq<Category>) {
    && |s.flags| == |cats|
    && (forall i :: 0 <= i < |cats| ==> (s.flags[i] <==> exists k :: k in cats[i].keywords && KeywordIn(d, k)))
    && s.turnover == turnover
    && (s.keywordMask <==> exists i, k :: 0 <= i < |cats| && InMask(cats[i].name) && k in cats[i].keywords && KeywordIn(d, k))
    && (s.masked.Some? <==> s.keywordMask)
    && (s.masked.Some? ==> s.masked.value == turnover)
  }

  /** The screening of one financial row; the turnover is the missing-skipping sum of `labels`. */
  function ScreenRow(r: FinRow, cats: seq<Category>, labels: seq<string>): (s: ScreenedSub)
    ensures s.sub == r.id && s.conso == r.conso
    ensures ScreensAs(s, r.desc, RowSum(r, labels), cats)
  {
    var flags := CategoryFlags(r.desc, cats);
    var mask := KeywordMask(cats, flags);
    var turnover := RowSum(r, labels);
    ScreenedSub(r.id, r.conso, flags, turnover, mask, MaskTurnover(turnover, mask))
  }

  /** `s` is the screening of the subsidiary financial row `c`. */
  ghost predicate ScreensFin(s: ScreenedSub, c: CleanFin, labels: seq<string>, cats: seq<Category>) {
    s.sub == c.row.id && s.conso == c.row.conso && ScreensAs(s, c.row.desc, RowSum(c.row, labels), cats)
  }

  /** The categories of the newer pipeline: the configured category names,
      each with its configured keywords. */
  function ConfiguredCategories(names: seq<string>, keywords: map<string, seq<string>>): (cats: seq<Category>)
    requires forall n :: n in names ==> n in keywords
    ensures |cats| == |names|
    ensures forall i :: 0 <= i < |names| ==> cats[i] == Category(names[i], keywords[names[i]])
  {
    seq(|names|, i requires 0 <= i < |names| => Category(names[i], keywords[names[i]]))
  }

  /** `screen_sub_fins_for_keywords`: screen every subsidiary financial row,
      the turnover summing the exposure revenue years, then drop exact
      duplicate rows. */
  function ScreenSubFinsForKeywords(fins: seq<CleanFin>, names: seq<string>, keywords: map<string, seq<string>>,
                                    years: Years): (r: seq<ScreenedSub>)
    requires forall n :: n in names ==> n in keywords
    ensures Distinct(r)
    ensures forall s :: s in r ==> exists c :: c in fins && ScreensFin(s, c, years.exposure, ConfiguredCategories(names, keywords))
    ensures forall c :: c in fins ==> exists s :: s in r && s.sub == c.row.id && s.conso == c.row.conso
  {
    var cats := ConfiguredCategories(names, keywords);
    var screened := MapSeq(fins, (c: CleanFin) => ScreenRow(c.row, cats, years.exposure));
    var r := DropDuplicates(screened);
    forall s | s in r ensures exists c :: c in fins && ScreensFin(s, c, years.exposure, cats) {
      var i :| 0 <= i < |screened| && screened[i] == s;
      assert fins[i] in fins;
    }
    forall c | c in fins ensures exists s :: s in r && s.sub == c.row.id && s.conso == c.row.conso {
      var i :| 0 <= i < |fins| && fins[i] == c;
      assert screened[i] in screened;
    }
    r
  }

  /** The revenue years of the older pipeline's turnover: 2010 to 2019. */
  const OldTurnoverLabels: seq<string> := [
    "operating_revenue_y10", "operating_revenue_y11", "operating_revenue_y12", "operating_revenue_y13",
    "operating_revenue_y14", "operating_revenue_y15", "operating_revenue_y16", "operating_revenue_y17",
    "operating_revenue_y18", "operating_revenue_y19"]

  /** `screen_subs` (older pipeline): the categories are the keyword map's
      entries in order; every subsidiary row is screened and none is dropped. */
  function ScreenSubs(subsFin: seq<FinRow>, cats: seq<Category>): (r: seq<ScreenedSub>)
    ensures |r| == |subsFin|
    ensures forall i :: 0 <= i < |subsFin| ==>
      (r[i].sub == subsFin[i].id && ScreensAs(r[i], subsFin[i].desc, RowSum(subsFin[i], OldTurnoverLabels), cats))
  {
    MapSeq(subsFin, (x: FinRow) => ScreenRow(x, cats, OldTurnoverLabels))
  }

  /** Masked turnover never exceeds the turnover and is missing exactly off the mask. */
  lemma MaskedBelowTurnover(s: ScreenedSub, d: Desc, turnover: real, cats: seq<Category>)
    requires ScreensAs(s, d, turnover, cats)
    ensures Val(s.masked) == (if s.keywordMask then s.turnover else 0.0)
  {
  }

  /** A row flagged only in `generation` or `rnd` stays out of the mask and
      has no masked turnover, whatever its turnover. */
  lemma GenerationOnlyIsUnmasked(r: FinRow, cats: seq<Category>, labels: seq<string>)
    requires forall i :: 0 <= i < |cats| && InMask(cats[i].name) ==> !ScreenRow(r, cats, labels).flags[i]
    ensures !ScreenRow(r, cats, labels).keywordMask
    ensures ScreenRow(r, cats, labels).masked.None?
  {
  }
}

=== FILE: selection.dfy ===
/** Selection of the top R&D performers: companies are ranked by their mean
    R&D figure and the smallest number of leading companies whose means add
    up to a share (`rnd_limit`, 0.99 in the older pipeline) of the total is
    kept. */
module Selection {
  import opened Missing
  import opened Tables
  import opened Schema
  import opened Financials

  // ---------------------------------------------------------------------------
  // Ranking

  /** `a` ranks at or above `b` in a descending order that puts missing values last. */
  predicate Above(a: Option<real>, b: Option<real>) {
    b.None? || (a.Some? && a.value >= b.value)
  }

  ghost predicate SortedDesc<T>(s: seq<T>, mean: T -> Option<real>) {
    forall i, j :: 0 <= i < j < |s| ==> Above(mean(s[i]), mean(s[j]))
  }

  /** Insertion of `x` in front of the first row it ranks at or above. */
  function Insert<T>(x: T, s: seq<T>, mean: T -> Option<real>): seq<T>
    decreases |s|
  {
    if |s| == 0 then [x]
    else if Above(mean(x), mean(s[0])) then [x] + s
    else [s[0]] + Insert(x, s[1..], mean)
  }

  lemma {:induction false} InsertFacts<T>(x: T, s: seq<T>, mean: T -> Option<real>)
    requires SortedDesc(s, mean)
    ensures SortedDesc(Insert(x, s, mean), mean)
    ensures multiset(Insert(x, s, mean)) == multiset(s) + multiset{x}
    ensures SumOf(Insert(x, s, mean), mean) == Val(mean(x)) + SumOf(s, mean)
  {
    InsertMultiset(x, s, mean);
    InsertSum(x, s, mean);
    InsertSorted(x, s, mean);
  }

  lemma {:induction false} InsertMultiset<T>(x: T, s: seq<T>, mean: T -> Option<real>)
    ensures multiset(Insert(x, s, mean)) == multiset(s) + multiset{x}
    decreases |s|
  {
    if |s| > 0 && !Above(mean(x), mean(s[0])) {
      InsertMultiset(x, s[1..], mean);
      assert s == [s[0]] + s[1..];
    }
  }

  lemma {:induction false} InsertSum<T>(x: T, s: seq<T>, mean: T -> Option<real>)
    ensures SumOf(Insert(x, s, mean), mean) == Val(mean(x)) + SumOf(s, mean)
    decreases |s|
  {
    if |s| == 0 {
      assert [x][1..] == [];
    } else if Above(mean(x), mean(s[0])) {
      assert ([x] + s)[1..] == s;
    } else {
      InsertSum(x, s[1..], mean);
      assert ([s[0]] + Insert(x, s[1..], mean))[1..] == Insert(x, s[1..], mean);
    }
  }

  lemma AboveTrans(a: Option<real>, b: Option<real>, c: Option<real>)
    requires Above(a, b) && Above(b, c)
    ensures Above(a, c)
  {
  }

  lemma {:induction false} InsertSorted<T>(x: T, s: seq<T>, mean: T -> Option<real>)
    requires SortedDesc(s, mean)
    ensures SortedDesc(Insert(x, s, mean), mean)
    decreases |s|
  {
    if |s| == 0 {
    } else if Above(mean(x), mean(s[0])) {
      var r := [x] + s;
      forall i, j | 0 <= i < j < |r| ensures Above(mean(r[i]), mean(r[j])) {
        assert r[j] == s[j - 1];
        if i > 0 {
          assert r[i] == s[i - 1];
        } else if j > 1 {
          AboveTrans(mean(x), mean(s[0]), mean(s[j - 1]));
        }
      }
    } else {
      var tail := Insert(x, s[1..], mean);
      assert SortedDesc(s[1..], mean) by {
        forall i, j | 0 <= i < j < |s[1..]| ensures Above(mean(s[1..][i]), mean(s[1..][j])) {
          assert s[1..][i] == s[i + 1] && s[1..][j] == s[j + 1];
        }
      }
      InsertSorted(x, s[1..], mean);
      InsertMultiset(x, s[1..], mean);
      forall k | 0 <= k < |tail| ensures Above(mean(s[0]), mean(tail[k])) {
        assert tail[k] in multiset(tail);
        if tail[k] != x {
          assert tail[k] in multiset(s[1..]);
          var m :| 0 <= m < |s[1..]| && s[1..][m] == tail[k];
          assert s[m + 1] == tail[k];
        }
      }
      var r := [s[0]] + tail;
      forall i, j | 0 <= i < j < |r| ensures Above(mean(r[i]), mean(r[j])) {
        assert r[j] == tail[j - 1];
        if i > 0 {
          assert r[i] == tail[i - 1];
        }
      }
    }
  }

  /** Rows in descending order of `mean`, missing values last (insertion sort). */
  function SortDesc<T>(s: seq<T>, mean: T -> Option<real>): (r: seq<T>)
    ensures SortedDesc(r, mean)
    ensures multiset(r) == multiset(s)
    ensures SumOf(r, mean) == SumOf(s, mean)
    decreases |s|
  {
    if |s| == 0 then []
    else
      var rest := SortDesc(s[1..], mean);
      SortStep(s, rest, mean);
      Insert(s[0], rest, mean)
  }

  /** Inserting the head into the sorted tail sorts the whole sequence. */
  lemma SortStep<T>(s: seq<T>, rest: seq<T>, mean: T -> Option<real>)
    requires |s| > 0 && SortedDesc(rest, mean)
    requires multiset(rest) == multiset(s[1..]) && SumOf(rest, mean) == SumOf(s[1..], mean)
    ensures SortedDesc(Insert(s[0], rest, mean), mean)
    ensures multiset(Insert(s[0], rest, mean)) == multiset(s)
    ensures SumOf(Insert(s[0], rest, mean), mean) == SumOf(s, mean)
  {
    InsertFacts(s[0], rest, mean);
    assert s == [s[0]] + s[1..];
  }

  /** The rows `nlargest` may return: those with a value. */
  function Defined<T>(mean: T -> Option<real>): T -> bool {
    x => mean(x).Some?
  }

  /** The rows with a value, largest first. */
  function Ranked<T>(rows: seq<T>, mean: T -> Option<real>): (r: seq<T>)
    ensures SortedDesc(r, mean)
    ensures forall x :: x in r ==> x in rows && mean(x).Some?
    ensures forall x :: x in rows && mean(x).Some? ==> x in r
    ensures multiset(r) == multiset(Filter(rows, Defined(mean)))
    ensures SumOf(r, mean) == SumOf(rows, mean)
  {
    RankedFacts(rows, mean);
    SortDesc(Filter(rows, Defined(mean)), mean)
  }

  lemma RankedFacts<T>(rows: seq<T>, mean: T -> Option<real>)
    ensures var r := SortDesc(Filter(rows, Defined(mean)), mean);
      && (forall x :: x in r ==> x in rows && mean(x).Some?)
      && (forall x :: x in rows && mean(x).Some? ==> x in r)
      && SumOf(r, mean) == SumOf(rows, mean)
  {
    var p := Defined(mean);
    var defined := Filter(rows, p);
    assert forall x :: p(x) == mean(x).Some?;
    SumOfFilter(rows, p, mean, mean);
    SameElements(SortDesc(defined, mean), defined);
  }

  lemma SameElements<T>(a: seq<T>, b: seq<T>)
    requires multiset(a) == multiset(b)
    ensures forall x :: x in a ==> x in b
    ensures forall x :: x in b ==> x in a
  {
    assert forall x :: x in a <==> x in multiset(a);
    assert forall x :: x in b <==> x in multiset(b);
  }

  // ---------------------------------------------------------------------------
  // The cut-off loop

  /** The cut-off the loop compares against: the share `limit` of the total of all means. */
  function Target<T>(rows: seq<T>, mean: T -> Option<real>, limit: real): real {
    limit * SumOf(rows, mean)
  }

  /** Some number of leading rows reaches `target`. */
  ghost predicate Reaches<T>(rows: seq<T>, mean: T -> Option<real>, target: real) {
    exists k :: 0 <= k <= |Ranked(rows, mean)| && SumOf(Ranked(rows, mean)[..k], mean) >= target
  }

  /** `while start < target: count += 1; start = nlargest(count).sum()`, continued from `count`. */
  function CountFrom<T>(ranked: seq<T>, mean: T -> Option<real>, target: real, count: nat): (c: nat)
    requires count <= |ranked|
    requires exists k :: count <= k <= |ranked| && SumOf(ranked[..k], mean) >= target
    ensures count <= c <= |ranked|
    ensures SumOf(ranked[..c], mean) >= target
    ensures forall k :: count <= k < c ==> SumOf(ranked[..k], mean) < target
    decreases |ranked| - count
  {
    if SumOf(ranked[..count], mean) < target then CountFrom(ranked, mean, target, count + 1) else count
  }

  /** The number of leading rows the loop settles on. The loop only stops when
      some number of leading rows reaches the target. */
  function TopCount<T>(rows: seq<T>, mean: T -> Option<real>, target: real): (count: nat)
    requires Reaches(rows, mean, target)
    ensures count <= |Ranked(rows, mean)|
    ensures SumOf(Ranked(rows, mean)[..count], mean) >= target
    ensures forall k :: 0 <= k < count ==> SumOf(Ranked(rows, mean)[..k], mean) < target
  {
    CountFrom(Ranked(rows, mean), mean, target, 0)
  }

  /** Every row of `rows` with a value ranking strictly above some row of `sel` is in `sel`. */
  ghost predicate TakesAllAbove<T>(sel: seq<T>, rows: seq<T>, mean: T -> Option<real>) {
    forall x, y :: x in sel && y in rows && mean(y).Some? && !Above(mean(x), mean(y)) ==> y in sel
  }

  /** `nlargest(count, 'rnd_mean')` once the loop has stopped: the fewest leading
      rows whose means reach the target, with every row ranking strictly above
      a selected one also selected. */
  function SelectTop<T>(rows: seq<T>, mean: T -> Option<real>, target: real): (sel: seq<T>)
    requires Reaches(rows, mean, target)
    ensures forall x :: x in sel ==> x in rows && mean(x).Some?
    ensures multiset(sel) <= multiset(rows)
    ensures SortedDesc(sel, mean)
    ensures SumOf(sel, mean) >= target
    ensures forall k :: 0 <= k < |sel| ==> SumOf(sel[..k], mean) < target
    ensures TakesAllAbove(sel, rows, mean)
  {
    var ranked := Ranked(rows, mean);
    var count := TopCount(rows, mean, target);
    var sel := ranked[..count];
    assert forall k :: 0 <= k < |sel| ==> sel[..k] == ranked[..k];
    PrefixTakesAllAbove(ranked, rows, mean, count);
    PrefixWithin(ranked, rows, mean, count);
    sel
  }

  /** A leading part of the ranking holds no row more often than the table does. */
  lemma PrefixWithin<T>(ranked: seq<T>, rows: seq<T>, mean: T -> Option<real>, count: nat)
    requires count <= |ranked| && ranked == Ranked(rows, mean)
    ensures multiset(ranked[..count]) <= multiset(rows)
  {
    assert ranked == ranked[..count] + ranked[count..];
    forall x ensures multiset(ranked[..count])[x] <= multiset(rows)[x] {
      assert multiset(ranked)[x] == multiset(ranked[..count])[x] + multiset(ranked[count..])[x];
      FilterMultiplicity(rows, Defined(mean), x);
    }
  }

  /** A leading part of a ranking of the rows with a value takes every row ranking above one of its rows. */
  lemma PrefixTakesAllAbove<T>(ranked: seq<T>, rows: seq<T>, mean: T -> Option<real>, count: nat)
    requires SortedDesc(ranked, mean) && count <= |ranked|
    requires forall y :: y in rows && mean(y).Some? ==> y in ranked
    ensures TakesAllAbove(ranked[..count], rows, mean)
  {
    var sel := ranked[..count];
    forall x, y | x in sel && y in rows && mean(y).Some? && !Above(mean(x), mean(y)) ensures y in sel {
      var i :| 0 <= i < |sel| && sel[i] == x;
      var j :| 0 <= j < |ranked| && ranked[j] == y;
      assert sel[i] == ranked[i];
      RanksBelow(ranked, mean, i, j);
      assert ranked[j] == sel[j];
    }
  }

  /** In a descending ranking a row that does not rank at or above another comes after it. */
  lemma RanksBelow<T>(ranked: seq<T>, mean: T -> Option<real>, i: nat, j: nat)
    requires SortedDesc(ranked, mean) && i < |ranked| && j < |ranked|
    requires !Above(mean(ranked[i]), mean(ranked[j]))
    ensures j < i
  {
    if i <= j {
      assert false;
    }
  }

  /** With non-negative means and a share of at most 1 the loop always stops. */
  lemma NonNegativeReaches<T>(rows: seq<T>, mean: T -> Option<real>, limit: real)
    requires limit <= 1.0
    requires forall x :: x in rows && mean(x).Some? ==> mean(x).value >= 0.0
    ensures Reaches(rows, mean, Target(rows, mean, limit))
  {
    SumOfNonNeg(rows, mean);
    ShareBelowTotal(limit, SumOf(rows, mean));
    assert Target(rows, mean, limit) <= SumOf(rows, mean);
    ReachesAll(rows, mean, Target(rows, mean, limit));
  }

  /** The whole ranking reaches any target up to the total. */
  lemma ReachesAll<T>(rows: seq<T>, mean: T -> Option<real>, target: real)
    requires target <= SumOf(rows, mean)
    ensures Reaches(rows, mean, target)
  {
    var ranked := Ranked(rows, mean);
    assert ranked[..|ranked|] == ranked;
  }

  lemma ShareBelowTotal(limit: real, total: real)
    requires limit <= 1.0 && total >= 0.0
    ensures limit * total <= total
  {
    assert (1.0 - limit) * total >= 0.0;
  }

  // ---------------------------------------------------------------------------
  // Newer pipeline

  /** The `rnd_mean` column of a parent financial row. */
  function RndMeanCol(c: CleanFin): Option<real> {
    Cell(c.row.values, "rnd_mean")
  }

  function CleanFinId(c: CleanFin): Id {
    c.row.id
  }

  /** `select_parent_ids_with_rnd` as written: the de-duplication on `bvd9` is
      computed and discarded, so only exact duplicates are removed. */
  function SelectParentIdsWithRndAsWritten(fins: seq<CleanFin>, limit: real): (r: seq<CleanFin>)
    requires Reaches(fins, RndMeanCol, Target(fins, RndMeanCol, limit))
    ensures Distinct(r)
    ensures forall c :: c in r ==> c in SelectTop(fins, RndMeanCol, Target(fins, RndMeanCol, limit))
    ensures forall c :: c in SelectTop(fins, RndMeanCol, Target(fins, RndMeanCol, limit)) ==> c in r
  {
    DropDuplicates(SelectTop(fins, RndMeanCol, Target(fins, RndMeanCol, limit)))
  }

  /** `select_parent_ids_with_rnd` as evidently intended: one row per `bvd9`,
      the first of the selection. */
  function SelectParentIdsWithRnd(fins: seq<CleanFin>, limit: real): (r: seq<CleanFin>)
    requires Reaches(fins, RndMeanCol, Target(fins, RndMeanCol, limit))
    ensures UniqueKeys(r, CleanFinId)
    ensures forall c :: c in r ==> c in SelectTop(fins, RndMeanCol, Target(fins, RndMeanCol, limit))
    ensures forall c :: c in SelectTop(fins, RndMeanCol, Target(fins, RndMeanCol, limit)) ==> exists d :: d in r && d.row.id == c.row.id
    ensures IsDedupOf(r, SelectTop(fins, RndMeanCol, Target(fins, RndMeanCol, limit)), CleanFinId)
  {
    var top := SelectTop(fins, RndMeanCol, Target(fins, RndMeanCol, limit));
    var r := DedupBy(top, CleanFinId);
    forall c | c in top ensures exists d :: d in r && d.row.id == c.row.id {
      var i :| 0 <= i < |top| && top[i] == c;
      assert CleanFinId(top[i]) in KeySet(top, CleanFinId);
      assert CleanFinId(c) in KeySet(r, CleanFinId);
      var j :| 0 <= j < |r| && CleanFinId(r[j]) == CleanFinId(c);
      assert r[j] in r;
    }
    r
  }

  /** Two rows of one company with different consolidation codes and equal means. */
  const DupC1 := CleanFin(FinRow("P", "C1", map["rnd_mean" := Some(10.0)], NoDesc), 0.0, 0.0)
  const DupU1 := CleanFin(FinRow("P", "U1", map["rnd_mean" := Some(10.0)], NoDesc), 0.0, 0.0)

  /** Both rows are needed to reach 99% of the total. */
  lemma DuplicateTop()
    ensures Target([DupC1, DupU1], RndMeanCol, 0.99) == 19.8
    ensures Reaches([DupC1, DupU1], RndMeanCol, 19.8)
    ensures SelectTop([DupC1, DupU1], RndMeanCol, 19.8) == [DupC1, DupU1]
  {
    var a, b := DupC1, DupU1;
    var rows := [a, b];
    assert RndMeanCol(a) == Some(10.0) && RndMeanCol(b) == Some(10.0);
    assert Filter(rows, Defined(RndMeanCol)) == rows;
    assert SortDesc(rows[1..], RndMeanCol) == [b];
    assert Ranked(rows, RndMeanCol) == [a, b];
    assert SumOf(rows, RndMeanCol) == 20.0;
    assert [a, b][..0] == [] && [a, b][..1] == [a] && [a, b][..2] == [a, b];
    assert SumOf([a], RndMeanCol) == 10.0;
    NonNegativeReaches(rows, RndMeanCol, 0.99);
    var count := TopCount(rows, RndMeanCol, 19.8);
    assert count == 2;
  }

  /** The two rows are both selected as written, and only the first is with
      the intended de-duplication. */
  lemma DuplicateParentCounterexample()
    ensures Reaches([DupC1, DupU1], RndMeanCol, Target([DupC1, DupU1], RndMeanCol, 0.99))
    ensures SelectParentIdsWithRndAsWritten([DupC1, DupU1], 0.99) == [DupC1, DupU1]
    ensures SelectParentIdsWithRnd([DupC1, DupU1], 0.99) == [DupC1]
  {
    var rows := [DupC1, DupU1];
    DuplicateTop();
    assert Distinct(rows);
    assert rows[..1] == [DupC1];
    assert CleanFinId(DupU1) in KeySet(rows[..1], CleanFinId);
    assert DedupBy(rows[..1], CleanFinId) == [DupC1];
  }

  // ---------------------------------------------------------------------------
  // Older pipeline

  /** `rnd_mean`: the missing-skipping mean of a listed company's R&D figures. */
  function RndMean(labels: seq<string>): FinRow -> Option<real> {
    (r: FinRow) => MeanOf(labels, (l: string) => Cell(r.values, l))
  }

  /** The cut-off of every region: the share `limit` of that region's total. */
  function RegionTargets<T>(regions: seq<seq<T>>, mean: T -> Option<real>, limit: real): (ts: seq<real>)
    ensures |ts| == |regions|
    ensures forall i :: 0 <= i < |regions| ==> ts[i] == Target(regions[i], mean, limit)
  {
    seq(|regions|, i requires 0 <= i < |regions| => Target(regions[i], mean, limit))
  }

  /** The selection of every region against its own target. */
  ghost function RegionTops<T>(regions: seq<seq<T>>, mean: T -> Option<real>, targets: seq<real>): (tops: seq<seq<T>>)
    requires |targets| == |regions|
    requires forall i :: 0 <= i < |regions| ==> Reaches(regions[i], mean, targets[i])
    ensures |tops| == |regions|
    ensures forall i :: 0 <= i < |regions| ==> tops[i] == SelectTop(regions[i], mean, targets[i])
  {
    seq(|regions|, i requires 0 <= i < |regions| => SelectTop(regions[i], mean, targets[i]))
  }

  /** The regional selections stacked in region order (`main_comp.append`),
      then the first row per company. */
  method StackRegions(regions: seq<seq<FinRow>>, mean: FinRow -> Option<real>, targets: seq<real>) returns (main: seq<FinRow>)
    requires |targets| == |regions|
    requires forall i :: 0 <= i < |regions| ==> Reaches(regions[i], mean, targets[i])
    ensures UniqueKeys(main, RowId)
    ensures forall x :: x in main ==> mean(x).Some? && exists i :: 0 <= i < |regions| && x in regions[i]
    ensures forall x :: x in main ==> exists i :: 0 <= i < |regions| && x in SelectTop(regions[i], mean, targets[i])
    ensures KeepsEverySelected(RegionTops(regions, mean, targets), main)
    ensures IsDedupOf(main, Concat(RegionTops(regions, mean, targets)), RowId)
  {
    var stacked := StackTops(regions, mean, targets);
    main := DedupBy(stacked, RowId);
    StackedFrom(regions, mean, targets, main);
    StackedCovers(RegionTops(regions, mean, targets), main);
  }

  /** The regional selections stacked in region order (`main_comp.append`). */
  method StackTops(regions: seq<seq<FinRow>>, mean: FinRow -> Option<real>, targets: seq<real>) returns (stacked: seq<FinRow>)
    requires |targets| == |regions|
    requires forall i :: 0 <= i < |regions| ==> Reaches(regions[i], mean, targets[i])
    ensures stacked == Concat(RegionTops(regions, mean, targets))
  {
    ghost var tops := RegionTops(regions, mean, targets);
    stacked := [];
    var i := 0;
    while i < |regions|
      invariant 0 <= i <= |regions|
      invariant stacked == Concat(tops[..i])
    {
      var top := SelectTop(regions[i], mean, targets[i]);
      ConcatStep(tops, i);
      stacked := stacked + top;
      i := i + 1;
    }
    assert tops[..|regions|] == tops;
  }

  /** Every kept row has a mean and comes from one of the regions. */
  lemma StackedFrom(regions: seq<seq<FinRow>>, mean: FinRow -> Option<real>, targets: seq<real>, main: seq<FinRow>)
    requires |targets| == |regions|
    requires forall i :: 0 <= i < |regions| ==> Reaches(regions[i], mean, targets[i])
    requires main == DedupBy(Concat(RegionTops(regions, mean, targets)), RowId)
    ensures forall x :: x in main ==> mean(x).Some? && exists i :: 0 <= i < |regions| && x in regions[i]
    ensures forall x :: x in main ==> exists i :: 0 <= i < |regions| && x in SelectTop(regions[i], mean, targets[i])
  {
    var tops := RegionTops(regions, mean, targets);
    forall x | x in main ensures mean(x).Some? && exists k :: 0 <= k < |regions| && x in regions[k] && x in SelectTop(regions[k], mean, targets[k]) {
      var k :| 0 <= k < |tops| && x in tops[k];
      assert x in SelectTop(regions[k], mean, targets[k]);
    }
  }

  /** Every company of every regional selection has a row in `main`. */
  ghost predicate KeepsEverySelected(tops: seq<seq<FinRow>>, main: seq<FinRow>) {
    forall k, x :: 0 <= k < |tops| && x in tops[k] ==> exists y :: y in main && y.id == x.id
  }

  /** Every company some region selects keeps a row. */
  lemma StackedCovers(tops: seq<seq<FinRow>>, main: seq<FinRow>)
    requires main == DedupBy(Concat(tops), RowId)
    ensures KeepsEverySelected(tops, main)
  {
    forall k, x | 0 <= k < |tops| && x in tops[k] ensures exists y :: y in main && y.id == x.id {
      DedupKeepsKey(Concat(tops), RowId, x);
    }
  }

  /** `select_main` (older pipeline): in each region keep the top performers
      by `rnd_mean` reaching the share `limit` of the regional total, stack the
      regions, then keep the first row per company. */
  method SelectMain(regions: seq<seq<FinRow>>, labels: seq<string>, limit: real) returns (main: seq<FinRow>)
    requires forall i :: 0 <= i < |regions| ==> Reaches(regions[i], RndMean(labels), RegionTargets(regions, RndMean(labels), limit)[i])
    ensures UniqueKeys(main, RowId)
    ensures forall x :: x in main ==> RndMean(labels)(x).Some? && exists i :: 0 <= i < |regions| && x in regions[i]
    ensures var targets := RegionTargets(regions, RndMean(labels), limit);
      forall x :: x in main ==> exists i :: 0 <= i < |regions| && x in SelectTop(regions[i], RndMean(labels), targets[i])
    ensures KeepsEverySelected(RegionTops(regions, RndMean(labels), RegionTargets(regions, RndMean(labels), limit)), main)
    ensures IsDedupOf(main, Concat(RegionTops(regions, RndMean(labels), RegionTargets(regions, RndMean(labels), limit))), RowId)
  {
    main := StackRegions(regions, RndMean(labels), RegionTargets(regions, RndMean(labels), limit));
  }
}

=== FILE: sub_rnd.dfy ===
/** Subsidiary-level R&D of the newer pipeline (`compute_sub_rnd`). For each
    method, every subsidiary exposure row is joined on the parent with that
    parent's R&D rows (one per year), and receives the parent's clean R&D
    times its share over the parent's exposure. The tables of all methods are
    stacked and exact duplicate rows dropped. */
module SubAllocation {
  import opened Missing
  import opened Tables
  import opened Schema
  import opened Exposure
  import opened ParentAllocation

  /** The columns of a parent R&D row carried into the join:
      `bvd9`, `parent_rnd`, `year` and `parent_rnd_clean`. */
  datatype RndCols = RndCols(parent: Id, rnd: Option<real>, year: int, clean: Option<real>)

  function RndColsOf(x: ParentRnd): RndCols {
    RndCols(x.parent, x.rnd, x.year, x.clean)
  }

  /** A subsidiary exposure row, the parent R&D columns it was joined with (none
      for a parent without R&D rows), the method and `sub_rnd_clean`. */
  datatype SubRnd = SubRnd(exposure: SubExposure, parentRnd: Option<RndCols>, strategy: Method, clean: Option<real>)

  /** The merge `left_on='bvd9', right_on='bvd9'`. */
  predicate OnParentRnd(x: SubExposure, c: RndCols) {
    ParentOf(x.row) == c.parent
  }

  /** `sub_exposure[sub_exposure['method'] == method]`. */
  function SubStrategyIs(m: Method): SubExposure -> bool {
    (x: SubExposure) => x.parent.strategy == m
  }

  /** `parent_rnd[parent_rnd['method'] == method]`. */
  function RndStrategyIs(m: Method): ParentRnd -> bool {
    (x: ParentRnd) => x.strategy == m
  }

  /** The parent R&D columns of method `m`, in table order. */
  function RndColumns(prnd: seq<ParentRnd>, m: Method): seq<RndCols> {
    MapSeq(Filter(prnd, RndStrategyIs(m)), RndColsOf)
  }

  /** `sub_rnd_clean = parent_rnd_clean * sub_exposure / parent_exposure`;
      missing for a subsidiary whose parent has no R&D row. */
  function Allocate(x: SubExposure, c: Option<RndCols>): (r: Option<real>)
    ensures r.Some? <==> c.Some? && c.value.clean.Some? && x.share.Some? && x.parent.exposure.Some? && x.parent.exposure.value != 0.0
    ensures r.Some? ==> r.value * x.parent.exposure.value == c.value.clean.value * x.share.value
  {
    if c.Some? then Div(Mul(c.value.clean, x.share), x.parent.exposure) else None
  }

  function SubRndOf(m: Method, j: Joined<SubExposure, RndCols>): SubRnd {
    SubRnd(j.left, j.right, m, Allocate(j.left, j.right))
  }

  function SubRndMaker(m: Method): Joined<SubExposure, RndCols> -> SubRnd {
    (j: Joined<SubExposure, RndCols>) => SubRndOf(m, j)
  }

  /** The joined rows of method `m`. */
  function JoinRnd(subs: seq<SubExposure>, prnd: seq<ParentRnd>, m: Method): seq<Joined<SubExposure, RndCols>> {
    LeftJoin(Filter(subs, SubStrategyIs(m)), RndColumns(prnd, m), OnParentRnd)
  }

  /** The body of the method loop. */
  function SubRndForMethod(subs: seq<SubExposure>, prnd: seq<ParentRnd>, m: Method): (r: seq<SubRnd>)
    ensures |r| >= |Filter(subs, SubStrategyIs(m))|
    ensures forall y :: y in r ==>
      && y.strategy == m && y.exposure in subs && y.exposure.parent.strategy == m
      && y.clean == Allocate(y.exposure, y.parentRnd)
  {
    MapSeqMembers(JoinRnd(subs, prnd, m), SubRndMaker(m));
    MapSeq(JoinRnd(subs, prnd, m), SubRndMaker(m))
  }

  /** Every row of one method's table: a subsidiary exposure row of the method,
      joined with an R&D row of the same parent and method when the parent has
      one, and its clean R&D is the parent's clean R&D times the share over the
      parent's exposure. */
  lemma SubRndRows(subs: seq<SubExposure>, prnd: seq<ParentRnd>, m: Method, y: SubRnd)
    requires y in SubRndForMethod(subs, prnd, m)
    ensures y.strategy == m && y.exposure in subs && y.exposure.parent.strategy == m
    ensures y.clean == Allocate(y.exposure, y.parentRnd)
    ensures y.parentRnd.Some? ==>
      OnParentRnd(y.exposure, y.parentRnd.value) && exists x :: x in prnd && x.strategy == m && RndColsOf(x) == y.parentRnd.value
    ensures y.parentRnd.None? ==> forall x :: x in prnd && x.strategy == m ==> x.parent != ParentOf(y.exposure.row)
  {
    var joined := JoinRnd(subs, prnd, m);
    var cols := RndColumns(prnd, m);
    var k :| 0 <= k < |joined| && SubRndOf(m, joined[k]) == y;
    var j := joined[k];
    assert j in joined;
    MapSeqMembers(Filter(prnd, RndStrategyIs(m)), RndColsOf);
    if y.parentRnd.None? {
      forall x | x in prnd && x.strategy == m ensures x.parent != ParentOf(y.exposure.row) {
        assert x in Filter(prnd, RndStrategyIs(m));
        assert RndColsOf(x) in cols;
      }
    }
  }

  /** Every subsidiary exposure row of the method and every R&D row of its
      parent in that method give a row of the method's table. */
  lemma SubRndCovers(subs: seq<SubExposure>, prnd: seq<ParentRnd>, m: Method, s: SubExposure, x: ParentRnd)
    requires s in subs && s.parent.strategy == m
    requires x in prnd && x.strategy == m && x.parent == ParentOf(s.row)
    ensures SubRnd(s, Some(RndColsOf(x)), m, Allocate(s, Some(RndColsOf(x)))) in SubRndForMethod(subs, prnd, m)
  {
    var kept := Filter(subs, SubStrategyIs(m));
    var cols := RndColumns(prnd, m);
    assert s in kept;
    assert RndColsOf(x) in cols by {
      assert x in Filter(prnd, RndStrategyIs(m));
      MapSeqMembers(Filter(prnd, RndStrategyIs(m)), RndColsOf);
    }
    var j := Joined(s, Some(RndColsOf(x)));
    assert j in LeftJoin(kept, cols, OnParentRnd) by {
      assert OnParentRnd(s, RndColsOf(x));
    }
    MapSeqMembers(JoinRnd(subs, prnd, m), SubRndMaker(m));
    assert SubRndMaker(m)(j) in SubRndForMethod(subs, prnd, m);
  }

  // ---------------------------------------------------------------------------
  // Conservation

  /** The clean R&D of the rows allocated from the parent R&D columns `c`. */
  function AllocatedFrom(c: RndCols): SubRnd -> Option<real> {
    (y: SubRnd) => if y.parentRnd == Some(c) then y.clean else None
  }

  function JoinedFrom(c: RndCols): Joined<SubExposure, RndCols> -> Option<real> {
    (j: Joined<SubExposure, RndCols>) => if j.right == Some(c) then Allocate(j.left, j.right) else None
  }

  /** The allocation of `c` to a matching subsidiary row. */
  function MatchAllocation(x: SubExposure, c: RndCols): RndCols -> Option<real> {
    (b: RndCols) => if b == c then Allocate(x, Some(b)) else None
  }

  /** The allocation of `c` to one subsidiary row, missing for another parent's row. */
  function SubAllocation(c: RndCols): SubExposure -> Option<real> {
    (x: SubExposure) => if ParentOf(x.row) == c.parent then Allocate(x, Some(c)) else None
  }

  /** The subsidiaries of a parent share out its clean R&D of one year
      exactly: the clean R&D allocated from one parent R&D row adds up to that
      row's clean R&D, provided the parent's exposure is defined and non-zero
      and the method's parent R&D columns hold no repeated row. */
  lemma AllocationConservesCleanRnd(subs: seq<SubExposure>, rows: seq<SubRow>, prnd: seq<ParentRnd>, m: Method, c: RndCols)
    requires Filter(subs, SubStrategyIs(m)) == SubExposures(rows, m)
    requires Distinct(RndColumns(prnd, m)) && c in RndColumns(prnd, m)
    requires ParentGroup(rows, c.parent, m).exposure.Some? && ParentGroup(rows, c.parent, m).exposure.value != 0.0
    ensures SumOf(SubRndForMethod(subs, prnd, m), AllocatedFrom(c)) == Val(c.clean)
  {
    AllocationThroughJoin(subs, prnd, m, c);
    SharesScaleAllocation(rows, m, c, ParentGroup(rows, c.parent, m).exposure.value);
  }

  /** The clean R&D allocated from `c` over the method's table is its
      allocation summed over the method's subsidiary exposure rows. */
  lemma AllocationThroughJoin(subs: seq<SubExposure>, prnd: seq<ParentRnd>, m: Method, c: RndCols)
    requires Distinct(RndColumns(prnd, m)) && c in RndColumns(prnd, m)
    ensures SumOf(SubRndForMethod(subs, prnd, m), AllocatedFrom(c)) == SumOf(Filter(subs, SubStrategyIs(m)), SubAllocation(c))
  {
    var kept := Filter(subs, SubStrategyIs(m));
    var cols := RndColumns(prnd, m);
    SumOfMap(JoinRnd(subs, prnd, m), SubRndMaker(m), AllocatedFrom(c), JoinedFrom(c));
    forall x | x in kept ensures Val(SubAllocation(c)(x)) == SumOf(JoinOne(x, cols, OnParentRnd), JoinedFrom(c)) {
      JoinOneFrom(x, cols, c);
    }
    SumOverJoin(kept, cols, OnParentRnd, JoinedFrom(c), SubAllocation(c));
  }

  /** What one subsidiary row receives from `c` over all its joined rows. */
  lemma JoinOneFrom(x: SubExposure, cols: seq<RndCols>, c: RndCols)
    requires Distinct(cols) && c in cols
    ensures Val(SubAllocation(c)(x)) == SumOf(JoinOne(x, cols, OnParentRnd), JoinedFrom(c))
  {
    SumOverJoinOne(x, cols, OnParentRnd, JoinedFrom(c), MatchAllocation(x, c));
    var ms := Matches(x, cols, OnParentRnd);
    FilterDistinct(cols, MatchesOn(x, OnParentRnd));
    SumOfOnlyRow(ms, MatchAllocation(x, c), c);
    assert c in ms <==> ParentOf(x.row) == c.parent by {
      assert MatchesOn(x, OnParentRnd)(c) <==> ParentOf(x.row) == c.parent;
    }
  }

  /** Over the rows of one method, the allocations of `c` are the parent's
      clean R&D over its exposure times the shares, which add up to the exposure. */
  lemma SharesScaleAllocation(rows: seq<SubRow>, m: Method, c: RndCols, e: real)
    requires ParentGroup(rows, c.parent, m).exposure == Some(e) && e != 0.0
    ensures SumOf(SubExposures(rows, m), SubAllocation(c)) == Val(c.clean)
  {
    var subs := SubExposures(rows, m);
    forall x | x in subs && ParentOf(x.row) == c.parent ensures x.parent.exposure == Some(e) {
      assert x.parent == ParentGroup(rows, c.parent, m);
    }
    SumOfFilter(subs, SubOfParent(c.parent), ShareOf, ShareOfParent(c.parent));
    SharesSumToExposure(rows, m, c.parent);
    ScaledShares(subs, c, e);
  }

  /** When the shares of a parent's rows add up to its exposure `e`, the
      allocations of `c` to them add up to the clean R&D of `c`. */
  lemma ScaledShares(subs: seq<SubExposure>, c: RndCols, e: real)
    requires e != 0.0
    requires forall x :: x in subs && ParentOf(x.row) == c.parent ==> x.parent.exposure == Some(e)
    requires SumOf(subs, ShareOfParent(c.parent)) == e
    ensures SumOf(subs, SubAllocation(c)) == Val(c.clean)
  {
    RowsScaled(subs, c, e, Val(c.clean) / e);
    SumOfShares(subs, ShareOfParent(c.parent), SubAllocation(c), Val(c.clean), e);
  }

  lemma RowsScaled(subs: seq<SubExposure>, c: RndCols, e: real, k: real)
    requires e != 0.0 && k == Val(c.clean) / e
    requires forall x :: x in subs && ParentOf(x.row) == c.parent ==> x.parent.exposure == Some(e)
    ensures ScaledBy(subs, ShareOfParent(c.parent), SubAllocation(c), k)
  {
    forall x | x in subs ensures Val(SubAllocation(c)(x)) == k * Val(ShareOfParent(c.parent)(x)) {
      if ParentOf(x.row) == c.parent {
        AllocateScaled(x, c, e);
      }
    }
  }

  /** Under a defined, non-zero exposure `e`, a row receives the parent's clean R&D over `e` times its share. */
  lemma AllocateScaled(x: SubExposure, c: RndCols, e: real)
    requires x.parent.exposure == Some(e) && e != 0.0
    ensures Val(Allocate(x, Some(c))) == (Val(c.clean) / e) * Val(x.share)
  {
    if c.clean.Some? && x.share.Some? {
      Reassociate(c.clean.value, x.share.value, e);
    }
  }

  lemma Reassociate(a: real, b: real, e: real)
    requires e != 0.0
    ensures a * b / e == (a / e) * b
  {
  }

  /** A parent whose exposure is missing or zero passes nothing on to its subsidiaries. */
  lemma NothingFromUnexposedParent(subs: seq<SubExposure>, rows: seq<SubRow>, prnd: seq<ParentRnd>, m: Method, y: SubRnd)
    requires Filter(subs, SubStrategyIs(m)) == SubExposures(rows, m)
    requires y in SubRndForMethod(subs, prnd, m)
    requires ParentGroup(rows, ParentOf(y.exposure.row), m).exposure.None? || ParentGroup(rows, ParentOf(y.exposure.row), m).exposure == Some(0.0)
    ensures y.clean.None?
  {
    SubRndRows(subs, prnd, m, y);
    assert y.exposure in Filter(subs, SubStrategyIs(m));
  }

  // ---------------------------------------------------------------------------
  // All methods

  function SubRndTables(subs: seq<SubExposure>, prnd: seq<ParentRnd>): Method -> seq<SubRnd> {
    (m: Method) => SubRndForMethod(subs, prnd, m)
  }

  /** `compute_sub_rnd`: the tables of every method stacked, then exact
      duplicate rows dropped. */
  function ComputeSubRnd(subs: seq<SubExposure>, prnd: seq<ParentRnd>, methods: seq<Method>): (r: seq<SubRnd>)
    ensures Distinct(r)
    ensures forall y :: y in r ==> y.strategy in methods && y in SubRndForMethod(subs, prnd, y.strategy)
    ensures forall m, y :: m in methods && y in SubRndForMethod(subs, prnd, m) ==> y in r
  {
    var all := ConcatMap(methods, SubRndTables(subs, prnd));
    var r := DropDuplicates(all);
    forall y | y in r ensures y.strategy in methods && y in SubRndForMethod(subs, prnd, y.strategy) {
      var m :| m in methods && y in SubRndTables(subs, prnd)(m);
      SubRndRows(subs, prnd, m, y);
    }
    forall m, y | m in methods && y in SubRndForMethod(subs, prnd, m) ensures y in r {
      assert y in SubRndTables(subs, prnd)(m);
    }
    r
  }
}

=== FILE: tables.dfy ===
/** Relational building blocks over tables held as sequences of rows:
    filtering, projection, first-occurrence de-duplication (pandas
    `drop_duplicates(keep='first')`), left joins (pandas `merge(how='left')`)
    and group sums (pandas `groupby(...).sum()`), with the lemmas that relate
    sums over them. */
module Tables {
  import opened Missing

  // ---------------------------------------------------------------------------
  // Filtering and projection

  /** The rows of `s` satisfying `p`, in their original order. */
  function Filter<T>(s: seq<T>, p: T -> bool): (r: seq<T>)
    ensures |r| <= |s|
    ensures forall x :: x in r ==> x in s && p(x)
    ensures forall x :: x in s && p(x) ==> x in r
    decreases |s|
  {
    if |s| == 0 then [] else (if p(s[0]) then [s[0]] else []) + Filter(s[1..], p)
  }

  /** Number of rows of `s` satisfying `p`. */
  function Count<T>(s: seq<T>, p: T -> bool): nat {
    |Filter(s, p)|
  }

  function MapSeq<A, B>(s: seq<A>, f: A -> B): seq<B> {
    seq(|s|, i requires 0 <= i < |s| => f(s[i]))
  }

  /** Mapping keeps every row's image and makes nothing else. */
  lemma MapSeqMembers<A, B>(s: seq<A>, f: A -> B)
    ensures forall x :: x in s ==> f(x) in MapSeq(s, f)
    ensures forall y :: y in MapSeq(s, f) ==> exists x :: x in s && y == f(x)
  {
    var r := MapSeq(s, f);
    forall x | x in s ensures f(x) in r {
      var i :| 0 <= i < |s| && s[i] == x;
      assert r[i] == f(x);
    }
    forall y | y in r ensures exists x :: x in s && y == f(x) {
      var i :| 0 <= i < |r| && r[i] == y;
      assert s[i] in s;
    }
  }

  lemma {:induction false} FilterAppend<T>(a: seq<T>, b: seq<T>, p: T -> bool)
    ensures Filter(a + b, p) == Filter(a, p) + Filter(b, p)
    decreases |a|
  {
    if |a| == 0 {
      assert a + b == b;
    } else {
      assert (a + b)[0] == a[0];
      assert (a + b)[1..] == a[1..] + b;
      FilterAppend(a[1..], b, p);
    }
  }

  /** Filtering keeps every copy of a passing row and no copy of any other. */
  lemma {:induction false} FilterMultiplicity<T>(s: seq<T>, p: T -> bool, x: T)
    ensures multiset(Filter(s, p))[x] == if p(x) then multiset(s)[x] else 0
    decreases |s|
  {
    if |s| > 0 {
      FilterMultiplicity(s[1..], p, x);
      assert s == [s[0]] + s[1..];
    }
  }

  /** `r` is `s` with some rows left out: the rest in their original order. */
  ghost predicate SubsequenceOf<T>(r: seq<T>, s: seq<T>)
    decreases |s|
  {
    |r| == 0 || (|s| > 0 && ((r[0] == s[0] && SubsequenceOf(r[1..], s[1..])) || SubsequenceOf(r, s[1..])))
  }

  /** Filtering keeps the passing rows in their original order. */
  lemma {:induction false} FilterIsSubsequence<T>(s: seq<T>, p: T -> bool)
    ensures SubsequenceOf(Filter(s, p), s)
    decreases |s|
  {
    if |s| > 0 {
      FilterIsSubsequence(s[1..], p);
      var r := Filter(s, p);
      if p(s[0]) {
        assert r[0] == s[0] && r[1..] == Filter(s[1..], p);
      } else {
        assert r == Filter(s[1..], p);
      }
    }
  }

  /** A subsequence of a subsequence of `c` is a subsequence of `c`. */
  lemma {:induction false} SubsequenceTrans<T>(a: seq<T>, b: seq<T>, c: seq<T>)
    requires SubsequenceOf(a, b) && SubsequenceOf(b, c)
    ensures SubsequenceOf(a, c)
    decreases |c|
  {
    if |a| > 0 {
      if SubsequenceOf(b, c[1..]) {
        SubsequenceTrans(a, b, c[1..]);
      } else if a[0] == b[0] && SubsequenceOf(a[1..], b[1..]) {
        SubsequenceTrans(a[1..], b[1..], c[1..]);
      } else {
        SubsequenceTrans(a, b[1..], c[1..]);
      }
    }
  }

  /** Filters that agree on every row of `s` keep the same rows. */
  lemma {:induction false} FilterSame<T>(s: seq<T>, p: T -> bool, q: T -> bool)
    requires forall x :: x in s ==> p(x) == q(x)
    ensures Filter(s, p) == Filter(s, q)
    decreases |s|
  {
    if |s| > 0 {
      assert s[0] in s;
      assert forall x :: x in s[1..] ==> x in s;
      FilterSame(s[1..], p, q);
    }
  }

  /** Filtering keeps keys unique. */
  lemma {:induction false} FilterUnique<T, K>(s: seq<T>, p: T -> bool, key: T -> K)
    requires forall i, j :: 0 <= i < j < |s| ==> key(s[i]) != key(s[j])
    ensures forall i, j :: 0 <= i < j < |Filter(s, p)| ==> key(Filter(s, p)[i]) != key(Filter(s, p)[j])
    decreases |s|
  {
    if |s| > 0 {
      assert forall i, j :: 0 <= i < j < |s[1..]| ==> s[1..][i] == s[i + 1] && s[1..][j] == s[j + 1];
      FilterUnique(s[1..], p, key);
      var rest := Filter(s[1..], p);
      if p(s[0]) {
        forall x | x in rest ensures key(x) != key(s[0]) {
          var k :| 0 <= k < |s[1..]| && s[1..][k] == x;
          assert s[k + 1] == x;
        }
        var f := Filter(s, p);
        assert f == [s[0]] + rest;
        forall i, j | 0 <= i < j < |f| ensures key(f[i]) != key(f[j]) {
          assert f[j] == rest[j - 1];
          if i > 0 {
            assert f[i] == rest[i - 1];
          } else {
            assert rest[j - 1] in rest;
          }
        }
      }
    }
  }

  /** When keys are distinct, a filter that only passes rows with key `k` passes at most one row. */
  lemma {:induction false} FilterSingleKey<T, K>(s: seq<T>, p: T -> bool, key: T -> K, k: K)
    requires forall i, j :: 0 <= i < j < |s| ==> key(s[i]) != key(s[j])
    requires forall x :: x in s && p(x) ==> key(x) == k
    ensures |Filter(s, p)| <= 1
    decreases |s|
  {
    if |s| > 0 {
      var t := s[1..];
      assert forall i :: 0 <= i < |t| ==> t[i] == s[i + 1];
      if p(s[0]) {
        forall x | x in t ensures !p(x) {
          var i :| 0 <= i < |t| && t[i] == x;
          assert key(s[0]) != key(s[i + 1]);
        }
        FilterNone(t, p);
      } else {
        FilterSingleKey(t, p, key, k);
      }
    }
  }

  lemma {:induction false} CountMono<T>(s: seq<T>, p: T -> bool, q: T -> bool)
    requires forall x :: x in s && p(x) ==> q(x)
    ensures Count(s, p) <= Count(s, q)
    decreases |s|
  {
    if |s| > 0 {
      assert forall x :: x in s[1..] ==> x in s;
      CountMono(s[1..], p, q);
      assert s[0] in s;
    }
  }

  /** Summing over the rows a filter keeps is summing the column masked by the filter. */
  lemma {:induction false} SumOfFilter<T>(s: seq<T>, p: T -> bool, f: T -> Option<real>, g: T -> Option<real>)
    requires forall x :: x in s ==> Val(g(x)) == (if p(x) then Val(f(x)) else 0.0)
    ensures SumOf(Filter(s, p), f) == SumOf(s, g)
    decreases |s|
  {
    if |s| > 0 {
      assert s[0] in s;
      assert forall x :: x in s[1..] ==> x in s;
      SumOfFilter(s[1..], p, f, g);
      var head := if p(s[0]) then [s[0]] else [];
      assert Filter(s, p) == head + Filter(s[1..], p);
      SumOfAppend(head, Filter(s[1..], p), f);
      if p(s[0]) {
        assert head[1..] == [];
      }
    }
  }

  /** Summing a column of a projected table is summing the composed column. */
  lemma {:induction false} SumOfMap<A, B>(s: seq<A>, mk: A -> B, h: B -> Option<real>, g: A -> Option<real>)
    requires forall x :: x in s ==> Val(h(mk(x))) == Val(g(x))
    ensures SumOf(MapSeq(s, mk), h) == SumOf(s, g)
    decreases |s|
  {
    if |s| > 0 {
      assert s[0] in s;
      assert forall x :: x in s[1..] ==> x in s;
      assert MapSeq(s, mk)[1..] == MapSeq(s[1..], mk);
      SumOfMap(s[1..], mk, h, g);
    }
  }

  // ---------------------------------------------------------------------------
  // First-occurrence de-duplication

  function KeySet<T, K(==)>(s: seq<T>, key: T -> K): set<K> {
    set i | 0 <= i < |s| :: key(s[i])
  }

  /** No two rows of `r` share a key. */
  ghost predicate UniqueKeys<T, K>(r: seq<T>, key: T -> K) {
    forall i, j :: 0 <= i < j < |r| ==> key(r[i]) != key(r[j])
  }

  /** No value occurs twice in `ks`. */
  ghost predicate Distinct<K>(ks: seq<K>) {
    forall i, j :: 0 <= i < j < |ks| ==> ks[i] != ks[j]
  }

  /** Position of the first row of `s` whose key is `k`. */
  function First<T, K(==)>(s: seq<T>, key: T -> K, k: K): (i: nat)
    requires k in KeySet(s, key)
    ensures i < |s| && key(s[i]) == k
    ensures forall j :: 0 <= j < i ==> key(s[j]) != k
    decreases |s|
  {
    var n := |s| - 1;
    if k in KeySet(s[..n], key) then First(s[..n], key, k) else n
  }

  lemma FirstOfPrefix<T, K>(s: seq<T>, n: nat, key: T -> K, k: K)
    requires n <= |s| && k in KeySet(s[..n], key)
    ensures k in KeySet(s, key) && First(s, key, k) == First(s[..n], key, k)
  {
    var i := First(s[..n], key, k);
    assert s[..n][i] == s[i];
    assert forall j :: 0 <= j < i ==> s[..n][j] == s[j];
  }

  /** The first row with key `k` is the one at a position where `k` occurs and not before. */
  lemma FirstAt<T, K>(s: seq<T>, key: T -> K, k: K, i: nat)
    requires i < |s| && key(s[i]) == k
    requires forall j :: 0 <= j < i ==> key(s[j]) != k
    ensures k in KeySet(s, key) && First(s, key, k) == i
  {
    var f := First(s, key, k);
    assert !(f < i) && !(i < f);
  }

  /** Filtering out rows that never carry key `k` does not change which row comes first with `k`. */
  lemma {:induction false} FirstThroughFilter<T, K>(s: seq<T>, p: T -> bool, key: T -> K, k: K)
    requires k in KeySet(s, key)
    requires forall x :: x in s && key(x) == k ==> p(x)
    ensures k in KeySet(Filter(s, p), key)
    ensures Filter(s, p)[First(Filter(s, p), key, k)] == s[First(s, key, k)]
    decreases |s|
  {
    assert s[0] in s;
    if key(s[0]) == k {
      FirstAt(s, key, k, 0);
      FilterHead(s, p);
      FirstAt(Filter(s, p), key, k, 0);
    } else {
      var i := First(s, key, k);
      assert forall j :: 0 <= j < i - 1 ==> s[1..][j] == s[j + 1];
      FirstAt(s[1..], key, k, i - 1);
      assert forall x :: x in s[1..] ==> x in s;
      FirstThroughFilter(s[1..], p, key, k);
      FirstPastHead(s, p, key, k);
    }
  }

  lemma FilterHead<T>(s: seq<T>, p: T -> bool)
    requires |s| > 0 && p(s[0])
    ensures |Filter(s, p)| > 0 && Filter(s, p)[0] == s[0]
  {
  }

  /** When the head of `s` does not carry `k`, the first row with `k` in the filtered table is the one of the filtered tail. */
  lemma FirstPastHead<T, K>(s: seq<T>, p: T -> bool, key: T -> K, k: K)
    requires |s| > 0 && key(s[0]) != k
    requires k in KeySet(Filter(s[1..], p), key)
    ensures k in KeySet(Filter(s, p), key)
    ensures Filter(s, p)[First(Filter(s, p), key, k)] == Filter(s[1..], p)[First(Filter(s[1..], p), key, k)]
  {
    var rest := Filter(s[1..], p);
    var f := Filter(s, p);
    var g := First(rest, key, k);
    if p(s[0]) {
      assert f == [s[0]] + rest;
      forall j | 0 <= j < g + 1 ensures key(f[j]) != k {
        if j > 0 {
          assert f[j] == rest[j - 1];
        }
      }
      assert f[g + 1] == rest[g];
      FirstAt(f, key, k, g + 1);
    } else {
      assert f == rest;
    }
  }

  /** `r` is what first-occurrence de-duplication of `s` on `key` yields: rows
      of `s`, one per key of `s`, each the first row of `s` with its key, in
      the order of those first rows. */
  ghost predicate IsDedupOf<T, K>(r: seq<T>, s: seq<T>, key: T -> K) {
    && (forall x :: x in r ==> x in s)
    && KeySet(r, key) == KeySet(s, key)
    && UniqueKeys(r, key)
    && (forall j :: 0 <= j < |r| ==> key(r[j]) in KeySet(s, key) && r[j] == s[First(s, key, key(r[j]))])
    && (forall i, j :: 0 <= i < j < |r| ==> First(s, key, key(r[i])) < First(s, key, key(r[j])))
  }

  /** pandas `drop_duplicates(subset=key, keep='first')`. */
  function DedupBy<T, K(==)>(s: seq<T>, key: T -> K): (r: seq<T>)
    ensures |r| <= |s|
    ensures IsDedupOf(r, s, key)
    decreases |s|
  {
    if |s| == 0 then []
    else
      var n := |s| - 1;
      var d := DedupBy(s[..n], key);
      if key(s[n]) in KeySet(s[..n], key) then
        DedupStepSeen(s, key, d);
        d
      else
        DedupStepNew(s, key, d);
        d + [s[n]]
  }

  lemma PrefixFacts<T, K>(s: seq<T>, key: T -> K)
    requires |s| > 0
    ensures var n := |s| - 1;
      && (forall x :: x in s[..n] ==> x in s)
      && KeySet(s, key) == KeySet(s[..n], key) + {key(s[n])}
      && (forall k :: k in KeySet(s[..n], key) ==> k in KeySet(s, key) && First(s, key, k) == First(s[..n], key, k))
  {
    var n := |s| - 1;
    assert forall x :: x in s[..n] ==> x in s;
    PrefixKeySet(s, key);
    forall k | k in KeySet(s[..n], key)
      ensures k in KeySet(s, key) && First(s, key, k) == First(s[..n], key, k)
    {
      FirstOfPrefix(s, n, key, k);
    }
  }

  lemma PrefixKeySet<T, K>(s: seq<T>, key: T -> K)
    requires |s| > 0
    ensures KeySet(s, key) == KeySet(s[..|s| - 1], key) + {key(s[|s| - 1])}
  {
    var n := |s| - 1;
    forall k | k in KeySet(s, key) ensures k in KeySet(s[..n], key) + {key(s[n])} {
      var i :| 0 <= i < |s| && key(s[i]) == k;
      if i < n {
        assert s[..n][i] == s[i];
      }
    }
    forall k | k in KeySet(s[..n], key) ensures k in KeySet(s, key) {
      var i :| 0 <= i < n && key(s[..n][i]) == k;
      assert s[..n][i] == s[i];
    }
    assert key(s[n]) in KeySet(s, key);
  }

  lemma DedupStepSeen<T, K>(s: seq<T>, key: T -> K, d: seq<T>)
    requires |s| > 0 && key(s[|s| - 1]) in KeySet(s[..|s| - 1], key)
    requires IsDedupOf(d, s[..|s| - 1], key)
    ensures IsDedupOf(d, s, key)
  {
    var n := |s| - 1;
    PrefixFacts(s, key);
    forall j | 0 <= j < |d| ensures d[j] == s[First(s, key, key(d[j]))] {
      assert d[j] == s[..n][First(s[..n], key, key(d[j]))];
    }
  }

  lemma DedupStepNew<T, K>(s: seq<T>, key: T -> K, d: seq<T>)
    requires |s| > 0 && key(s[|s| - 1]) !in KeySet(s[..|s| - 1], key)
    requires IsDedupOf(d, s[..|s| - 1], key)
    ensures IsDedupOf(d + [s[|s| - 1]], s, key)
  {
    var n := |s| - 1;
    PrefixFacts(s, key);
    AppendKeySet(d, s[n], key);
    AppendUnique(d, s[n], key);
    DedupNewFirst(s, key, d);
  }

  lemma AppendKeySet<T, K>(d: seq<T>, x: T, key: T -> K)
    ensures KeySet(d + [x], key) == KeySet(d, key) + {key(x)}
  {
    var r := d + [x];
    forall k | k in KeySet(r, key) ensures k in KeySet(d, key) + {key(x)} {
      var j :| 0 <= j < |r| && key(r[j]) == k;
      if j < |d| {
        assert r[j] == d[j];
      }
    }
    forall k | k in KeySet(d, key) ensures k in KeySet(r, key) {
      var j :| 0 <= j < |d| && key(d[j]) == k;
      assert r[j] == d[j];
    }
    assert r[|d|] == x;
  }

  lemma AppendUnique<T, K>(d: seq<T>, x: T, key: T -> K)
    requires UniqueKeys(d, key) && key(x) !in KeySet(d, key)
    ensures UniqueKeys(d + [x], key)
  {
    var r := d + [x];
    forall i, j | 0 <= i < j < |r| ensures key(r[i]) != key(r[j]) {
      assert r[i] == d[i];
      if j < |d| {
        assert r[j] == d[j];
      } else {
        assert key(d[i]) in KeySet(d, key);
      }
    }
  }

  /** The first-position facts of a de-duplication survive appending a row with a new key. */
  lemma DedupNewFirst<T, K>(s: seq<T>, key: T -> K, d: seq<T>)
    requires |s| > 0 && key(s[|s| - 1]) !in KeySet(s[..|s| - 1], key)
    requires forall j :: 0 <= j < |d| ==> key(d[j]) in KeySet(s[..|s| - 1], key) && d[j] == s[..|s| - 1][First(s[..|s| - 1], key, key(d[j]))]
    requires forall i, j :: 0 <= i < j < |d| ==> First(s[..|s| - 1], key, key(d[i])) < First(s[..|s| - 1], key, key(d[j]))
    ensures var r := d + [s[|s| - 1]];
      && (forall j :: 0 <= j < |r| ==> key(r[j]) in KeySet(s, key) && r[j] == s[First(s, key, key(r[j]))])
      && (forall i, j :: 0 <= i < j < |r| ==> First(s, key, key(r[i])) < First(s, key, key(r[j])))
  {
    var n := |s| - 1;
    var r := d + [s[n]];
    FirstAt(s, key, key(s[n]), n) by {
      forall j | 0 <= j < n ensures key(s[j]) != key(s[n]) {
        assert s[..n][j] == s[j];
      }
    }
    forall j | 0 <= j < |d| ensures key(d[j]) in KeySet(s, key) && First(s, key, key(d[j])) == First(s[..n], key, key(d[j])) {
      FirstOfPrefix(s, n, key, key(d[j]));
    }
    forall j | 0 <= j < |r|
      ensures key(r[j]) in KeySet(s, key) && r[j] == s[First(s, key, key(r[j]))]
    {
      if j < |d| {
        assert r[j] == d[j];
      }
    }
    forall i, j | 0 <= i < j < |r|
      ensures First(s, key, key(r[i])) < First(s, key, key(r[j]))
    {
      assert r[i] == d[i];
      if j < |d| {
        assert r[j] == d[j];
      }
    }
  }

  /** A table whose keys are already unique is left unchanged by de-duplication. */
  lemma {:induction false} DedupUnique<T, K>(s: seq<T>, key: T -> K)
    requires UniqueKeys(s, key)
    ensures DedupBy(s, key) == s
    decreases |s|
  {
    if |s| > 0 {
      var n := |s| - 1;
      LastKeyNew(s, key);
      DedupUnique(s[..n], key);
      assert DedupBy(s, key) == DedupBy(s[..n], key) + [s[n]];
      assert s[..n] + [s[n]] == s;
    }
  }

  lemma LastKeyNew<T, K>(s: seq<T>, key: T -> K)
    requires |s| > 0 && UniqueKeys(s, key)
    ensures UniqueKeys(s[..|s| - 1], key)
    ensures key(s[|s| - 1]) !in KeySet(s[..|s| - 1], key)
  {
    var n := |s| - 1;
    forall i, j | 0 <= i < j < n ensures key(s[..n][i]) != key(s[..n][j]) {
      assert s[..n][i] == s[i] && s[..n][j] == s[j];
    }
    forall i | 0 <= i < n ensures key(s[..n][i]) != key(s[n]) {
      assert s[..n][i] == s[i];
    }
  }

  /** Every key of the input keeps a row in the de-duplicated table. */
  lemma DedupKeepsKey<T, K>(s: seq<T>, key: T -> K, x: T)
    requires x in s
    ensures exists y :: y in DedupBy(s, key) && key(y) == key(x)
  {
    var r := DedupBy(s, key);
    var j :| 0 <= j < |s| && s[j] == x;
    assert key(x) in KeySet(s, key);
    var m :| 0 <= m < |r| && key(r[m]) == key(x);
    assert r[m] in r;
  }

  function Itself<T>(x: T): T {
    x
  }

  /** `drop_duplicates()` over all columns: the first copy of every row, in order. */
  function DropDuplicates<T(==)>(s: seq<T>): (r: seq<T>)
    ensures |r| <= |s|
    ensures Distinct(r)
    ensures forall x :: x in r ==> x in s
    ensures forall x :: x in s ==> x in r
    ensures Distinct(s) ==> r == s
  {
    var r := DedupBy(s, Itself);
    forall x | x in s ensures x in r {
      var i :| 0 <= i < |s| && s[i] == x;
      assert Itself(s[i]) in KeySet(s, Itself);
      assert x in KeySet(r, Itself);
    }
    assert forall i, j :: 0 <= i < j < |r| ==> Itself(r[i]) != Itself(r[j]);
    DistinctUnchanged(s);
    r
  }

  lemma DistinctUnchanged<T>(s: seq<T>)
    ensures Distinct(s) ==> DedupBy(s, Itself) == s
  {
    if Distinct(s) {
      assert forall i, j :: 0 <= i < j < |s| ==> Itself(s[i]) != Itself(s[j]);
      DedupUnique(s, Itself);
    }
  }

  // ---------------------------------------------------------------------------
  // Left joins

  datatype Joined<A, B> = Joined(left: A, right: Option<B>)

  /** pandas `merge(left, right, how='left')` on a join condition: every left
      row is paired with each matching right row in order, or kept once with
      nothing when no right row matches. */
  function LeftJoin<A, B>(left: seq<A>, right: seq<B>, on: (A, B) -> bool): (r: seq<Joined<A, B>>)
    ensures |r| >= |left|
    ensures forall j :: j in r ==> j.left in left
    ensures forall j :: j in r && j.right.Some? ==> j.right.value in right && on(j.left, j.right.value)
    ensures forall j :: j in r && j.right.None? ==> forall b :: b in right ==> !on(j.left, b)
    ensures forall a, b :: a in left && b in right && on(a, b) ==> Joined(a, Some(b)) in r
    ensures forall a :: a in left && (forall b :: b in right ==> !on(a, b)) ==> Joined(a, None) in r
    decreases |left|
  {
    if |left| == 0 then []
    else
      var rest := LeftJoin(left[1..], right, on);
      assert forall x :: x in left[1..] ==> x in left;
      JoinOne(left[0], right, on) + rest
  }

  /** The right rows a left row is joined with. */
  function Matches<A, B>(a: A, right: seq<B>, on: (A, B) -> bool): seq<B> {
    Filter(right, MatchesOn(a, on))
  }

  /** The join condition with its left row fixed. */
  function MatchesOn<A, B>(a: A, on: (A, B) -> bool): B -> bool {
    b => on(a, b)
  }

  /** The rows a left join produces for one left row. */
  function JoinOne<A, B>(a: A, right: seq<B>, on: (A, B) -> bool): (r: seq<Joined<A, B>>)
    ensures |r| >= 1
    ensures forall j :: j in r ==> j.left == a
    ensures forall j :: j in r && j.right.Some? ==> j.right.value in right && on(a, j.right.value)
    ensures forall j :: j in r && j.right.None? ==> forall b :: b in right ==> !on(a, b)
    ensures forall b :: b in right && on(a, b) ==> Joined(a, Some(b)) in r
    ensures (forall b :: b in right ==> !on(a, b)) ==> Joined(a, None) in r
    ensures |Matches(a, right, on)| == 0 ==> r == [Joined(a, None)]
    ensures |Matches(a, right, on)| > 0 ==>
      |r| == |Matches(a, right, on)| && forall i :: 0 <= i < |r| ==> r[i] == Joined(a, Some(Matches(a, right, on)[i]))
  {
    var ms := Matches(a, right, on);
    if |ms| == 0 then [Joined(a, None)]
    else
      var r := MapSeq(ms, b => Joined(a, Some(b)));
      assert forall i :: 0 <= i < |r| ==> r[i] == Joined(a, Some(ms[i]));
      assert ms[0] in ms;
      forall j | j in r ensures j.left == a && j.right.Some? && j.right.value in right && on(a, j.right.value) {
        var i :| 0 <= i < |r| && r[i] == j;
        assert ms[i] in ms;
      }
      assert forall b :: b in right && on(a, b) ==> b in ms;
      assert forall b :: b in ms ==> Joined(a, Some(b)) in r by {
        forall b | b in ms ensures Joined(a, Some(b)) in r {
          var i :| 0 <= i < |ms| && ms[i] == b;
          assert r[i] == Joined(a, Some(b));
        }
      }
      r
  }

  /** When no left row has more than one match, the join keeps one row per left row, in order. */
  lemma {:induction false} LeftJoinAtMostOne<A, B>(left: seq<A>, right: seq<B>, on: (A, B) -> bool)
    requires forall a :: a in left ==> |Matches(a, right, on)| <= 1
    ensures |LeftJoin(left, right, on)| == |left|
    ensures forall i :: 0 <= i < |left| ==> LeftJoin(left, right, on)[i].left == left[i]
    decreases |left|
  {
    if |left| > 0 {
      assert left[0] in left;
      assert forall x :: x in left[1..] ==> x in left;
      LeftJoinAtMostOne(left[1..], right, on);
      JoinOneSingle(left[0], right, on);
      assert LeftJoin(left, right, on) == JoinOne(left[0], right, on) + LeftJoin(left[1..], right, on);
      OneRowEach(left, JoinOne(left[0], right, on), LeftJoin(left[1..], right, on));
    }
  }

  lemma OneRowEach<A, B>(left: seq<A>, one: seq<Joined<A, B>>, rest: seq<Joined<A, B>>)
    requires |left| > 0 && |one| == 1 && one[0].left == left[0]
    requires |rest| == |left| - 1 && forall i :: 0 <= i < |rest| ==> rest[i].left == left[1..][i]
    ensures |one + rest| == |left| && forall i :: 0 <= i < |left| ==> (one + rest)[i].left == left[i]
  {
    var r := one + rest;
    forall i | 0 <= i < |left| ensures r[i].left == left[i] {
      if i > 0 {
        assert r[i] == rest[i - 1] && left[1..][i - 1] == left[i];
      }
    }
  }

  /** Every left row survives a left join. */
  lemma LeftJoinKeepsLeft<A, B>(left: seq<A>, right: seq<B>, on: (A, B) -> bool, a: A)
    requires a in left
    ensures exists j :: j in LeftJoin(left, right, on) && j.left == a
  {
    var r := LeftJoin(left, right, on);
    if b :| b in right && on(a, b) {
      assert Joined(a, Some(b)) in r;
    } else {
      assert Joined(a, None) in r;
    }
  }

  lemma JoinOneSingle<A, B>(a: A, right: seq<B>, on: (A, B) -> bool)
    requires |Matches(a, right, on)| <= 1
    ensures |JoinOne(a, right, on)| == 1 && JoinOne(a, right, on)[0].left == a
  {
  }

  /** A sum over a left join, taken left row by left row. */
  lemma {:induction false} SumOverJoin<A, B>(left: seq<A>, right: seq<B>, on: (A, B) -> bool,
                                             g: Joined<A, B> -> Option<real>, h: A -> Option<real>)
    requires forall a :: a in left ==> Val(h(a)) == SumOf(JoinOne(a, right, on), g)
    ensures SumOf(LeftJoin(left, right, on), g) == SumOf(left, h)
    decreases |left|
  {
    if |left| > 0 {
      assert left[0] in left;
      assert forall x :: x in left[1..] ==> x in left;
      SumOverJoin(left[1..], right, on, g, h);
      SumOfAppend(JoinOne(left[0], right, on), LeftJoin(left[1..], right, on), g);
    }
  }

  /** What the rows of one left row add up to: the sum over its matches, an
      unmatched row contributing nothing. */
  lemma SumOverJoinOne<A, B>(a: A, right: seq<B>, on: (A, B) -> bool,
                             g: Joined<A, B> -> Option<real>, h: B -> Option<real>)
    requires Val(g(Joined(a, None))) == 0.0
    requires forall b :: b in right && on(a, b) ==> Val(g(Joined(a, Some(b)))) == Val(h(b))
    ensures SumOf(JoinOne(a, right, on), g) == SumOf(Matches(a, right, on), h)
  {
    var ms := Matches(a, right, on);
    var r := JoinOne(a, right, on);
    if |ms| > 0 {
      forall i | 0 <= i < |r| ensures Val(g(r[i])) == Val(h(ms[i])) {
        assert ms[i] in ms;
      }
      SumOfPointwise(r, g, ms, h);
    }
  }

  /** In a table without repeated rows, a column that only row `c` fills sums to that row's value. */
  lemma {:induction false} SumOfOnlyRow<T>(s: seq<T>, f: T -> Option<real>, c: T)
    requires Distinct(s)
    requires forall x :: x in s && x != c ==> Val(f(x)) == 0.0
    ensures SumOf(s, f) == if c in s then Val(f(c)) else 0.0
    decreases |s|
  {
    if |s| > 0 {
      var t := s[1..];
      assert forall i :: 0 <= i < |t| ==> t[i] == s[i + 1];
      assert forall x :: x in t ==> x in s;
      SumOfOnlyRow(t, f, c);
      if s[0] == c {
        assert c !in t;
      }
    }
  }

  /** Filtering a table without repeated rows repeats none. */
  lemma FilterDistinct<T>(s: seq<T>, p: T -> bool)
    requires Distinct(s)
    ensures Distinct(Filter(s, p))
  {
    assert forall i, j :: 0 <= i < j < |s| ==> Itself(s[i]) != Itself(s[j]);
    FilterUnique(s, p, Itself);
  }

  // ---------------------------------------------------------------------------
  // Concatenation

  /** Tables stacked one after another (repeated `append`). */
  function Concat<T>(ts: seq<seq<T>>): (r: seq<T>)
    ensures forall i, x :: 0 <= i < |ts| && x in ts[i] ==> x in r
    ensures forall x :: x in r ==> exists i :: 0 <= i < |ts| && x in ts[i]
    decreases |ts|
  {
    if |ts| == 0 then []
    else
      var n := |ts| - 1;
      var rest := Concat(ts[..n]);
      assert forall i :: 0 <= i < n ==> ts[..n][i] == ts[i];
      rest + ts[n]
  }

  /** Stacking one more table onto a prefix. */
  lemma ConcatStep<T>(ts: seq<seq<T>>, i: nat)
    requires i < |ts|
    ensures Concat(ts[..i + 1]) == Concat(ts[..i]) + ts[i]
  {
    assert ts[..i + 1][..i] == ts[..i];
  }

  /** The tables `f(x)` for each `x` of `xs`, stacked in order (pandas `concat`). */
  function ConcatMap<X, T>(xs: seq<X>, f: X -> seq<T>): (r: seq<T>)
    ensures forall x, t :: x in xs && t in f(x) ==> t in r
    ensures forall t :: t in r ==> exists x :: x in xs && t in f(x)
    decreases |xs|
  {
    if |xs| == 0 then []
    else
      var rest := ConcatMap(xs[1..], f);
      assert forall x :: x in xs[1..] ==> x in xs;
      assert forall x :: x in xs ==> x == xs[0] || x in xs[1..];
      f(xs[0]) + rest
  }

  /** Selecting the rows tagged `m` from a stack of tagged tables gives back table `m`. */
  lemma {:induction false} FilterConcatByTag<X, T>(xs: seq<X>, f: X -> seq<T>, p: T -> bool, m: X)
    requires Distinct(xs) && m in xs
    requires forall t :: t in f(m) ==> p(t)
    requires forall x, t :: x in xs && x != m && t in f(x) ==> !p(t)
    ensures Filter(ConcatMap(xs, f), p) == f(m)
    decreases |xs|
  {
    assert xs[0] in xs;
    FilterAppend(f(xs[0]), ConcatMap(xs[1..], f), p);
    assert forall x :: x in xs[1..] ==> x in xs;
    assert Distinct(xs[1..]) by {
      forall i, j | 0 <= i < j < |xs[1..]| ensures xs[1..][i] != xs[1..][j] {
        assert xs[1..][i] == xs[i + 1] && xs[1..][j] == xs[j + 1];
      }
    }
    if xs[0] == m {
      FilterAll(f(m), p);
      forall j | 0 <= j < |xs[1..]| ensures xs[1..][j] != m {
        assert xs[1..][j] == xs[j + 1];
      }
      FilterNone(ConcatMap(xs[1..], f), p);
    } else {
      assert m in xs[1..];
      FilterNone(f(xs[0]), p);
      FilterConcatByTag(xs[1..], f, p, m);
    }
  }

  lemma {:induction false} FilterAll<T>(s: seq<T>, p: T -> bool)
    requires forall x :: x in s ==> p(x)
    ensures Filter(s, p) == s
    decreases |s|
  {
    if |s| > 0 {
      assert s[0] in s;
      assert forall x :: x in s[1..] ==> x in s;
      FilterAll(s[1..], p);
    }
  }

  lemma FilterNone<T>(s: seq<T>, p: T -> bool)
    requires forall x :: x in s ==> !p(x)
    ensures Filter(s, p) == []
  {
  }

  // ---------------------------------------------------------------------------
  // Melting

  /** pandas `melt`: one row per (label, row) pair, label by label, each the
      cell `cell(row, label)`. */
  function Melt<R, C>(rows: seq<R>, labels: seq<string>, cell: (R, string) -> C): (r: seq<C>)
    ensures forall c :: c in r ==> exists x, l :: x in rows && l in labels && c == cell(x, l)
    ensures forall x, l :: x in rows && l in labels ==> cell(x, l) in r
    decreases |labels|
  {
    if |labels| == 0 then []
    else
      MeltLabelFacts(rows, labels[0], cell);
      assert forall l :: l in labels ==> l == labels[0] || l in labels[1..];
      MapSeq(rows, CellAt(cell, labels[0])) + Melt(rows, labels[1..], cell)
  }

  /** The column of cells of one label. */
  function CellAt<R, C>(cell: (R, string) -> C, l: string): R -> C {
    (x: R) => cell(x, l)
  }

  lemma MeltLabelFacts<R, C>(rows: seq<R>, l: string, cell: (R, string) -> C)
    ensures forall x :: x in rows ==> cell(x, l) in MapSeq(rows, CellAt(cell, l))
    ensures forall c :: c in MapSeq(rows, CellAt(cell, l)) ==> exists x :: x in rows && c == cell(x, l)
  {
    var col := MapSeq(rows, CellAt(cell, l));
    forall x | x in rows ensures cell(x, l) in col {
      var i :| 0 <= i < |rows| && rows[i] == x;
      assert col[i] == cell(x, l);
    }
    forall c | c in col ensures exists x :: x in rows && c == cell(x, l) {
      var i :| 0 <= i < |col| && col[i] == c;
      assert rows[i] in rows;
    }
  }

  /** A melt has one row per row and label. */
  lemma {:induction false} MeltLength<R, C>(rows: seq<R>, labels: seq<string>, cell: (R, string) -> C)
    ensures |Melt(rows, labels, cell)| == |labels| * |rows|
    decreases |labels|
  {
    if |labels| > 0 {
      var rest := Melt(rows, labels[1..], cell);
      MeltLength(rows, labels[1..], cell);
      assert |Melt(rows, labels, cell)| == |rows| + |rest|;
      MulSucc(|labels| - 1, |rows|);
    }
  }

  lemma MulSucc(n: nat, m: nat)
    ensures (n + 1) * m == m + n * m
  {
  }

  // ---------------------------------------------------------------------------
  // Group sums

  /** The distinct keys of `s`, in order of first appearance. */
  function GroupKeys<T, K(==)>(s: seq<T>, key: T -> K): (ks: seq<K>)
    ensures Distinct(ks)
    ensures forall x :: x in s ==> key(x) in ks
    ensures forall k :: k in ks ==> exists x :: x in s && key(x) == k
  {
    var all := MapSeq(s, key);
    var ks := DedupBy(all, k => k);
    assert UniqueKeys(ks, k => k);
    assert forall x :: x in s ==> key(x) in ks by {
      forall x | x in s ensures key(x) in ks {
        var i :| 0 <= i < |s| && s[i] == x;
        assert all[i] == key(x);
        assert key(x) in KeySet(all, k => k);
        var j :| 0 <= j < |ks| && ks[j] == key(x);
      }
    }
    assert forall k :: k in ks ==> exists x :: x in s && key(x) == k by {
      forall k | k in ks ensures exists x :: x in s && key(x) == k {
        var i :| 0 <= i < |all| && all[i] == k;
        assert s[i] in s;
      }
    }
    ks
  }

  /** pandas `groupby(key)[f].sum()` for one group. */
  function GroupSum<T, K(==)>(s: seq<T>, key: T -> K, k: K, f: T -> Option<real>): real {
    SumOf(Filter(s, KeyIs(key, k)), f)
  }

  /** The rows of group `k`. */
  function KeyIs<T, K(==)>(key: T -> K, k: K): T -> bool {
    x => key(x) == k
  }

  lemma GroupSumStep<T, K>(s: seq<T>, key: T -> K, k: K, f: T -> Option<real>)
    requires |s| > 0
    ensures GroupSum(s, key, k, f) == (if key(s[0]) == k then Val(f(s[0])) else 0.0) + GroupSum(s[1..], key, k, f)
  {
    var p := KeyIs(key, k);
    var head := if p(s[0]) then [s[0]] else [];
    assert Filter(s, p) == head + Filter(s[1..], p);
    SumOfAppend(head, Filter(s[1..], p), f);
    if p(s[0]) {
      assert head[1..] == [];
    }
  }

  /** Sum of the group sums of the keys `ks`. */
  function SumOverKeys<T, K(==)>(ks: seq<K>, s: seq<T>, key: T -> K, f: T -> Option<real>): real
    decreases |ks|
  {
    if |ks| == 0 then 0.0 else GroupSum(s, key, ks[0], f) + SumOverKeys(ks[1..], s, key, f)
  }

  /** How much one row with key `k` and value `v` adds to the group sums of `ks`. */
  function Indicator<K(==)>(ks: seq<K>, k: K, v: real): real
    decreases |ks|
  {
    if |ks| == 0 then 0.0 else (if ks[0] == k then v else 0.0) + Indicator(ks[1..], k, v)
  }

  lemma {:induction false} IndicatorDistinct<K>(ks: seq<K>, k: K, v: real)
    requires Distinct(ks)
    ensures Indicator(ks, k, v) == if k in ks then v else 0.0
    decreases |ks|
  {
    if |ks| > 0 {
      assert Distinct(ks[1..]) by {
        forall i, j | 0 <= i < j < |ks[1..]| ensures ks[1..][i] != ks[1..][j] {
          assert ks[1..][i] == ks[i + 1] && ks[1..][j] == ks[j + 1];
        }
      }
      IndicatorDistinct(ks[1..], k, v);
      if ks[0] == k {
        forall j | 0 <= j < |ks[1..]| ensures ks[1..][j] != k {
          assert ks[1..][j] == ks[j + 1];
        }
      } else {
        assert k in ks <==> k in ks[1..];
      }
    }
  }

  lemma {:induction false} SumOverKeysStep<T, K>(ks: seq<K>, s: seq<T>, key: T -> K, f: T -> Option<real>)
    requires |s| > 0
    ensures SumOverKeys(ks, s, key, f) == Indicator(ks, key(s[0]), Val(f(s[0]))) + SumOverKeys(ks, s[1..], key, f)
    decreases |ks|
  {
    if |ks| > 0 {
      GroupSumStep(s, key, ks[0], f);
      SumOverKeysStep(ks[1..], s, key, f);
    }
  }

  /** Group sums over a set of distinct keys covering every row partition the total. */
  lemma {:induction false} PartitionSum<T, K>(ks: seq<K>, s: seq<T>, key: T -> K, f: T -> Option<real>)
    requires Distinct(ks)
    requires forall x :: x in s ==> key(x) in ks
    ensures SumOverKeys(ks, s, key, f) == SumOf(s, f)
    decreases |s|
  {
    if |s| == 0 {
      ZeroGroups(ks, s, key, f);
    } else {
      assert s[0] in s;
      assert forall x :: x in s[1..] ==> x in s;
      SumOverKeysStep(ks, s, key, f);
      IndicatorDistinct(ks, key(s[0]), Val(f(s[0])));
      PartitionSum(ks, s[1..], key, f);
    }
  }

  lemma {:induction false} ZeroGroups<T, K>(ks: seq<K>, s: seq<T>, key: T -> K, f: T -> Option<real>)
    requires |s| == 0
    ensures SumOverKeys(ks, s, key, f) == 0.0
    decreases |ks|
  {
    if |ks| > 0 {
      ZeroGroups(ks[1..], s, key, f);
    }
  }
}

=== FILE: text.dfy ===
/** Case-insensitive literal substring search, as pandas
    `Series.str.contains(keyword, case=False, regex=False)` performs it:
    both the keyword and the text are upper-cased and the keyword is looked
    for as a plain substring. A missing text cell never matches. */
module Text {
  import opened Missing

  /** Upper-casing of one character (ASCII letters only). */
  function UpperChar(c: char): char {
    if 'a' <= c <= 'z' then (c as int - 32) as char else c
  }

  function Upper(s: string): (u: string)
    ensures |u| == |s|
  {
    seq(|s|, i requires 0 <= i < |s| => UpperChar(s[i]))
  }

  /** `p` occurs in `t` starting at position `i`. */
  ghost predicate OccursAt(p: string, t: string, i: int) {
    0 <= i && i + |p| <= |t| && t[i..i + |p|] == p
  }

  /** Python's `p in t`, by a left-to-right scan. */
  function Contains(t: string, p: string): (b: bool)
    ensures b <==> exists i :: OccursAt(p, t, i)
    decreases |t|
  {
    if |p| > |t| then
      assert forall i :: !OccursAt(p, t, i);
      false
    else if t[..|p|] == p then
      assert OccursAt(p, t, 0);
      true
    else
      var rest := Contains(t[1..], p);
      ShiftOccurrence(p, t);
      rest
  }

  /** Occurrences in `t` other than at 0 are exactly the occurrences in `t[1..]`, shifted by one. */
  lemma ShiftOccurrence(p: string, t: string)
    requires |t| > 0 && !OccursAt(p, t, 0)
    ensures (exists i :: OccursAt(p, t, i)) <==> (exists i :: OccursAt(p, t[1..], i))
  {
    if exists i :: OccursAt(p, t, i) {
      var i :| OccursAt(p, t, i);
      assert i >= 1;
      assert t[1..][i - 1..i - 1 + |p|] == t[i..i + |p|];
      assert OccursAt(p, t[1..], i - 1);
    }
    if exists i :: OccursAt(p, t[1..], i) {
      var i :| OccursAt(p, t[1..], i);
      assert t[1..][i..i + |p|] == t[i + 1..i + 1 + |p|];
      assert OccursAt(p, t, i + 1);
    }
  }

  /** `cell.str.contains(keyword, case=False, regex=False)`, a missing cell counting as no match. */
  function ContainsNoCase(cell: Option<string>, keyword: string): (b: bool)
    ensures b <==> cell.Some? && exists i :: OccursAt(Upper(keyword), Upper(cell.value), i)
  {
    cell.Some? && Contains(Upper(cell.value), Upper(keyword))
  }

  /** Matching ignores letter case on both sides. */
  lemma ContainsNoCaseIgnoresCase(t: string, t': string, k: string, k': string)
    requires Upper(t) == Upper(t') && Upper(k) == Upper(k')
    ensures ContainsNoCase(Some(t), k) == ContainsNoCase(Some(t'), k')
  {
  }

  /** A lower-case keyword is found inside a capitalised description. */
  lemma SolarPanelExample()
    ensures ContainsNoCase(Some("Solar Panels"), "solar panel")
  {
    var t := Upper("Solar Panels");
    var p := Upper("solar panel");
    assert forall i :: 0 <= i < 11 ==> t[i] == p[i];
    assert t[0..11] == p;
    assert OccursAt(p, t, 0);
  }
}
